=== FILE: README.md ===
# Echo task tracker — a Dafny model

Echo is a command-line chatbot that keeps a list of tasks. The list holds to-dos,
deadlines and events. The user types one line at a time. Echo reads the command word and
dispatches it to a handler. The handler checks the line's argument, changes at most one
thing in the list, rewrites the data file, and answers.

This project models the packaged core under `src/main/java/echo/` as immutable data and
pure functions, and proves what each part promises; where a contract is weaker than its class,
the member's line under "## Left out" says how. Each module matches one class, except the two
that restate the unit tests' examples:

| Dafny module | file | models |
|---|---|---|
| `Wrappers` | `wrappers.dfy` | `Option`, `Result` (a value or an `EchoException` message), `Outcome` (a validator that returns or throws) |
| `JavaText` | `java_text.dfy` | `String.trim`, `contains`, `String.join` and `split`. `split` covers the regular expressions the tracker uses: literal alternations and `\s+`. Trailing empty pieces are dropped, or kept when the limit is 2 |
| `Decimal` | `decimal.dfy` | `Integer.toString`, `Integer.parseInt` with its 32-bit range, Java `int` wrap-around, zero-padded date fields |
| `DateTimeParser` | `date_time.dfy` | `parseDateTime` (`yyyy-MM-dd HHmm`, SMART resolution), `parseDate` (ISO, strict), and the English displays `MMM d yyyy, h:mma` and `MMM d yyyy` |
| `DateExamples` | `date_examples.dfy` | the date texts of the tracker's own unit tests |
| `TaskExamples` | `task_examples.dfy` | the display lines of the tracker's own unit tests |
| `Tasks` | `task.dfy` | `Task`, `Todo`, `Deadline` and `Event` as one tagged union. Date fields go through the date-time, else date, else raw-text cascade. Covers the status icon, `markDone`/`markNotDone`, `toString` and `toFileFormat` |
| `TaskLists` | `task_list.dfy` | `TaskList`: `add`, `get`, `remove`, `size`, `findTasks` |
| `Storage` | `storage.dfy` | `parseTask`, the skip-and-continue loop of `load`, and the record writing of `save`. The file is its sequence of lines |
| `InputValidator` | `input_validator.dfy` | the five `require*` checks |
| `Parser` | `parser.dfy` | `getCommand`, `getDescription`, `getTaskNumber`, `parseDeadline`, `parseEvent` |
| `StringFormatter` | `string_formatter.dfy` | `formatTaskCount`, `formatListItem`, `formatTaskAdded`, `formatTaskRemoved` |
| `Echo` | `echo.dfy` | the handlers, the dispatch in `run` as a transition of the task list, and the constructor's load |

A handler's result is a `Transition`, which holds three things:
- the new list;
- a `Reply` value, which stands for what the console would print;
- the lines handed to the storage, if the handler saved.

Whether that save succeeds is a parameter of `Echo.Step`: `None`, or the message of the
`IOException`.

Java's `int` is modelled where it matters. `taskNumber - 1` and `index + 1` wrap around
(`Decimal.Wrap32`), `parseInt` rejects values outside 32 bits, and `Echo.WrapVerdict`
proves that the wrap-around never changes which task numbers are accepted.

## Model

| member | source | states |
|---|---|---|
| JavaText.Trim | src/main/java/echo/parser/Parser.java:33 | `trim` keeps the infix that begins and ends with a visible character; everything before and after it is at or below U+0020; the result is empty exactly when the text is blank |
| JavaText.TrimIdempotent | src/main/java/echo/parser/Parser.java:33 | trimming a trimmed text changes nothing |
| JavaText.TrimFramed | src/main/java/echo/parser/Parser.java:33 | blanks, then a text with visible ends, then blanks, trim to that text |
| JavaText.SplitEmpty | src/main/java/echo/parser/Parser.java:19 | `split("\\s+")` returns no elements exactly when the input is non-empty and all whitespace |
| JavaText.FirstPiece | src/main/java/echo/parser/Parser.java:19 | the first piece of a `\s+` split is the longest whitespace-free prefix of the text |
| JavaText.SecondToken | src/main/java/echo/parser/Parser.java:44-45 | in `word, whitespace, token, rest`, element 1 of the `\s+` split is the token |
| JavaText.FirstMatchOfLiteral | src/main/java/echo/parser/Parser.java:68 | searching for a literal delimiter finds its first occurrence, or proves that it does not occur |
| JavaText.Split | src/main/java/echo/storage/Storage.java:99 | `split(regex)`: text without a match is its own only element |
| JavaText.SplitPieces | src/main/java/echo/storage/Storage.java:99 | with a match, the pieces between successive leftmost matches are the split followed by empty pieces only, and the split does not end with an empty piece: only trailing empty pieces are dropped |
| JavaText.SplitOnce | src/main/java/echo/parser/Parser.java:68 | `split(regex, 2)`: one or two elements; with a match, the first is the text before the first match, and first element, match and second element make up the text again |
| JavaText.JoinPieces | src/main/java/echo/storage/Storage.java:99 | splitting on one literal separator and joining the pieces with it restores the text |
| JavaText.PiecesAvoidDelimiter | src/main/java/echo/storage/Storage.java:99 | no piece of a literal split contains the separator |
| JavaText.SplitOfJoin | src/main/java/echo/storage/Storage.java:99 | fields joined by a separator split back into the fields, when no field but the last holds the separator's key character, the last holds no match, and the last is not empty |
| JavaText.PiecesAllEmpty | src/main/java/echo/parser/Parser.java:19 | the pieces of a `\s+` split are all empty exactly when the text is all whitespace |
| Decimal.NatToString | src/main/java/echo/util/StringFormatter.java:47 | a number is written as canonical decimal digits (no superfluous leading zero) that denote it |
| Decimal.NatToStringOfValue | src/main/java/echo/util/StringFormatter.java:47 | every canonical digit string is the text of its own value, so writing numbers is onto canonical texts |
| Decimal.IntToString | src/main/java/echo/util/StringFormatter.java:47 | an `int` is written non-empty, with a leading minus exactly when it is negative |
| Decimal.ParseInt | src/main/java/echo/parser/Parser.java:49 | `parseInt` yields only 32-bit values, never from empty text, and a negative value only after a minus sign |
| Decimal.ParseIntToString | src/main/java/echo/parser/Parser.java:49 | every Java `int` reads back from its own text |
| Decimal.ParseIntOutOfRange | src/main/java/echo/parser/Parser.java:49 | a correctly written number outside the 32-bit range is rejected |
| Decimal.ParseIntUnsigned | src/main/java/echo/parser/Parser.java:49 | unsigned digit text, leading zeros included, reads as its value when that fits an `int` |
| Decimal.ParseIntSigned | src/main/java/echo/parser/Parser.java:49 | a leading `+` or `-` applies to the value of the digits after it |
| Decimal.ParseIntRejectsNonDigit | src/main/java/echo/parser/Parser.java:49 | a character other than a digit, beyond one leading sign, makes the text unreadable |
| Decimal.ParseIntExamples | src/test/java/echo/util/InputValidatorTest.java:126-130 | `+5` reads as 5, while `3.14` and a lone `-` are rejected |
| Decimal.Wrap32 | src/main/java/echo/Echo.java:117 | Java `int` arithmetic: the result is in the 32-bit range and congruent to the exact value modulo 2^32 |
| Decimal.FixedDigits | src/main/java/echo/util/DateTimeParser.java:13-14 | a zero-padded field has exactly the pattern's width, only digits, and denotes the number |
| Decimal.FixedDigitsOfValue | src/main/java/echo/util/DateTimeParser.java:13-14 | every digit string is the padded text of its own value |
| Decimal.NatToStringWidth | src/main/java/echo/util/DateTimeParser.java:15-16 | a number below 10^w is written unpadded in at most w digits |
| DateTimeParser.MonthLength | src/main/java/echo/util/DateTimeParser.java:42 | months have 28 to 31 days, and 29 exactly for February of a Gregorian leap year |
| DateTimeParser.NextDay | src/main/java/echo/util/DateTimeParser.java:28 | the day after a date is a real date, later than it, with no real date in between |
| DateTimeParser.ParseDate | src/main/java/echo/util/DateTimeParser.java:40-46 | `parseDate` is total: a real calendar date with a year from 0 to 9999, or nothing |
| DateTimeParser.ParseDateIso | src/main/java/echo/util/DateTimeParser.java:40-46 | `parseDate` accepts a text exactly when it is the ISO text of a real date with a four-digit year |
| DateTimeParser.ParseIsoText | src/main/java/echo/util/DateTimeParser.java:40-46 | ISO text built from three numbers is read as that date when it exists and refused otherwise |
| DateTimeParser.ParsedDateIsIso | src/main/java/echo/util/DateTimeParser.java:40-46 | any text `parseDate` accepts is the ISO text of the date it returns |
| DateTimeParser.Resolve | src/main/java/echo/util/DateTimeParser.java:13-14 | SMART resolution: fields in range are accepted, a day past month end moves to the last day, and 24:00 is 00:00 on the next day after that (clamped) date |
| DateTimeParser.ParseDateTime | src/main/java/echo/util/DateTimeParser.java:26-32 | `parseDateTime` is total: a valid date-time with a year from 1 to 10000, or nothing |
| DateTimeParser.ParsedDateTimeIsRaw | src/main/java/echo/util/DateTimeParser.java:26-32 | any accepted text has the exact shape `yyyy-MM-dd HHmm`, and its value is the resolution of its five numbers |
| DateTimeParser.ParseRawText | src/main/java/echo/util/DateTimeParser.java:26-32 | every text of that shape is resolved from its five numbers |
| DateTimeParser.ParseInputText | src/main/java/echo/util/DateTimeParser.java:26-32 | every date-time with a year from 1 to 9999 reads back from its input text |
| DateTimeParser.PatternsExclusive | src/main/java/echo/util/DateTimeParser.java:26-46 | no text is accepted by both patterns |
| DateTimeParser.MonthNumber | src/main/java/echo/util/DateTimeParser.java:15-18 | an English month abbreviation names a month between 1 and 12 whose abbreviation it is |
| DateTimeParser.MonthNumberOfAbbrev | src/main/java/echo/util/DateTimeParser.java:15-18 | every month's abbreviation names that month |
| DateTimeParser.YearText | src/main/java/echo/util/DateTimeParser.java:15-18 | `yyyy` writes years 1 to 9999 as four digits denoting the year, and year 0 as `0001` (year of era) |
| DateTimeParser.ClockHour | src/main/java/echo/util/DateTimeParser.java:15-16 | `h` is between 1 and 12, and together with the half of the day it determines the 24-hour hour |
| DateTimeParser.FormatDate | src/main/java/echo/util/DateTimeParser.java:64-66 | the `MMM d yyyy` display of a date with a four-digit year reads back to the date |
| DateTimeParser.ReadFormatClock | src/main/java/echo/util/DateTimeParser.java:15-16 | the `h:mma` display reads back to the same hour and minute |
| DateTimeParser.FormatDateTime | src/main/java/echo/util/DateTimeParser.java:54-56 | the `MMM d yyyy, h:mma` display of a date-time with a four-digit year reads back to it |
| DateExamples.DateTimeExample | src/test/java/echo/task/DeadlineTest.java:65-69 | `2019-12-15 1800` is the date-time 2019-12-15 18:00 |
| DateExamples.DateTimeDisplayExample | src/test/java/echo/task/DeadlineTest.java:65-69 | that date-time is shown as `Dec 15 2019, 6:00PM` |
| DateExamples.AfternoonDisplayExample | src/test/java/echo/task/EventTest.java:82-86 | 2019-12-05 14:00 is shown as `Dec 5 2019, 2:00PM` |
| DateExamples.DateExample | src/test/java/echo/task/DeadlineTest.java:59-63 | `2019-12-15` fails the date-time pattern, is the date 2019-12-15, and is shown as `Dec 15 2019` |
| DateExamples.FreeTextExample | src/test/java/echo/task/EventTest.java:39-46 | `Sunday` and `Saturday 8pm` are neither a date-time nor a date |
| DateExamples.ClampExample | src/main/java/echo/util/DateTimeParser.java:13-14 | the date-time pattern turns `2019-02-30 1200` into February 28 |
| DateExamples.StrictExample | src/main/java/echo/util/DateTimeParser.java:42 | the ISO date parser rejects `2019-02-30` |
| DateExamples.MidnightExample | src/main/java/echo/util/DateTimeParser.java:13-14 | `2019-12-31 2400` is midnight on 2020-01-01 |
| DateExamples.Dec10Example | src/test/java/echo/task/EventTest.java:75-79 | `2019-12-10` fails the date-time pattern, is the date 2019-12-10, and is shown as `Dec 10 2019` |
| DateExamples.Dec12Example | src/test/java/echo/task/EventTest.java:75-79 | `2019-12-12` fails the date-time pattern, is the date 2019-12-12, and is shown as `Dec 12 2019` |
| DateExamples.Dec5At1400Example | src/test/java/echo/task/EventTest.java:81-85 | `2019-12-05 1400` is the date-time 2019-12-05 14:00 |
| DateExamples.Dec5At1600Example | src/test/java/echo/task/EventTest.java:81-85 | `2019-12-05 1600` is the date-time 2019-12-05 16:00 |
| DateExamples.Dec5At4PmDisplay | src/test/java/echo/task/EventTest.java:81-85 | 2019-12-05 16:00 is shown as `Dec 5 2019, 4:00PM` |
| Tasks.Interpret | src/main/java/echo/task/Deadline.java:29-34 | a date field is a date-time exactly when the date-time pattern accepts it, a date exactly when only the date pattern does, and raw text otherwise |
| Tasks.InterpretInputText | src/main/java/echo/task/Deadline.java:29-34 | text in the input pattern is read as the date-time it spells |
| Tasks.InterpretIsoText | src/main/java/echo/task/Deadline.java:29-34 | an ISO date is read as a date, because the date-time pattern never accepts it |
| Tasks.Show | src/main/java/echo/task/Deadline.java:57-64 | an unparsed date field is shown as the raw text the user wrote; a parsed date or date-time with a four-digit year is shown as text that reads back to the parsed value |
| Tasks.NewTodo | src/main/java/echo/task/Todo.java:14-16 | a new to-do is not done and keeps its description verbatim |
| Tasks.NewDeadline | src/main/java/echo/task/Deadline.java:25-35 | a new deadline is not done, keeps its description and due text, and holds what the cascade makes of that text |
| Tasks.NewEvent | src/main/java/echo/task/Event.java:29-47 | a new event is not done, keeps its texts, and interprets its start and end independently |
| Tasks.StatusIcon | src/main/java/echo/task/Task.java:28-30 | the icon is one character: `X` exactly when done, a space exactly when not |
| Tasks.MarkDone | src/main/java/echo/task/Task.java:35-37 | `markDone` sets the flag and changes nothing else |
| Tasks.MarkNotDone | src/main/java/echo/task/Task.java:42-44 | `markNotDone` clears the flag and changes nothing else |
| Tasks.MarkIdempotent | src/main/java/echo/task/Task.java:35-44 | marking twice is marking once, both ways |
| Tasks.MarkThenUnmark | src/test/java/echo/task/TodoTest.java:24-30 | marking a fresh task done and then not done restores it, icon included |
| Tasks.MarkKeepsInterpretation | src/main/java/echo/task/Task.java:35-44 | marking leaves the parsed date fields as the cascade made them |
| Tasks.Fields | src/main/java/echo/task/Task.java:61-63 | a record's fields are the type letter, the status digit, the description, then the raw date texts |
| Tasks.Record | src/main/java/echo/task/Event.java:56-58 | every record is its fields joined by ` \| `: type letter, status digit, description, then the raw date texts |
| Tasks.RecordHead | src/main/java/echo/task/Task.java:61-63 | a record starts with the type letter, ` \| `, the status digit, ` \| ` and the description |
| Tasks.Display | src/main/java/echo/task/Task.java:71-73 | a display line starts with `[type]`, then `[icon] ` and the description. A to-do's line ends there. A deadline's continues with ` (by: `, its due date as `Tasks.Show` gives it, and `)`. An event's continues with ` (from: `, its start, ` to: `, its end and `)` |
| TaskExamples.TodoLine | src/main/java/echo/task/Todo.java:36-38 | a to-do's line is `[T][ ] ` and its description, and `[T][X] ` and its description once marked |
| TaskExamples.DeadlineLine | src/main/java/echo/task/Deadline.java:56-66 | a deadline's line is `[D][ ] ` (`[D][X] ` once marked), the description, then ` (by: ` + the shown due date + `)` |
| TaskExamples.EventLine | src/main/java/echo/task/Event.java:68-89 | an event's line is `[E][ ] ` (`[E][X] ` once marked), the description, then ` (from: ` + the shown start + ` to: ` + the shown end + `)` |
| TaskExamples.TodoDisplayExample | src/test/java/echo/task/TodoTest.java:31-42 | `buy milk` shows as `[T][ ] buy milk`, and as `[T][X] buy milk` once marked |
| TaskExamples.DeadlineRawExample | src/test/java/echo/task/DeadlineTest.java:70-75 | a due text that is no date is shown as written: `[D][X] return book (by: Sunday)` once marked, `[D][ ] homework (by: Sunday)` before |
| TaskExamples.DeadlineDateExample | src/test/java/echo/task/DeadlineTest.java:16-21 | `homework` due `2019-12-15` shows as `[D][ ] homework (by: Dec 15 2019)` |
| TaskExamples.DeadlineDateTimeExample | src/test/java/echo/task/DeadlineTest.java:23-28 | `submit report` due `2019-12-15 1800` shows as `[D][ ] submit report (by: Dec 15 2019, 6:00PM)` |
| TaskExamples.EventRawExample | src/test/java/echo/task/EventTest.java:87-92 | `meeting` from `Mon 2pm` to `4pm` shows both ends as written, with `[E][ ]` before and `[E][X]` after marking |
| TaskExamples.EventDateExample | src/test/java/echo/task/EventTest.java:75-79 | `conference` from `2019-12-10` to `2019-12-12` shows as `[E][ ] conference (from: Dec 10 2019 to: Dec 12 2019)` |
| TaskExamples.EventDateTimeExample | src/test/java/echo/task/EventTest.java:81-85 | `workshop` from `2019-12-05 1400` to `2019-12-05 1600` shows as `[E][ ] workshop (from: Dec 5 2019, 2:00PM to: Dec 5 2019, 4:00PM)` |
| Tasks.TailsIgnoreStatus | src/main/java/echo/task/Deadline.java:44-66 | the status flag does not reach the date part of the display line or of the record |
| Tasks.StatusChangesDisplayIcon | src/test/java/echo/task/DeadlineTest.java:71-76 | changing the status changes exactly one character of the display line, the icon at position 4 |
| Tasks.StatusChangesRecordDigit | src/test/java/echo/task/DeadlineTest.java:84-89 | changing the status changes exactly one character of the record, the digit at position 4 |
| TaskLists.Add | src/main/java/echo/tasklist/TaskList.java:19-21 | `add` grows the list by one, puts the task last, and keeps every earlier position |
| TaskLists.Get | src/main/java/echo/tasklist/TaskList.java:27-29 | `get` returns the task at a position of the list, and fails for every other index |
| TaskLists.Remove | src/main/java/echo/tasklist/TaskList.java:23-25 | `remove` returns the task at the index and shifts every later task down by one; it fails outside the list |
| TaskLists.RemoveThenInsert | src/main/java/echo/tasklist/TaskList.java:23-25 | putting the removed task back where it was restores the list |
| TaskLists.RemoveAdded | src/main/java/echo/tasklist/TaskList.java:19-25 | removing the task just added gives back the old list |
| TaskLists.Find | src/main/java/echo/tasklist/TaskList.java:39-47 | `findTasks` returns no more tasks than the list has, each of them a task of the list whose description contains the keyword |
| TaskLists.FindMembers | src/main/java/echo/tasklist/TaskList.java:39-47 | a task is found exactly when it is in the list and its description contains the keyword, case-sensitively |
| TaskLists.FindAppend | src/main/java/echo/tasklist/TaskList.java:41-45 | filtering commutes with concatenation, so matches keep their list order |
| TaskLists.FindAllOrNothing | src/main/java/echo/tasklist/TaskList.java:39-47 | the whole list comes back when every description matches, and nothing when none does |
| TaskLists.FindTasks | src/main/java/echo/tasklist/TaskList.java:39-47 | the loop of `findTasks` computes the filter, and finds exactly the matching tasks |
| Storage.TrimAll | src/main/java/echo/storage/Storage.java:104-106 | every field is trimmed and none is lost |
| Storage.ParseTask | src/main/java/echo/storage/Storage.java:97-146 | a line without ` \| ` reads as nothing; a line that reads gives an interpreted, well-formed task |
| Storage.ParseTaskFields | src/main/java/echo/storage/Storage.java:99-110 | a task read from a line has as type letter, status and description the first three trimmed fields of the split |
| Storage.Build | src/main/java/echo/storage/Storage.java:113-138 | the type switch builds a task exactly for `T`, for `D` with four fields and for `E` with five, keeping type and description, not yet done |
| Storage.ParseFields | src/main/java/echo/storage/Storage.java:100-145 | a line of fewer than three fields reads as nothing; a task read has the type and description of its trimmed fields, is done exactly when the status field is `1`, and has its dates interpreted |
| Storage.LoadWith | src/main/java/echo/storage/Storage.java:74-85 | every loaded task comes from a line of the file, and there are no more tasks than lines |
| Storage.Load | src/main/java/echo/storage/Storage.java:58-88 | every loaded task has well-formed date fields as the cascade makes them |
| Storage.LoadAppend | src/main/java/echo/storage/Storage.java:74-85 | loading two parts of a file separately gives the tasks of the whole, in order |
| Storage.SkipsCorruptLine | src/main/java/echo/storage/Storage.java:76-84 | a line that does not read is skipped and loading carries on past it |
| Storage.KeepsGoodLine | src/main/java/echo/storage/Storage.java:77-80 | a line that reads contributes its task at its place in the file |
| Storage.LoadLines | src/main/java/echo/storage/Storage.java:73-87 | the scanner loop computes the load |
| Storage.Save | src/main/java/echo/storage/Storage.java:165-169 | saving writes one line per task, in list order, each the task's record |
| Storage.RecordUnbroken | src/main/java/echo/storage/Storage.java:166-168 | the record of a storable task holds no line break, so each task occupies exactly one line of the file |
| Storage.RecordSplits | src/main/java/echo/storage/Storage.java:99 | the record of a task with storable fields splits into its fields |
| Storage.FieldsTrimmed | src/main/java/echo/storage/Storage.java:104-106 | the fields of such a record are already trimmed |
| Storage.BuildFields | src/main/java/echo/storage/Storage.java:113-138 | the type switch rebuilds a storable task from its fields, not yet marked |
| Storage.FieldsRead | src/main/java/echo/storage/Storage.java:100-145 | a storable task's fields read back to the task, status included |
| Storage.ParseRecord | src/main/java/echo/storage/Storage.java:97-146 | reading a storable task's record gives the task back |
| Storage.LoadAllGood | src/main/java/echo/storage/Storage.java:74-85 | lines that each read to a task load to exactly those tasks, in order |
| Storage.LoadSave | src/main/java/echo/storage/Storage.java:166-168 | saving storable tasks and loading the file gives the same tasks in the same order |
| Storage.NoneRecurrence | src/main/java/echo/storage/Storage.java:123-127 | a sixth event field `none` reads exactly like a five-field event |
| Storage.OtherRecurrence | src/main/java/echo/storage/Storage.java:128-130 | any other sixth field is kept as the event's recurrence tag, and nothing else changes |
| Storage.LooseRoundTripFails | src/main/java/echo/storage/Storage.java:99 | a description that is trimmed and free of ` \| ` can still fail to read back: `a \|` due `b` reads as `a` due `\| b` |
| InputValidator.RequireNonEmpty | src/main/java/echo/util/InputValidator.java:22-26 | fails exactly when the input is missing or blank, with `<field> cannot be empty.` |
| InputValidator.NonEmptyAround | src/main/java/echo/util/InputValidator.java:22-26 | any text with a visible character passes |
| InputValidator.RequireDelimiter | src/main/java/echo/util/InputValidator.java:36-41 | fails exactly when the delimiter does not occur, with the caller's message unchanged |
| InputValidator.DelimiterSpliced | src/main/java/echo/util/InputValidator.java:36-41 | text with the delimiter spliced in passes, and the empty delimiter is in every text |
| InputValidator.RequireValidTaskIndex | src/main/java/echo/util/InputValidator.java:54-59 | passes exactly for `0 <= index < max`; the failure message starts with the range text |
| InputValidator.RangeMessageNamesBound | src/main/java/echo/util/InputValidator.java:56-57 | the failure message ends with the upper bound, readable by `parseInt`, and a full stop |
| InputValidator.RequirePositiveInteger | src/main/java/echo/util/InputValidator.java:69-79 | a result is positive and is what `parseInt` reads from the trimmed text; "must be a valid number." exactly when the text is not an `int`, otherwise "must be a positive number." |
| InputValidator.PositiveOfText | src/main/java/echo/util/InputValidator.java:69-79 | any written `int` with blanks around it is returned when positive and refused as not positive otherwise |
| InputValidator.NotANumberExample | src/test/java/echo/util/InputValidatorTest.java:119-123 | `abc` is reported as not a valid number |
| InputValidator.RequireMinParts | src/main/java/echo/util/InputValidator.java:89-99 | passes exactly when there are enough parts and none of the first ones is blank; later parts are not looked at |
| Parser.GetCommand | src/main/java/echo/parser/Parser.java:18-20 | as written, raises exactly on non-empty all-whitespace input, with the index error; otherwise returns the longest whitespace-free prefix |
| Parser.CommandWord | src/main/java/echo/parser/Parser.java:18-20 | the intended command word: the longest whitespace-free prefix, empty for blank or space-led input |
| Parser.GetCommandCorrected | src/main/java/echo/parser/Parser.java:18-20 | the two agree wherever `getCommand` returns, and the intended word is empty where it raises |
| Parser.BlankCommandRaises | src/main/java/echo/parser/Parser.java:18-20 | a single space makes `getCommand` raise |
| Parser.CommandBeforeSpaces | src/main/java/echo/parser/Parser.java:18-20 | the command word is the text before the first whitespace run, however long that run is |
| Parser.CommandAlone | src/main/java/echo/parser/Parser.java:18-20 | input without whitespace is its own command word |
| Parser.ExtraSpacesExample | src/test/java/echo/parser/ParserTest.java:36-39 | `todo    buy milk` has the command `todo` and the argument `buy milk` |
| Parser.GetDescription | src/main/java/echo/parser/Parser.java:29-34 | the argument is trimmed, and empty exactly when the input is no longer than the command or blank after it |
| Parser.DescriptionAfter | src/main/java/echo/parser/Parser.java:29-34 | command, blanks, argument and blanks give back the argument |
| Parser.DescriptionIgnoresCommandText | src/main/java/echo/parser/Parser.java:29-34 | only the length of the command word matters, not its text |
| Parser.GetTaskNumber | src/main/java/echo/parser/Parser.java:43-53 | the number is a 32-bit `int` from the second token, with no range check; a missing and an unreadable number fail with different messages |
| Parser.TaskNumberOf | src/main/java/echo/parser/Parser.java:44-52 | the second token decides: blank is missing, text `parseInt` rejects is invalid, anything else is read |
| Parser.TaskNumberRoundTrip | src/main/java/echo/parser/Parser.java:49 | every `int`, zero and negatives included, reads back as the task number |
| Parser.TaskNumberMissing | src/main/java/echo/parser/Parser.java:45-46 | a command followed only by whitespace has no task number |
| Parser.ParseDeadline | src/main/java/echo/parser/Parser.java:64-73 | without `/by` the first message, otherwise the second or success; a success is the two non-empty trimmed sides of the first ` /by `, and whenever both sides of the first ` /by ` hold a visible character the result is a success |
| Parser.DeadlineOfParts | src/main/java/echo/parser/Parser.java:68-72 | a description without ` /`, then ` /by `, then anything is cut at that first delimiter |
| Parser.SlashInDescriptionExample | src/main/java/echo/parser/Parser.java:64-72 | `read 1/2 of book /by Sunday` keeps the slash in the description |
| Parser.MultipleByExample | src/test/java/echo/parser/ParserTest.java:128-131 | `task /by Sunday /by Monday` keeps the later `/by` in the due text |
| Parser.ParseEvent | src/main/java/echo/parser/Parser.java:84-94 | without both `/from` and `/to` the first message, otherwise the second or success; a success is the first three pieces of the alternation split, trimmed, and whenever both keywords occur and those three pieces hold a visible character the result is a success |
| Parser.EventOfParts | src/main/java/echo/parser/Parser.java:89-93 | three texts without ` /` come back trimmed in text order, with the delimiters in either order |
| Parser.EventExtraPieces | src/main/java/echo/parser/Parser.java:89-93 | pieces after the third are ignored: a fourth delimiter and anything after it change nothing |
| Parser.EventPieces | src/main/java/echo/parser/Parser.java:89 | the alternation split yields the three texts, none of which contains ` /` |
| Parser.WrongOrderExample | src/test/java/echo/parser/ParserTest.java:189-194 | `meeting /to 4pm /from Mon 2pm` parses, the start being `4pm` |
| Parser.SlashInStartExample | src/main/java/echo/parser/Parser.java:89-93 | `meeting /from 12/15 2pm /to 4pm` keeps the slash in the start |
| Parser.ExtraPieceExample | src/main/java/echo/parser/Parser.java:89-93 | `a /from b /to c /to d` parses as description `a`, start `b`, end `c` |
| StringFormatter.FormatTaskCount | src/main/java/echo/util/StringFormatter.java:46-48 | the count ends with ` task` or ` tasks`, the plural exactly when the count is not 1 |
| StringFormatter.TaskCountReadsBack | src/main/java/echo/util/StringFormatter.java:46-48 | every count reads back from its text, whose noun agrees with it |
| StringFormatter.FormatListItem | src/main/java/echo/util/StringFormatter.java:57-59 | a list line ends with the item text |
| StringFormatter.ListItemReadsBack | src/main/java/echo/util/StringFormatter.java:57-59 | cutting a list line at its first `. ` gives the one-based position and the item |
| StringFormatter.FormatTaskAdded | src/main/java/echo/util/StringFormatter.java:20-23 | the confirmation starts with the addition header on a line of its own |
| StringFormatter.FormatTaskRemoved | src/main/java/echo/util/StringFormatter.java:32-35 | the confirmation starts with the removal header on a line of its own |
| StringFormatter.ReportLines | src/main/java/echo/util/StringFormatter.java:20-23 | a confirmation is exactly three lines: header, indented task, count |
| StringFormatter.ConfirmationLines | src/main/java/echo/util/StringFormatter.java:20-35 | both confirmations have three lines and differ only in the header |
| Echo.Position | src/main/java/echo/Echo.java:117-120 | an accepted position is inside the list and is the task number minus one in `int` arithmetic; otherwise the parser's message or "Task number doesn't exist." |
| Echo.Target | src/main/java/echo/Echo.java:114-120 | a target is inside the list, and a line without an argument is refused with the command's own message |
| Echo.WrapVerdict | src/main/java/echo/Echo.java:117-118 | the wrap-around of `n - 1` accepts exactly 1..size, as the range validator would decide |
| Echo.PositionOf | src/main/java/echo/Echo.java:117-120 | a number within 1..size names the position one below it; every other `int`, the smallest included, names none |
| Echo.TargetOf | src/main/java/echo/Echo.java:114-120 | a line with an argument and a readable number targets the position one below it, when in range |
| Echo.SetStatus | src/main/java/echo/Echo.java:113-124 | mark or unmark keeps the list length; every task that changes changes only its flag, to the requested value; the file gets the new list |
| Echo.StatusChange | src/main/java/echo/Echo.java:121-123 | only task i changes, its flag set as requested, and the list is saved and the task shown |
| Echo.HandleMark | src/main/java/echo/Echo.java:113-124 | `handleMark` saves exactly the list it leaves and never ends the loop |
| Echo.HandleUnmark | src/main/java/echo/Echo.java:134-145 | `handleUnmark` saves exactly the list it leaves and never ends the loop |
| Echo.HandleTodo | src/main/java/echo/Echo.java:154-163 | the list is unchanged, or gains exactly one new unfinished to-do at the end with a non-empty description |
| Echo.HandleDeadline | src/main/java/echo/Echo.java:173-180 | the list is unchanged, or gains one unfinished deadline at the end with non-empty description and due text |
| Echo.HandleEvent | src/main/java/echo/Echo.java:190-197 | the list is unchanged, or gains one unfinished event at the end with non-empty description, start and end |
| Echo.HandleDelete | src/main/java/echo/Echo.java:207-218 | the list is unchanged, or loses exactly one task with the others kept in order |
| Echo.Deletion | src/main/java/echo/Echo.java:215-217 | task i is removed, the rest saved, and the removed task shown with the new size |
| Echo.HandleClear | src/main/java/echo/Echo.java:226-232 | the list and the file are emptied |
| Echo.Dispatch | src/main/java/echo/Echo.java:58-90 | a saved file holds exactly the new list, an unsaved line leaves the list alone, and the loop ends exactly on `bye` |
| Echo.StepAsWritten | src/main/java/echo/Echo.java:57-98 | one pass of the loop as written: a saved file holds exactly the new list, and the list changes only when saved |
| Echo.Step | src/main/java/echo/Echo.java:57-98 | one pass of the corrected loop: a saved file holds exactly the new list and the list changes only when saved; the loop ends exactly when the leading word is `bye`; a failed save is reported in place of the reply |
| Echo.AsWrittenAgrees | src/main/java/echo/Echo.java:58 | both loops agree on every line except a non-empty all-whitespace one |
| Echo.BlankInputIgnored | src/main/java/echo/Echo.java:87-90 | a line without a visible character changes nothing, saves nothing and is not answered |
| Echo.BlankInputAsWritten | src/main/java/echo/Echo.java:96-97 | as written, an all-whitespace line is answered with the index error and changes nothing |
| Echo.ArgumentPresent | src/main/java/echo/Echo.java:114 | text after the command word with a visible character is an argument |
| Echo.NumberedLine | src/main/java/echo/Echo.java:117 | `w <spaces> n` has the command `w`, an argument, and the task number n |
| Echo.DescribedLine | src/main/java/echo/Echo.java:155 | `w <spaces> text <blanks>` has the command `w` and the argument `text` |
| Echo.BareLine | src/main/java/echo/Echo.java:114 | a command word followed only by whitespace has no argument |
| Echo.Dispatched | src/main/java/echo/Echo.java:58-86 | a line starting with a command keyword is dispatched on it |
| Echo.ByeExits | src/main/java/echo/Echo.java:60-61 | `bye`, alone or with anything after whitespace, ends the loop and changes nothing |
| Echo.ListShows | src/main/java/echo/Echo.java:63-64 | `list` shows the list as it is and saves nothing |
| Echo.ClearEmpties | src/main/java/echo/Echo.java:84-85 | `clear` empties the list and the file |
| Echo.OtherNotUnderstood | src/main/java/echo/Echo.java:87-90 | a non-blank line whose command word is not a keyword is not understood, and nothing changes |
| Echo.FindNotUnderstood | src/main/java/echo/Echo.java:87-90 | `find` is not dispatched: such a line is not understood |
| Echo.Handles | src/main/java/echo/Echo.java:66-82 | each command word reaches its own handler |
| Echo.NumberTarget | src/main/java/echo/Echo.java:117-120 | a task number inside 1..size targets the position below it; any other is refused |
| Echo.NumberInRange | src/main/java/echo/Echo.java:117-120 | a number inside 1..size targets position n - 1 |
| Echo.UnreadTarget | src/main/java/echo/Echo.java:117 | an unreadable task number is refused with the parser's message |
| Echo.TargetRefused | src/main/java/echo/Echo.java:114-120 | mark, unmark and delete without a target are refused and change nothing |
| Echo.StatusAt | src/main/java/echo/Echo.java:121-123 | mark and unmark of a targeted task set its flag, change nothing else, and save |
| Echo.StatusOfOne | src/main/java/echo/Echo.java:113-124 | `mark n` sets the flag of task n and `unmark n` clears it, for every n in 1..size, all other tasks unchanged |
| Echo.NumberOutOfRange | src/main/java/echo/Echo.java:118-120 | every number outside 1..size is refused with "Task number doesn't exist." and nothing changes |
| Echo.NumberRefused | src/main/java/echo/Echo.java:117 | a missing or non-integer number is refused with the parser's message |
| Echo.NumberMissing | src/main/java/echo/Echo.java:114-116 | mark, unmark and delete without an argument ask which task is meant |
| Echo.DeleteAt | src/main/java/echo/Echo.java:215-217 | delete of a targeted task removes it and only it, and saves |
| Echo.DeleteOne | src/main/java/echo/Echo.java:207-218 | `delete n` removes task n and only it: putting it back restores the list |
| Echo.TodoAppends | src/main/java/echo/Echo.java:159-162 | `todo` with an argument adds exactly that text as an unfinished to-do at the end, and saves |
| Echo.TodoNeedsDescription | src/main/java/echo/Echo.java:156-158 | `todo` without an argument is refused and nothing changes |
| Echo.DeadlineAppends | src/main/java/echo/Echo.java:175-179 | `deadline` with parsable pieces adds that deadline at the end, and saves |
| Echo.DeadlineRefused | src/main/java/echo/Echo.java:175 | `deadline` with unparsable pieces is refused with the parser's message |
| Echo.EventAppends | src/main/java/echo/Echo.java:192-196 | `event` with parsable pieces adds that event at the end, and saves |
| Echo.EventRefused | src/main/java/echo/Echo.java:192 | `event` with unparsable pieces is refused with the parser's message |
| Echo.FailedSaveKeepsChange | src/main/java/echo/Echo.java:94-95 | a failed save replaces the reply with the save error, but the change in memory is kept |
| Echo.SavedListReloads | src/main/java/echo/Echo.java:122 | the lines handed to the storage load back to the new list when its tasks are storable |
| Echo.Start | src/main/java/echo/Echo.java:33-45 | the initial list is empty when reading fails, and every task in it is well-formed |
| Echo.RestartRestores | src/main/java/echo/Echo.java:36-37 | a saved list of storable tasks is restored on the next start |
| Echo.Loop | src/main/java/echo/Echo.java:54-99 | one reply per line read, no goodbye before the last, and reading stops only at the end of input or right after `bye` |
| Echo.LoopIgnoresAfterBye | src/main/java/echo/Echo.java:60-61 | lines typed after the loop ended change nothing |
| Echo.RunStopsAtBye | src/main/java/echo/Echo.java:60-61 | a session that reads `bye` stops there, whatever follows |
| Echo.Run | src/main/java/echo/Echo.java:51-103 | the corrected session: one reply per line read, no goodbye before the last, and reading stops only at the end of input or right after `bye` |
| Echo.RunAsWritten | src/main/java/echo/Echo.java:51-103 | the session as written, with the same shape: one reply per line read, no goodbye before the last, stopping at the end of input or right after `bye` |
| Echo.LoopsAgree | src/main/java/echo/Echo.java:54-99 | loops whose steps agree on every line read run the same session |
| Echo.RunAgrees | src/main/java/echo/Echo.java:58 | the session as written and the corrected one are the same whenever no line is non-empty and all whitespace |
| Echo.RunBlankLine | src/main/java/echo/Echo.java:87-97 | a session of one space: as written it is answered with the index error, corrected it is silent; the list is unchanged either way |

## Left out

- Console and GUI output (`Ui`, `MainWindow`, `Main`) are not part of this model. A handler's answer is a `Reply` value, not printed text. This includes the `clear` message, the welcome and goodbye, and the "Loaded n task(s)" line of the constructor.
- File I/O is not modelled: `File`, `mkdirs`, `Scanner`, `FileWriter` and the printed warning for skipped lines. The file is its sequence of lines. A failed read gives the empty list (`Echo.Start(None)`). A failed write is the `saveError` parameter of `Echo.Step`.
- Echo.Run: every save succeeds. A failing save is modelled for one step only (`Echo.Step`, `Echo.FailedSaveKeepsChange`).
- Echo.Run: runs the corrected step of the finding below, not the loop as written. `Echo.RunAsWritten` is the loop as written, and `Echo.RunAgrees` proves that the two differ only when a line is non-empty and all whitespace.
- Echo.Loop: reading from the console is a sequence of lines, and the loop's end of input stands for no further line. At end of input the model ends the session quietly, where Java's `scanner.nextLine()` in `readCommand` (`src/main/java/echo/ui/Ui.java:151`, called outside the `try` at `src/main/java/echo/Echo.java:55`) throws `NoSuchElementException` out of `run` with no goodbye.
- Storage.LoadSave: requires each task to be `Storable`. Its texts have no `|`, no line break and no trimmable ends, its last field is not empty, and it has no recurrence tag. The looser condition (trimmed texts without ` | `) is false; see `Storage.LooseRoundTripFails`.
- Storage.Build: `Storage.java:129` calls a four-argument `Event` constructor that `Event.java` does not define. A sixth field other than `none` is kept as an opaque recurrence tag. Records never write it back. No recurrence engine exists in the modelled files.
- Echo.HandleClear: `Echo.java:227` calls `tasks.clear()`, which `TaskList` does not define. Clearing is modelled as the empty list.
- Decimal.ParseInt: reads ASCII digits only. `Integer.parseInt` also accepts other Unicode decimal digits.
- DateTimeParser.FormatDate and DateTimeParser.FormatDateTime: the read-back is promised for years 1 to 9999 only. The date-time pattern can also yield year 10000 (from `9999-12-31 2400`), which is displayed with a `+` sign and is not read back.
- DateTimeParser.ParseDate: only unsigned four-digit years are read. `java.time`'s sign-prefixed and longer years are not modelled.
- DateTimeParser.ParseDateTime: only unsigned four-digit years are read as well. The `yyyy` pattern would also take a sign-prefixed year longer than four digits, as in `+10000-01-01 1200`; here such a text is kept as raw text. Month and AM/PM texts are fixed to English.
- Echo.WrapVerdict, Echo.PositionOf, Echo.StatusOfOne, Echo.DeleteOne, Echo.NumberOutOfRange: assume the list has at most 2^31 - 1 tasks, which a Java `ArrayList` cannot exceed.
- Echo.Dispatch: the `list` reply carries the list, not the numbered lines. `StringFormatter.FormatListItem` models one such line.
- InputValidator: the packaged handlers do not call these validators; they are modelled on their own.
- Task.getDescription, TaskList.size and TaskList.getTasks are the datatype's fields and the sequence's length. The two TaskList constructors adopt the empty or the given sequence as it is.
- The root-package classes (`src/main/java/Echo.java`, `Storage.java`, `Task.java`, `Deadline.java`, `Event.java`) are an older copy of the packaged code and are not part of this model.

## Findings

| source | as written | input that shows it | evidently intended | confidence | as-written member | corrected member |
|---|---|---|---|---|---|---|
| src/main/java/echo/parser/Parser.java:18-20 | `getCommand` returns element 0 of `input.split("\\s+")` | `" "`, or any non-empty line made only of whitespace | the split of such a line is empty, so indexing it raises. `run` then answers "Uh oh! Something unexpected happened: Index 0 out of bounds for length 0". The blank check at `Echo.java:87` evidently means such a line to be ignored, as it is for the empty line | not executed | Echo.StepAsWritten | Echo.Step |

The as-written side:
- `Parser.GetCommand` raises exactly on non-empty all-whitespace input.
- `Parser.BlankCommandRaises` exhibits the input `" "`.
- `Echo.BlankInputAsWritten` proves that the loop as written answers the index error.

The corrected side:
- `Parser.CommandWord` takes the longest whitespace-free prefix.
- `Echo.BlankInputIgnored` proves that the corrected loop ignores every line without a visible character.
- `Echo.AsWrittenAgrees` proves that the two loops differ on no other line.

=== FILE: date_examples.dfy ===
/** The date interpreter on the concrete texts of the tracker's own examples. Each text is first
    spelled out from its numbers, then handed to the general lemmas about the parsers. */
module DateExamples {
  import opened Wrappers
  import opened Decimal
  import opened DateTimeParser

  lemma Year2019()
    ensures FixedDigits(2019, 4) == "2019" && YearText(2019) == "2019"
  {
    assert Pow10(1) == 10 && Pow10(2) == 100 && Pow10(3) == 1000 && Pow10(4) == 10000;
    assert FixedDigits(2, 1) == "2";
    assert FixedDigits(20, 2) == "20";
    assert FixedDigits(201, 3) == "201";
  }

  /** A text of the input pattern, field by field. */
  lemma RawSpelled(y: nat, mo: nat, d: nat, h: nat, mi: nat, a: string, b: string, c: string, e: string, f: string)
    requires y <= 9999 && mo <= 99 && d <= 99 && h <= 99 && mi <= 99
    requires FixedDigits(y, 4) == a && FixedDigits(mo, 2) == b && FixedDigits(d, 2) == c
    requires FixedDigits(h, 2) == e && FixedDigits(mi, 2) == f
    ensures RawText(y, mo, d, h, mi) == a + "-" + b + "-" + c + " " + e + f
  {
  }

  /** An ISO text, field by field. */
  lemma IsoSpelled(d: Date, a: string, b: string, c: string)
    requires 0 <= d.year <= 9999 && 0 <= d.month <= 99 && 0 <= d.day <= 99
    requires FixedDigits(d.year, 4) == a && FixedDigits(d.month, 2) == b && FixedDigits(d.day, 2) == c
    ensures IsoText(d) == a + "-" + b + "-" + c
  {
  }

  /** A date display, field by field. */
  lemma DateSpelled(d: Date, m: string, day: string, y: string)
    requires ValidDate(d)
    requires MonthAbbrev(d.month) == m && NatToString(d.day) == day && YearText(d.year) == y
    ensures FormatDate(d) == m + " " + day + " " + y
  {
  }

  /** A date-time display, field by field. */
  lemma DateTimeSpelled(t: DateTime, date: string, h: string, mi: string, half: string)
    requires ValidDateTime(t)
    requires FormatDate(t.date) == date && NatToString(ClockHour(t.hour)) == h
    requires FixedDigits(t.minute, 2) == mi && Meridiem(t.hour) == half
    ensures FormatDateTime(t) == date + ", " + h + ":" + mi + half
  {
  }

  /** A text of the input pattern is parsed as its numbers resolve. */
  lemma ParsedAs(s: string, y: nat, mo: nat, d: nat, h: nat, mi: nat, r: Option<DateTime>)
    requires y <= 9999 && mo <= 99 && d <= 99 && h <= 99 && mi <= 99
    requires s == RawText(y, mo, d, h, mi) && Resolve(y, mo, d, h, mi) == r
    ensures ParseDateTime(s) == r
  {
    ParseRawText(y, mo, d, h, mi);
  }

  /** An ISO text is parsed as its numbers, when they form a real date. */
  lemma IsoParsedAs(s: string, d: Date, r: Option<Date>)
    requires 0 <= d.year <= 9999 && 0 <= d.month <= 99 && 0 <= d.day <= 99
    requires s == IsoText(d) && r == (if ValidDate(d) then Some(d) else None)
    ensures ParseDate(s) == r
  {
    ParseIsoText(d);
  }

  // 2019-12-15 18:00

  lemma Spelled20191215At1800()
    ensures "2019" + "-" + "12" + "-" + "15" + " " + "18" + "00" == "2019-12-15 1800"
  {
  }

  lemma Text20191215At1800()
    ensures RawText(2019, 12, 15, 18, 0) == "2019-12-15 1800"
  {
    Year2019();
    TwoDigits(12);
    TwoDigits(15);
    TwoDigits(18);
    TwoDigits(0);
    RawSpelled(2019, 12, 15, 18, 0, "2019", "12", "15", "18", "00");
    Spelled20191215At1800();
  }

  lemma Resolved20191215At1800()
    ensures Resolve(2019, 12, 15, 18, 0) == Some(DateTime(Date(2019, 12, 15), 18, 0))
  {
  }

  /** `"2019-12-15 1800"` is read as a date-time. */
  lemma DateTimeExample(s: string)
    requires s == "2019-12-15 1800"
    ensures ParseDateTime(s) == Some(DateTime(Date(2019, 12, 15), 18, 0))
  {
    Text20191215At1800();
    Resolved20191215At1800();
    ParsedAs(s, 2019, 12, 15, 18, 0, Some(DateTime(Date(2019, 12, 15), 18, 0)));
  }

  lemma SpelledDec15()
    ensures "Dec" + " " + "15" + " " + "2019" == "Dec 15 2019"
  {
  }

  lemma DisplayDec15()
    ensures FormatDate(Date(2019, 12, 15)) == "Dec 15 2019"
  {
    Year2019();
    ShortNumber(15);
    DateSpelled(Date(2019, 12, 15), "Dec", "15", "2019");
    SpelledDec15();
  }

  lemma SpelledDec15At6Pm()
    ensures "Dec 15 2019" + ", " + "6" + ":" + "00" + "PM" == "Dec 15 2019, 6:00PM"
  {
  }

  /** Date-times show a twelve-hour clock with AM/PM, an unpadded hour and two-digit minutes. */
  lemma DateTimeDisplayExample(t: DateTime)
    requires t == DateTime(Date(2019, 12, 15), 18, 0)
    ensures FormatDateTime(t) == "Dec 15 2019, 6:00PM"
  {
    DisplayDec15();
    ShortNumber(6);
    TwoDigits(0);
    DateTimeSpelled(t, "Dec 15 2019", "6", "00", "PM");
    SpelledDec15At6Pm();
  }

  lemma SpelledDec5()
    ensures "Dec" + " " + "5" + " " + "2019" == "Dec 5 2019"
  {
  }

  lemma SpelledDec5At2Pm()
    ensures "Dec 5 2019" + ", " + "2" + ":" + "00" + "PM" == "Dec 5 2019, 2:00PM"
  {
  }

  /** Two in the afternoon, on a single-digit day. */
  lemma AfternoonDisplayExample(t: DateTime)
    requires t == DateTime(Date(2019, 12, 5), 14, 0)
    ensures FormatDateTime(t) == "Dec 5 2019, 2:00PM"
  {
    Year2019();
    ShortNumber(5);
    DateSpelled(Date(2019, 12, 5), "Dec", "5", "2019");
    SpelledDec5();
    ShortNumber(2);
    TwoDigits(0);
    DateTimeSpelled(t, "Dec 5 2019", "2", "00", "PM");
    SpelledDec5At2Pm();
  }

  lemma Spelled20191215()
    ensures "2019" + "-" + "12" + "-" + "15" == "2019-12-15"
  {
  }

  /** `"2019-12-15"` fails the date-time pattern and is read as a date, shown without a time. */
  lemma DateExample(s: string)
    requires s == "2019-12-15"
    ensures ParseDateTime(s) == None
    ensures ParseDate(s) == Some(Date(2019, 12, 15))
    ensures FormatDate(ParseDate(s).value) == "Dec 15 2019"
  {
    Year2019();
    TwoDigits(12);
    TwoDigits(15);
    IsoSpelled(Date(2019, 12, 15), "2019", "12", "15");
    Spelled20191215();
    IsoParsedAs(s, Date(2019, 12, 15), Some(Date(2019, 12, 15)));
    DisplayDec15();
  }

  /** Free text is neither a date-time nor a date. */
  lemma FreeTextExample(s: string)
    requires s == "Sunday" || s == "Saturday 8pm"
    ensures ParseDateTime(s) == None && ParseDate(s) == None
  {
  }

  // 2019-12-10 and 2019-12-12

  lemma Spelled20191210()
    ensures "2019" + "-" + "12" + "-" + "10" == "2019-12-10"
  {
  }

  lemma SpelledDec10()
    ensures "Dec" + " " + "10" + " " + "2019" == "Dec 10 2019"
  {
  }

  /** `"2019-12-10"` is read as a date and shown as `Dec 10 2019`. */
  lemma Dec10Example(s: string)
    requires s == "2019-12-10"
    ensures ParseDateTime(s) == None
    ensures ParseDate(s) == Some(Date(2019, 12, 10))
    ensures FormatDate(Date(2019, 12, 10)) == "Dec 10 2019"
  {
    Year2019();
    TwoDigits(12);
    TwoDigits(10);
    IsoSpelled(Date(2019, 12, 10), "2019", "12", "10");
    Spelled20191210();
    IsoParsedAs(s, Date(2019, 12, 10), Some(Date(2019, 12, 10)));
    ShortNumber(10);
    DateSpelled(Date(2019, 12, 10), "Dec", "10", "2019");
    SpelledDec10();
  }

  lemma Spelled20191212()
    ensures "2019" + "-" + "12" + "-" + "12" == "2019-12-12"
  {
  }

  lemma SpelledDec12()
    ensures "Dec" + " " + "12" + " " + "2019" == "Dec 12 2019"
  {
  }

  /** `"2019-12-12"` is read as a date and shown as `Dec 12 2019`. */
  lemma Dec12Example(s: string)
    requires s == "2019-12-12"
    ensures ParseDateTime(s) == None
    ensures ParseDate(s) == Some(Date(2019, 12, 12))
    ensures FormatDate(Date(2019, 12, 12)) == "Dec 12 2019"
  {
    Year2019();
    TwoDigits(12);
    IsoSpelled(Date(2019, 12, 12), "2019", "12", "12");
    Spelled20191212();
    IsoParsedAs(s, Date(2019, 12, 12), Some(Date(2019, 12, 12)));
    ShortNumber(12);
    DateSpelled(Date(2019, 12, 12), "Dec", "12", "2019");
    SpelledDec12();
  }

  // 2019-12-05 14:00 and 16:00

  lemma Spelled20191205At1400()
    ensures "2019" + "-" + "12" + "-" + "05" + " " + "14" + "00" == "2019-12-05 1400"
  {
  }

  /** `"2019-12-05 1400"` is read as a date-time. */
  lemma Dec5At1400Example(s: string)
    requires s == "2019-12-05 1400"
    ensures ParseDateTime(s) == Some(DateTime(Date(2019, 12, 5), 14, 0))
  {
    Year2019();
    TwoDigits(12);
    TwoDigits(5);
    TwoDigits(14);
    TwoDigits(0);
    RawSpelled(2019, 12, 5, 14, 0, "2019", "12", "05", "14", "00");
    Spelled20191205At1400();
    ParsedAs(s, 2019, 12, 5, 14, 0, Some(DateTime(Date(2019, 12, 5), 14, 0)));
  }

  lemma Spelled20191205At1600()
    ensures "2019" + "-" + "12" + "-" + "05" + " " + "16" + "00" == "2019-12-05 1600"
  {
  }

  /** `"2019-12-05 1600"` is read as a date-time. */
  lemma Dec5At1600Example(s: string)
    requires s == "2019-12-05 1600"
    ensures ParseDateTime(s) == Some(DateTime(Date(2019, 12, 5), 16, 0))
  {
    Year2019();
    TwoDigits(12);
    TwoDigits(5);
    TwoDigits(16);
    TwoDigits(0);
    RawSpelled(2019, 12, 5, 16, 0, "2019", "12", "05", "16", "00");
    Spelled20191205At1600();
    ParsedAs(s, 2019, 12, 5, 16, 0, Some(DateTime(Date(2019, 12, 5), 16, 0)));
  }

  lemma SpelledDec5At4Pm()
    ensures "Dec 5 2019" + ", " + "4" + ":" + "00" + "PM" == "Dec 5 2019, 4:00PM"
  {
  }

  /** Four in the afternoon on the same day. */
  lemma Dec5At4PmDisplay(t: DateTime)
    requires t == DateTime(Date(2019, 12, 5), 16, 0)
    ensures FormatDateTime(t) == "Dec 5 2019, 4:00PM"
  {
    Year2019();
    ShortNumber(5);
    DateSpelled(Date(2019, 12, 5), "Dec", "5", "2019");
    SpelledDec5();
    ShortNumber(4);
    TwoDigits(0);
    DateTimeSpelled(t, "Dec 5 2019", "4", "00", "PM");
    SpelledDec5At4Pm();
  }

  // 2019-02-30 12:00

  lemma Spelled20190230At1200()
    ensures "2019" + "-" + "02" + "-" + "30" + " " + "12" + "00" == "2019-02-30 1200"
  {
  }

  lemma Text20190230At1200()
    ensures RawText(2019, 2, 30, 12, 0) == "2019-02-30 1200"
  {
    Year2019();
    TwoDigits(2);
    TwoDigits(30);
    TwoDigits(12);
    TwoDigits(0);
    RawSpelled(2019, 2, 30, 12, 0, "2019", "02", "30", "12", "00");
    Spelled20190230At1200();
  }

  lemma Resolved20190230At1200()
    ensures Resolve(2019, 2, 30, 12, 0) == Some(DateTime(Date(2019, 2, 28), 12, 0))
  {
  }

  /** The date-time pattern moves February 30 to February 28 (SMART resolution). */
  lemma ClampExample(s: string)
    requires s == "2019-02-30 1200"
    ensures ParseDateTime(s) == Some(DateTime(Date(2019, 2, 28), 12, 0))
  {
    Text20190230At1200();
    Resolved20190230At1200();
    ParsedAs(s, 2019, 2, 30, 12, 0, Some(DateTime(Date(2019, 2, 28), 12, 0)));
  }

  lemma Spelled20190230()
    ensures "2019" + "-" + "02" + "-" + "30" == "2019-02-30"
  {
  }

  /** The ISO date parser, which resolves strictly, rejects the same day. */
  lemma StrictExample(s: string)
    requires s == "2019-02-30"
    ensures ParseDate(s) == None
  {
    Year2019();
    TwoDigits(2);
    TwoDigits(30);
    IsoSpelled(Date(2019, 2, 30), "2019", "02", "30");
    Spelled20190230();
    IsoParsedAs(s, Date(2019, 2, 30), None);
  }

  // 2019-12-31 24:00

  lemma Spelled20191231At2400()
    ensures "2019" + "-" + "12" + "-" + "31" + " " + "24" + "00" == "2019-12-31 2400"
  {
  }

  lemma Text20191231At2400()
    ensures RawText(2019, 12, 31, 24, 0) == "2019-12-31 2400"
  {
    Year2019();
    TwoDigits(12);
    TwoDigits(31);
    TwoDigits(24);
    TwoDigits(0);
    RawSpelled(2019, 12, 31, 24, 0, "2019", "12", "31", "24", "00");
    Spelled20191231At2400();
  }

  lemma Resolved20191231At2400()
    ensures Resolve(2019, 12, 31, 24, 0) == Some(DateTime(Date(2020, 1, 1), 0, 0))
  {
  }

  /** `24:00` is midnight at the start of the next day, here in the next year. */
  lemma MidnightExample(s: string)
    requires s == "2019-12-31 2400"
    ensures ParseDateTime(s) == Some(DateTime(Date(2020, 1, 1), 0, 0))
  {
    ParseRawText(2019, 12, 31, 24, 0);
    Text20191231At2400();
    Resolved20191231At2400();
  }
}

=== FILE: date_time.dfy ===
/** The date interpreter: the input pattern `yyyy-MM-dd HHmm` (with java.time's default SMART
    resolution), ISO `yyyy-MM-dd` (STRICT resolution), and the English display patterns
    `MMM d yyyy, h:mma` and `MMM d yyyy`. Only four-digit, unsigned years are read. */
module DateTimeParser {
  import opened Wrappers
  import opened Decimal

  /** A calendar date of the proleptic Gregorian calendar (`LocalDate`). */
  datatype Date = Date(year: int, month: int, day: int)

  /** A date with a time of day to the minute (`LocalDateTime`; seconds are always zero here). */
  datatype DateTime = DateTime(date: Date, hour: int, minute: int)

  predicate IsLeapYear(year: int) {
    year % 4 == 0 && (year % 100 != 0 || year % 400 == 0)
  }

  function MonthLength(year: int, month: int): (n: int)
    requires 1 <= month <= 12
    ensures 28 <= n <= 31
    ensures n == 29 <==> month == 2 && IsLeapYear(year)
  {
    if month == 2 then (if IsLeapYear(year) then 29 else 28)
    else if month == 4 || month == 6 || month == 9 || month == 11 then 30
    else 31
  }

  predicate ValidDate(d: Date) {
    1 <= d.month <= 12 && 1 <= d.day <= MonthLength(d.year, d.month)
  }

  predicate ValidDateTime(t: DateTime) {
    ValidDate(t.date) && 0 <= t.hour < 24 && 0 <= t.minute < 60
  }

  /** Calendar order on dates. */
  predicate Before(a: Date, b: Date) {
    a.year < b.year || (a.year == b.year && (a.month < b.month || (a.month == b.month && a.day < b.day)))
  }

  /** The day after `d`. */
  function NextDay(d: Date): (r: Date)
    requires ValidDate(d)
    ensures ValidDate(r) && Before(d, r)
    ensures forall e :: ValidDate(e) && Before(d, e) ==> !Before(e, r)
  {
    if d.day < MonthLength(d.year, d.month) then Date(d.year, d.month, d.day + 1)
    else if d.month < 12 then Date(d.year, d.month + 1, 1)
    else Date(d.year + 1, 1, 1)
  }

  /** The decimal number held by the `n` characters of `s` from position `i`, if all are digits. */
  function Field(s: string, i: nat, n: nat): (r: Option<nat>)
    requires i + n <= |s|
    ensures r.Some? <==> AllDigits(s[i..i + n])
    ensures r.Some? ==> r.value == Value(s[i..i + n])
  {
    if AllDigits(s[i..i + n]) then Some(Value(s[i..i + n])) else None
  }

  /** `LocalDate.parse`: exactly `yyyy-MM-dd`, and the date must exist. */
  function ParseDate(s: string): (r: Option<Date>)
    ensures r.Some? ==> ValidDate(r.value) && 0 <= r.value.year <= 9999
  {
    if |s| != 10 || s[4] != '-' || s[7] != '-' then None
    else
      match (Field(s, 0, 4), Field(s, 5, 2), Field(s, 8, 2))
      case (Some(y), Some(m), Some(d)) =>
        if ValidDate(Date(y, m, d)) then Some(Date(y, m, d)) else None
      case _ => None
  }

  /** How the SMART resolver turns the five numbers read by `yyyy-MM-dd HHmm` into a value:
      each field must be in its own range (year-of-era from 1, day of month up to 31); a day
      past the end of its month becomes the month's last day; and `24:00` is midnight of the
      next day. */
  function Resolve(y: nat, mo: nat, d: nat, h: nat, mi: nat): (r: Option<DateTime>)
    ensures r.Some? <==> 1 <= y && 1 <= mo <= 12 && 1 <= d <= 31 && mi <= 59 && (h <= 23 || (h == 24 && mi == 0))
    ensures r.Some? ==> ValidDateTime(r.value)
    ensures r.Some? && h <= 23 && d <= MonthLength(y, mo) ==> r.value == DateTime(Date(y, mo, d), h, mi)
    ensures r.Some? && h <= 23 && d > MonthLength(y, mo) ==>
      r.value == DateTime(Date(y, mo, MonthLength(y, mo)), h, mi)
    ensures r.Some? && h == 24 ==>
      r.value == DateTime(NextDay(Date(y, mo, if d <= MonthLength(y, mo) then d else MonthLength(y, mo))), 0, 0)
  {
    if y < 1 || mo < 1 || mo > 12 || d < 1 || d > 31 || mi > 59 then None
    else
      var date := Date(y, mo, if d <= MonthLength(y, mo) then d else MonthLength(y, mo));
      if h == 24 && mi == 0 then Some(DateTime(NextDay(date), 0, 0))
      else if h <= 23 then Some(DateTime(date, h, mi))
      else None
  }

  /** `LocalDateTime.parse(s, ofPattern("yyyy-MM-dd HHmm"))`. */
  function ParseDateTime(s: string): (r: Option<DateTime>)
    ensures r.Some? ==> ValidDateTime(r.value) && 1 <= r.value.date.year <= 10000
  {
    if |s| != 15 || s[4] != '-' || s[7] != '-' || s[10] != ' ' then None
    else
      match (Field(s, 0, 4), Field(s, 5, 2), Field(s, 8, 2), Field(s, 11, 2), Field(s, 13, 2))
      case (Some(y), Some(mo), Some(d), Some(h), Some(mi)) => Resolve(y, mo, d, h, mi)
      case _ => None
  }

  /** Text in the ISO pattern made of a date's numbers (four-digit year, two-digit month and day). */
  function IsoText(d: Date): (r: string)
    requires 0 <= d.year <= 9999 && 0 <= d.month <= 99 && 0 <= d.day <= 99
    ensures |r| == 10
  {
    FixedDigits(d.year, 4) + "-" + FixedDigits(d.month, 2) + "-" + FixedDigits(d.day, 2)
  }

  /** Text in the `yyyy-MM-dd HHmm` pattern made of the five given numbers. */
  function RawText(y: nat, mo: nat, d: nat, h: nat, mi: nat): (r: string)
    requires y <= 9999 && mo <= 99 && d <= 99 && h <= 99 && mi <= 99
    ensures |r| == 15
  {
    IsoText(Date(y, mo, d)) + " " + FixedDigits(h, 2) + FixedDigits(mi, 2)
  }

  /** The way a user writes a date-time for the input pattern. */
  function InputText(t: DateTime): string
    requires ValidDateTime(t) && 0 <= t.date.year <= 9999
  {
    RawText(t.date.year, t.date.month, t.date.day, t.hour, t.minute)
  }

  /** Slicing a digit field back out of a text built by concatenation. */
  lemma FieldOf(s: string, i: nat, x: string)
    requires i + |x| <= |s| && s[i..i + |x|] == x && AllDigits(x)
    ensures Field(s, i, |x|) == Some(Value(x))
  {
  }

  /** `LocalDate.parse` reads the three numbers of an ISO text and accepts them iff they form a
      real date. */
  lemma ParseIsoText(d: Date)
    requires 0 <= d.year <= 9999 && 0 <= d.month <= 99 && 0 <= d.day <= 99
    ensures ParseDate(IsoText(d)) == if ValidDate(d) then Some(d) else None
  {
    var s := IsoText(d);
    var y, m, dd := FixedDigits(d.year, 4), FixedDigits(d.month, 2), FixedDigits(d.day, 2);
    assert s[0..4] == y && s[5..7] == m && s[8..10] == dd;
    FieldOf(s, 0, y);
    FieldOf(s, 5, m);
    FieldOf(s, 8, dd);
  }

  /** What `ParseDate` reads on success. */
  lemma ParseDateFields(s: string)
    requires ParseDate(s).Some?
    ensures |s| == 10 && s[4] == '-' && s[7] == '-'
    ensures AllDigits(s[0..4]) && AllDigits(s[5..7]) && AllDigits(s[8..10])
    ensures ParseDate(s).value == Date(Value(s[0..4]), Value(s[5..7]), Value(s[8..10]))
  {
  }

  /** An ISO-shaped text is the ISO text of its own numbers. */
  lemma IsoOfDigits(s: string)
    requires |s| == 10 && s[4] == '-' && s[7] == '-'
    requires AllDigits(s[0..4]) && AllDigits(s[5..7]) && AllDigits(s[8..10])
    ensures Value(s[0..4]) <= 9999 && Value(s[5..7]) <= 99 && Value(s[8..10]) <= 99
    ensures s == IsoText(Date(Value(s[0..4]), Value(s[5..7]), Value(s[8..10])))
  {
    FixedDigitsOfValue(s[0..4]);
    FixedDigitsOfValue(s[5..7]);
    FixedDigitsOfValue(s[8..10]);
    assert s == s[0..4] + "-" + s[5..7] + "-" + s[8..10];
  }

  /** ... and nothing else. */
  lemma ParsedDateIsIso(s: string)
    requires ParseDate(s).Some?
    ensures s == IsoText(ParseDate(s).value)
  {
    ParseDateFields(s);
    IsoOfDigits(s);
  }

  /** `LocalDate.parse` accepts exactly the ISO texts of real dates with years 0000 to 9999. */
  lemma ParseDateIso(s: string, d: Date)
    ensures ParseDate(s) == Some(d) <==> ValidDate(d) && 0 <= d.year <= 9999 && s == IsoText(d)
  {
    if ValidDate(d) && 0 <= d.year <= 9999 && s == IsoText(d) {
      ParseIsoText(d);
    }
    if ParseDate(s) == Some(d) {
      ParsedDateIsIso(s);
    }
  }

  /** What `ParseDateTime` reads on success. */
  lemma ParseDateTimeFields(s: string)
    requires ParseDateTime(s).Some?
    ensures |s| == 15 && s[4] == '-' && s[7] == '-' && s[10] == ' '
    ensures AllDigits(s[0..4]) && AllDigits(s[5..7]) && AllDigits(s[8..10]) && AllDigits(s[11..13]) && AllDigits(s[13..15])
    ensures ParseDateTime(s) == Resolve(Value(s[0..4]), Value(s[5..7]), Value(s[8..10]), Value(s[11..13]), Value(s[13..15]))
  {
  }

  /** A text shaped like the input pattern is the raw text of its own numbers. */
  lemma RawOfDigits(s: string)
    requires |s| == 15 && s[4] == '-' && s[7] == '-' && s[10] == ' '
    requires AllDigits(s[0..4]) && AllDigits(s[5..7]) && AllDigits(s[8..10]) && AllDigits(s[11..13]) && AllDigits(s[13..15])
    ensures Value(s[0..4]) <= 9999 && Value(s[5..7]) <= 99 && Value(s[8..10]) <= 99
    ensures Value(s[11..13]) <= 99 && Value(s[13..15]) <= 99
    ensures s == RawText(Value(s[0..4]), Value(s[5..7]), Value(s[8..10]), Value(s[11..13]), Value(s[13..15]))
  {
    var date, hours, minutes := s[..10], s[11..13], s[13..15];
    assert date[0..4] == s[0..4] && date[5..7] == s[5..7] && date[8..10] == s[8..10];
    IsoOfDigits(date);
    FixedDigitsOfValue(hours);
    FixedDigitsOfValue(minutes);
    var y, mo, d, h, mi := Value(s[0..4]), Value(s[5..7]), Value(s[8..10]), Value(hours), Value(minutes);
    assert RawText(y, mo, d, h, mi) == date + " " + hours + minutes;
    assert s == date + " " + hours + minutes;
  }

  /** The date-time pattern reads its five numbers and hands them to the resolver; nothing
      but text of that exact shape is accepted. */
  lemma ParsedDateTimeIsRaw(s: string)
    requires ParseDateTime(s).Some?
    ensures |s| == 15 && AllDigits(s[0..4]) && AllDigits(s[5..7]) && AllDigits(s[8..10])
    ensures AllDigits(s[11..13]) && AllDigits(s[13..15])
    ensures var y, mo, d, h, mi := Value(s[0..4]), Value(s[5..7]), Value(s[8..10]), Value(s[11..13]), Value(s[13..15]);
      y <= 9999 && mo <= 99 && d <= 99 && h <= 99 && mi <= 99
      && s == RawText(y, mo, d, h, mi) && ParseDateTime(s) == Resolve(y, mo, d, h, mi)
  {
    ParseDateTimeFields(s);
    RawOfDigits(s);
  }

  /** Conversely, every text of that shape is resolved from its five numbers. */
  lemma ParseRawText(y: nat, mo: nat, d: nat, h: nat, mi: nat)
    requires y <= 9999 && mo <= 99 && d <= 99 && h <= 99 && mi <= 99
    ensures ParseDateTime(RawText(y, mo, d, h, mi)) == Resolve(y, mo, d, h, mi)
  {
    var iso := IsoText(Date(y, mo, d));
    var fy, fmo, fd, fh, fmi := FixedDigits(y, 4), FixedDigits(mo, 2), FixedDigits(d, 2), FixedDigits(h, 2), FixedDigits(mi, 2);
    var s := iso + " " + fh + fmi;
    assert iso[0..4] == fy && iso[5..7] == fmo && iso[8..10] == fd;
    assert s[0..4] == iso[0..4] && s[5..7] == iso[5..7] && s[8..10] == iso[8..10];
    assert s[11..13] == fh && s[13..15] == fmi;
    FieldOf(s, 0, fy);
    FieldOf(s, 5, fmo);
    FieldOf(s, 8, fd);
    FieldOf(s, 11, fh);
    FieldOf(s, 13, fmi);
  }

  /** Every date-time with a year from 1 to 9999 reads back from its input text. */
  lemma ParseInputText(t: DateTime)
    requires ValidDateTime(t) && 1 <= t.date.year <= 9999
    ensures ParseDateTime(InputText(t)) == Some(t)
  {
    ParseRawText(t.date.year, t.date.month, t.date.day, t.hour, t.minute);
  }

  /** The two patterns never both accept a text, so the cascade's order cannot matter. */
  lemma PatternsExclusive(s: string)
    ensures ParseDateTime(s).Some? ==> ParseDate(s).None?
    ensures ParseDate(s).Some? ==> ParseDateTime(s).None?
  {
  }

  const MonthAbbrevs: seq<string> :=
    ["Jan", "Feb", "Mar", "Apr", "May", "Jun", "Jul", "Aug", "Sep", "Oct", "Nov", "Dec"]

  /** `MMM` in English. */
  function MonthAbbrev(month: int): (r: string)
    requires 1 <= month <= 12
    ensures |r| == 3
  {
    MonthAbbrevs[month - 1]
  }

  /** The month whose English abbreviation is `a`. */
  function MonthNumber(a: string): (r: Option<int>)
    ensures r.Some? ==> 1 <= r.value <= 12 && MonthAbbrev(r.value) == a
  {
    if a == "Jan" then Some(1) else if a == "Feb" then Some(2) else if a == "Mar" then Some(3)
    else if a == "Apr" then Some(4) else if a == "May" then Some(5) else if a == "Jun" then Some(6)
    else if a == "Jul" then Some(7) else if a == "Aug" then Some(8) else if a == "Sep" then Some(9)
    else if a == "Oct" then Some(10) else if a == "Nov" then Some(11) else if a == "Dec" then Some(12)
    else None
  }

  lemma MonthNumberOfAbbrev(month: int)
    requires 1 <= month <= 12
    ensures MonthNumber(MonthAbbrev(month)) == Some(month)
  {
  }

  lemma FourZeroPadded()
    ensures Pow10(4) == 10000 && FixedDigits(1, 4) == "0001"
  {
    assert Pow10(1) == 10 && Pow10(2) == 100 && Pow10(3) == 1000;
    assert FixedDigits(0, 1) == "0";
    assert FixedDigits(0, 2) == "00";
    assert FixedDigits(0, 3) == "000";
  }

  /** `yyyy` prints the year of era: at least four digits, and a `+` once it needs more. */
  function YearText(year: int): (r: string)
    ensures 1 <= year <= 9999 ==> |r| == 4 && AllDigits(r) && Value(r) == year
    ensures year == 0 ==> r == "0001"
  {
    FourZeroPadded();
    var yoe := if year >= 1 then year else 1 - year;
    if yoe < 10000 then FixedDigits(yoe, 4) else "+" + NatToString(yoe)
  }

  /** `MMM d yyyy`. For four-digit years the text loses nothing: it reads back to the same
      date. */
  function FormatDate(d: Date): (r: string)
    requires ValidDate(d)
    ensures 1 <= d.year <= 9999 ==> ReadDate(r) == Some(d)
  {
    var r := MonthAbbrev(d.month) + " " + NatToString(d.day) + " " + YearText(d.year);
    assert 1 <= d.year <= 9999 ==> ReadDate(r) == Some(d) by {
      if 1 <= d.year <= 9999 {
        ReadDateText(d);
      }
    }
    r
  }

  /** The hour on a twelve-hour clock face (`h`): 12 stands for both midnight and noon. */
  function ClockHour(hour: int): (r: nat)
    requires 0 <= hour < 24
    ensures 1 <= r <= 12
    ensures r % 12 + (if hour < 12 then 0 else 12) == hour
  {
    if hour % 12 == 0 then 12 else hour % 12
  }

  /** `a`: the half of the day. */
  function Meridiem(hour: int): string {
    if hour < 12 then "AM" else "PM"
  }

  /** `MMM d yyyy, h:mma`. */
  function FormatDateTime(t: DateTime): (r: string)
    requires ValidDateTime(t)
    ensures 1 <= t.date.year <= 9999 ==> ReadDateTime(r) == Some(t)
  {
    var r := FormatDate(t.date) + ", " + NatToString(ClockHour(t.hour)) + ":" + FixedDigits(t.minute, 2) + Meridiem(t.hour);
    assert 1 <= t.date.year <= 9999 ==> ReadDateTime(r) == Some(t) by {
      if 1 <= t.date.year <= 9999 {
        ReadDateTimeText(t);
      }
    }
    r
  }

  /** Reads `MMM d yyyy` back (four-digit years only). */
  function ReadDate(s: string): (r: Option<Date>)
  {
    if |s| < 10 || |s| > 11 || s[3] != ' ' || s[|s| - 5] != ' ' then None
    else
      var day := s[4..|s| - 5];
      var year := s[|s| - 4..];
      match MonthNumber(s[..3])
      case None => None
      case Some(m) => if Canonical(day) && AllDigits(year) then Some(Date(Value(year), m, Value(day))) else None
  }

  /** Reads `h:mma` back as a 24-hour hour and a minute. */
  function ReadClock(s: string): (r: Option<(int, int)>)
  {
    if |s| < 6 || |s| > 7 || s[|s| - 5] != ':' then None
    else
      var h := s[..|s| - 5];
      var m := s[|s| - 4..|s| - 2];
      var half := s[|s| - 2..];
      if !Canonical(h) || !AllDigits(m) || (half != "AM" && half != "PM") then None
      else
        var c := Value(h);
        if c < 1 || c > 12 then None
        else Some((c % 12 + (if half == "AM" then 0 else 12), Value(m)))
  }

  /** Reads `MMM d yyyy, h:mma` back: the date ends at the comma after position 10 or 11. */
  function ReadDateTime(s: string): (r: Option<DateTime>)
  {
    if |s| < 18 then None
    else
      var k := if s[10] == ',' then 10 else 11;
      if s[k..k + 2] != ", " then None
      else
        match (ReadDate(s[..k]), ReadClock(s[k + 2..]))
        case (Some(d), Some(clock)) => Some(DateTime(d, clock.0, clock.1))
        case _ => None
  }

  /** The parts of a date display read back to the date. */
  lemma ReadDateText(d: Date)
    requires ValidDate(d) && 1 <= d.year <= 9999
    ensures ReadDate(MonthAbbrev(d.month) + " " + NatToString(d.day) + " " + YearText(d.year)) == Some(d)
  {
    var s := MonthAbbrev(d.month) + " " + NatToString(d.day) + " " + YearText(d.year);
    var day := NatToString(d.day);
    var year := YearText(d.year);
    NatToStringWidth(d.day, 2);
    MonthNumberOfAbbrev(d.month);
    assert s[..3] == MonthAbbrev(d.month);
    assert s[4..|s| - 5] == day;
    assert s[|s| - 4..] == year;
  }

  /** The clock display reads back to the same hour and minute. */
  lemma ReadFormatClock(hour: int, minute: int)
    requires 0 <= hour < 24 && 0 <= minute < 60
    ensures ReadClock(NatToString(ClockHour(hour)) + ":" + FixedDigits(minute, 2) + Meridiem(hour)) == Some((hour, minute))
  {
    var h := NatToString(ClockHour(hour));
    var s := h + ":" + FixedDigits(minute, 2) + Meridiem(hour);
    NatToStringWidth(ClockHour(hour), 2);
    assert s[..|s| - 5] == h;
    assert s[|s| - 4..|s| - 2] == FixedDigits(minute, 2);
    assert s[|s| - 2..] == Meridiem(hour);
  }

  /** A date and a clock text joined by `, ` read back to their date-time, provided the
      date's last character is not a comma. */
  lemma ReadJoined(date: string, clock: string, d: Date, hour: int, minute: int)
    requires ReadDate(date) == Some(d) && ReadClock(clock) == Some((hour, minute))
    requires |date| == 11 ==> date[10] != ','
    ensures ReadDateTime(date + ", " + clock) == Some(DateTime(d, hour, minute))
  {
    var s := date + ", " + clock;
    var k := |date|;
    assert s[k] == ',';
    assert k == 11 ==> s[10] == date[10];
    assert s[..k] == date && s[k..k + 2] == ", " && s[k + 2..] == clock;
  }

  /** The parts of a date-time display read back to the date-time. */
  lemma ReadDateTimeText(t: DateTime)
    requires ValidDateTime(t) && 1 <= t.date.year <= 9999
    ensures ReadDateTime(FormatDate(t.date) + ", " + NatToString(ClockHour(t.hour)) + ":"
      + FixedDigits(t.minute, 2) + Meridiem(t.hour)) == Some(t)
  {
    var date := FormatDate(t.date);
    var clock := NatToString(ClockHour(t.hour)) + ":" + FixedDigits(t.minute, 2) + Meridiem(t.hour);
    assert FormatDate(t.date) + ", " + NatToString(ClockHour(t.hour)) + ":" + FixedDigits(t.minute, 2)
      + Meridiem(t.hour) == date + ", " + clock;
    var year := YearText(t.date.year);
    assert date[|date| - 4..] == year;
    assert date[|date| - 1] == year[3];
    ReadFormatClock(t.hour, t.minute);
    ReadJoined(date, clock, t.date, t.hour, t.minute);
  }

}

=== FILE: decimal.dfy ===
/** Decimal text of integers as `Integer.toString` writes it and `Integer.parseInt` reads it,
    plus the fixed-width, zero-padded digits that date patterns such as `yyyy` and `mm` print. */
module Decimal {
  import opened Wrappers

  predicate IsDigit(c: char) {
    '0' <= c <= '9'
  }

  predicate AllDigits(s: string) {
    forall i :: 0 <= i < |s| ==> IsDigit(s[i])
  }

  function DigitValue(c: char): (d: nat)
    requires IsDigit(c)
    ensures d < 10
  {
    c as int - '0' as int
  }

  function DigitChar(d: nat): (c: char)
    requires d < 10
    ensures IsDigit(c) && DigitValue(c) == d
  {
    ('0' as int + d) as char
  }

  function Pow10(n: nat): (r: nat)
    ensures r >= 1
  {
    if n == 0 then 1 else 10 * Pow10(n - 1)
  }

  /** The number a string of decimal digits denotes, most significant digit first. */
  function Value(s: string): (v: nat)
    requires AllDigits(s)
    ensures v < Pow10(|s|)
  {
    if |s| == 0 then 0 else 10 * Value(s[..|s| - 1]) + DigitValue(s[|s| - 1])
  }

  /** No superfluous leading zero: the canonical decimal text of a number. */
  predicate Canonical(s: string) {
    |s| > 0 && AllDigits(s) && (s[0] != '0' || |s| == 1)
  }

  /** `Integer.toString` of a non-negative number. */
  function NatToString(n: nat): (r: string)
    ensures Canonical(r) && Value(r) == n
  {
    if n < 10 then [DigitChar(n)]
    else
      var p := NatToString(n / 10);
      var r := p + [DigitChar(n % 10)];
      assert r[..|r| - 1] == p;
      r
  }

  /** Reading the canonical text of a number and printing it back is the identity. */
  lemma {:induction false} NatToStringOfValue(s: string)
    requires Canonical(s)
    ensures NatToString(Value(s)) == s
  {
    var last := s[|s| - 1];
    if |s| > 1 {
      var p := s[..|s| - 1];
      assert p[0] == s[0];
      LeadingDigitPositive(p);
      LastDigit(Value(p), last);
      NatToStringOfValue(p);
      assert s == p + [last];
    } else {
      DigitRoundTrip(last);
    }
  }

  /** Appending a digit multiplies by ten and adds: the quotient and remainder undo it. */
  lemma LastDigit(a: nat, c: char)
    requires IsDigit(c)
    ensures (10 * a + DigitValue(c)) / 10 == a
    ensures DigitChar((10 * a + DigitValue(c)) % 10) == c
  {
    DigitRoundTrip(c);
  }

  lemma DigitRoundTrip(c: char)
    requires IsDigit(c)
    ensures DigitChar(DigitValue(c)) == c
  {
  }

  /** A digit string that begins with a non-zero digit denotes a positive number. */
  lemma {:induction false} LeadingDigitPositive(s: string)
    requires |s| > 0 && AllDigits(s) && s[0] != '0'
    ensures Value(s) > 0
  {
    if |s| > 1 {
      var p := s[..|s| - 1];
      assert p[0] == s[0];
      LeadingDigitPositive(p);
    }
  }

  /** A number below `10^w` needs at most `w` digits. */
  lemma {:induction false} NatToStringWidth(n: nat, w: nat)
    requires 1 <= w && n < Pow10(w)
    ensures |NatToString(n)| <= w
  {
    if n >= 10 {
      assert Pow10(w) == 10 * Pow10(w - 1);
      assert n / 10 < Pow10(w - 1);
      NatToStringWidth(n / 10, w - 1);
    }
  }

  /** The `w` low decimal digits of `n`, zero-padded on the left. */
  function FixedDigits(n: nat, w: nat): (r: string)
    requires n < Pow10(w)
    ensures |r| == w && AllDigits(r) && Value(r) == n
  {
    if w == 0 then ""
    else
      var p := FixedDigits(n / 10, w - 1);
      var r := p + [DigitChar(n % 10)];
      assert r[..|r| - 1] == p;
      r
  }

  /** One more digit at the right multiplies the value by ten and adds the digit. */
  lemma ValueSnoc(p: string, c: char)
    requires AllDigits(p) && IsDigit(c)
    ensures AllDigits(p + [c]) && Value(p + [c]) == 10 * Value(p) + DigitValue(c)
  {
    var s := p + [c];
    assert s[..|s| - 1] == p;
  }

  /** One more digit at the right of a fixed-width text. */
  lemma FixedDigitsSnoc(a: nat, d: nat, w: nat)
    requires a < Pow10(w) && d < 10
    ensures 10 * a + d < Pow10(w + 1)
    ensures FixedDigits(10 * a + d, w + 1) == FixedDigits(a, w) + [DigitChar(d)]
  {
    var n := 10 * a + d;
    assert n / 10 == a && n % 10 == d;
  }

  /** A two-digit field of a date pattern, digit by digit. */
  lemma TwoDigits(n: nat)
    requires n < 100
    ensures FixedDigits(n, 2) == [DigitChar(n / 10), DigitChar(n % 10)]
  {
    assert Pow10(1) == 10 && Pow10(2) == 100;
    assert FixedDigits(n / 10, 1) == FixedDigits(0, 0) + [DigitChar(n / 10)];
  }

  /** Numbers below a hundred, digit by digit. */
  lemma ShortNumber(n: nat)
    requires n < 100
    ensures NatToString(n) == if n < 10 then [DigitChar(n)] else [DigitChar(n / 10), DigitChar(n % 10)]
  {
  }

  /** A digit string is the fixed-width text of its own value. */
  lemma {:induction false} FixedDigitsOfValue(s: string)
    requires AllDigits(s)
    ensures FixedDigits(Value(s), |s|) == s
  {
    if |s| > 0 {
      var p, c := s[..|s| - 1], s[|s| - 1];
      assert s == p + [c];
      ValueSnoc(p, c);
      FixedDigitsOfValue(p);
      FixedDigitsSnoc(Value(p), DigitValue(c), |p|);
      DigitRoundTrip(c);
    }
  }

  const MinInt: int := -0x8000_0000
  const MaxInt: int := 0x7FFF_FFFF

  /** Fits a Java `int`. */
  predicate IsInt32(n: int) {
    MinInt <= n <= MaxInt
  }

  /** `Integer.toString(n)` (and string concatenation of an `int`). */
  function IntToString(n: int): (r: string)
    ensures |r| > 0
    ensures n < 0 <==> r[0] == '-'
  {
    if n < 0 then "-" + NatToString(-n) else NatToString(n)
  }

  /** `Integer.parseInt(s)`: an optional `+` or `-`, then at least one decimal digit, and a
      value that fits a Java `int`; anything else is a `NumberFormatException` (`None`). */
  function ParseInt(s: string): (r: Option<int>)
    ensures r.Some? ==> IsInt32(r.value)
    ensures r.Some? ==> |s| > 0
    ensures r.Some? ==> (r.value < 0 ==> s[0] == '-')
  {
    if |s| == 0 then None
    else
      var negative := s[0] == '-';
      var body := if s[0] == '-' || s[0] == '+' then s[1..] else s;
      if |body| == 0 || !AllDigits(body) then None
      else
        var v: int := if negative then -(Value(body) as int) else Value(body);
        if IsInt32(v) then Some(v) else None
  }

  /** Every Java `int` reads back from its own text. */
  lemma ParseIntToString(n: int)
    requires IsInt32(n)
    ensures ParseInt(IntToString(n)) == Some(n)
  {
    if n < 0 {
      assert IntToString(n)[1..] == NatToString(-n);
    }
  }

  /** Numbers outside the 32-bit range are rejected even when written correctly. */
  lemma ParseIntOutOfRange(n: int)
    requires !IsInt32(n)
    ensures ParseInt(IntToString(n)) == None
  {
    if n < 0 {
      assert IntToString(n)[1..] == NatToString(-n);
    }
  }

  /** Leading zeros are accepted: `parseInt` reads the value of the digits. */
  lemma ParseIntUnsigned(s: string)
    requires |s| > 0 && AllDigits(s)
    ensures ParseInt(s) == if Value(s) <= MaxInt then Some(Value(s) as int) else None
  {
  }

  /** A leading sign is accepted and applied to the value of the digits after it. */
  lemma ParseIntSigned(s: string)
    requires |s| > 1 && (s[0] == '+' || s[0] == '-') && AllDigits(s[1..])
    ensures var v: int := if s[0] == '-' then -(Value(s[1..]) as int) else Value(s[1..]);
      ParseInt(s) == if IsInt32(v) then Some(v) else None
  {
  }

  /** A text that holds a character other than a digit, beyond a leading sign, is rejected. */
  lemma ParseIntRejectsNonDigit(s: string, i: nat)
    requires i < |s| && !IsDigit(s[i])
    requires i == 0 ==> s[0] != '-' && s[0] != '+'
    ensures ParseInt(s) == None
  {
    if i > 0 && (s[0] == '-' || s[0] == '+') {
      assert s[1..][i - 1] == s[i];
    }
  }

  /** A sign alone and a decimal point are rejected; a plus sign is accepted. */
  lemma ParseIntExamples()
    ensures ParseInt("+5") == Some(5)
    ensures ParseInt("3.14") == None
    ensures ParseInt("-") == None
  {
    assert "+5"[1..] == "5";
    ParseIntSigned("+5");
    ParseIntRejectsNonDigit("3.14", 1);
  }

  const TwoTo32: int := 0x1_0000_0000

  /** Java `int` arithmetic: the result reduced into the 32-bit range, two's complement. */
  function Wrap32(n: int): (r: int)
    ensures IsInt32(r) && (r - n) % TwoTo32 == 0
  {
    (n - MinInt) % TwoTo32 + MinInt
  }

  /** A value already in range is left alone. */
  lemma Wrap32OfInt32(n: int)
    requires IsInt32(n)
    ensures Wrap32(n) == n
  {
  }

  /** `Integer.toString` writes only digits after an optional leading minus sign. */
  lemma IntToStringChars(n: int)
    ensures forall i :: 0 <= i < |IntToString(n)| ==> IsDigit(IntToString(n)[i]) || IntToString(n)[i] == '-'
  {
    if n < 0 {
      assert forall i :: 1 <= i < |IntToString(n)| ==> IntToString(n)[i] == NatToString(-n)[i - 1];
    }
  }
}

=== FILE: echo.dfy ===
/** The chatbot's main loop: one line of input at a time, dispatched on its command word to a
    handler that may change the task list, save it, and answer. The console is left out: a
    handler's answer is a `Reply` value, and what it asks the storage to write is recorded in
    the transition. Whether the write succeeds is a parameter (`None`, or the message of the
    `IOException` it raises). */
module Echo {
  import opened Wrappers
  import opened JavaText
  import opened Decimal
  import opened Tasks
  import opened TaskLists
  import opened Storage
  import opened Parser
  import InputValidator

  const MarkWhich := "Which task should I mark? Use: mark <task number>"
  const UnmarkWhich := "Which task should I unmark? Use: unmark <task number>"
  const DeleteWhich := "Please specify which task to delete."
  const NoSuchTask := "Task number doesn't exist."
  const TodoEmpty := "Hmm, you forgot to tell me what the todo is! Try: todo <description>"
  const SaveFailed := "Error saving to file: "
  const Unexpected := "Uh oh! Something unexpected happened: "

  function NotUnderstood(input: string): string {
    "I don't understand '" + input + "'. Try: todo, deadline, event, list, mark, or unmark."
  }

  /** What the user is shown after one line of input. */
  datatype Reply =
    | Goodbye                             // `bye`: the loop ends
    | Listing(tasks: TaskList)            // `list`
    | Marked(task: Task, done: bool)      // `mark` and `unmark`
    | Added(task: Task, count: int)       // `todo`, `deadline`, `event`: the new size
    | Removed(task: Task, count: int)     // `delete`: the size left
    | Cleared                             // `clear`
    | Silent                              // a blank line
    | Error(message: string)              // any exception the loop catches

  /** The list after one line, the reply, and the lines handed to the storage, if any. */
  datatype Transition = Transition(tasks: TaskList, reply: Reply, saved: Option<seq<string>>)

  /** The file is asked to hold exactly the new list whenever the list is saved, and the list
      is left alone whenever it is not. */
  predicate Consistent(before: TaskList, r: Transition) {
    (r.saved.None? ==> r.tasks == before) && (r.saved.Some? ==> r.saved.value == Save(r.tasks))
  }

  /** An exception thrown before the list was touched. */
  function Reject(tasks: TaskList, message: string): Transition {
    Transition(tasks, Error(message), None)
  }

  /** The list was changed: the handler saves it and then answers. */
  function Commit(changed: TaskList, reply: Reply): Transition {
    Transition(changed, reply, Some(Save(changed)))
  }

  /** The outcome of the save, if the handler made one: a failed save replaces the handler's
      answer with the error the loop shows, and the change stays in memory. */
  function Settle(t: Transition, saveError: Option<string>): Transition {
    if t.saved.Some? && saveError.Some? then t.(reply := Error(SaveFailed + saveError.value)) else t
  }

  /** The zero-based position a task number names: one less, computed in `int` arithmetic, and
      refused unless it is a position of the list. */
  function Position(tasks: TaskList, number: Result<int>): (r: Result<nat>)
    ensures r.Success? ==> (number.Success? && r.value < |tasks| && r.value == Wrap32(number.value - 1))
    ensures r.Failure? ==> (number.Failure? && r == Failure(number.msg)) || r == Failure(NoSuchTask)
  {
    match number
    case Failure(m) => Failure(m)
    case Success(n) =>
      var i := Wrap32(n - 1);
      if i < 0 || i >= |tasks| then Failure(NoSuchTask) else Success(i)
  }

  /** The position a `mark`, `unmark` or `delete` line names: the bare-command check, then
      `getTaskNumber` and the range check. */
  function Target(tasks: TaskList, input: string, command: string, missing: string): (r: Result<nat>)
    ensures r.Success? ==> r.value < |tasks|
    ensures GetDescription(input, command) == [] ==> r == Failure(missing)
  {
    if input == command || GetDescription(input, command) == [] then Failure(missing)
    else Position(tasks, GetTaskNumber(input))
  }

  /** The wrap-around of `taskNumber - 1` changes no verdict: for a list no longer than the
      largest `int`, a number is accepted exactly when it lies in `1..size`, which is also what
      the range validator would decide. */
  lemma WrapVerdict(n: int, size: int)
    requires IsInt32(n) && 0 <= size <= MaxInt
    ensures (0 <= Wrap32(n - 1) < size) <==> 1 <= n <= size
    ensures InputValidator.RequireValidTaskIndex(Wrap32(n - 1), size).Pass? <==> 1 <= n <= size
    ensures 1 <= n ==> Wrap32(n - 1) == n - 1
  {
    if n == MinInt {
      assert Wrap32(n - 1) == MaxInt;
    } else {
      Wrap32OfInt32(n - 1);
    }
  }

  /** A task number within `1..size` names the position one below it; every other `int`, the
      smallest one included, names none. */
  lemma PositionOf(tasks: TaskList, n: int)
    requires IsInt32(n) && |tasks| <= MaxInt
    ensures Position(tasks, Success(n)) == if 1 <= n <= |tasks| then Success(n - 1) else Failure(NoSuchTask)
  {
    WrapVerdict(n, |tasks|);
  }

  lemma TargetOf(tasks: TaskList, input: string, command: string, n: int, missing: string)
    requires GetDescription(input, command) != [] && GetTaskNumber(input) == Success(n)
    requires IsInt32(n) && |tasks| <= MaxInt && |input| > |command|
    ensures Target(tasks, input, command, missing)
      == if 1 <= n <= |tasks| then Success(n - 1) else Failure(NoSuchTask)
  {
    PositionOf(tasks, n);
  }

  /** `handleMark` (`done`) and `handleUnmark`: one task's flag is set, nothing else changes. */
  function SetStatus(tasks: TaskList, input: string, command: string, missing: string, done: bool): (r: Transition)
    ensures Consistent(tasks, r) && !r.reply.Goodbye?
    ensures |r.tasks| == |tasks|
    ensures forall i :: 0 <= i < |tasks| && r.tasks[i] != tasks[i] ==>
      (r.tasks[i].isDone == done && r.tasks[i].(isDone := tasks[i].isDone) == tasks[i])
  {
    match Target(tasks, input, command, missing)
    case Failure(m) => Reject(tasks, m)
    case Success(i) => StatusChange(tasks, i, done)
  }

  /** Task `i` marked done or not done, the list saved, and the task shown. */
  function StatusChange(tasks: TaskList, i: int, done: bool): (r: Transition)
    requires 0 <= i < |tasks|
    ensures |r.tasks| == |tasks|
    ensures Consistent(tasks, r) && r.saved.Some? && r.reply == Marked(r.tasks[i], done)
    ensures forall k :: 0 <= k < |tasks| && r.tasks[k] != tasks[k] ==>
      (k == i && r.tasks[k].isDone == done && r.tasks[k].(isDone := tasks[k].isDone) == tasks[k])
  {
    var t := if done then MarkDone(tasks[i]) else MarkNotDone(tasks[i]);
    Commit(tasks[i := t], Marked(t, done))
  }

  function HandleMark(tasks: TaskList, input: string): (r: Transition)
    ensures Consistent(tasks, r) && !r.reply.Goodbye?
  {
    SetStatus(tasks, input, "mark", MarkWhich, true)
  }

  function HandleUnmark(tasks: TaskList, input: string): (r: Transition)
    ensures Consistent(tasks, r) && !r.reply.Goodbye?
  {
    SetStatus(tasks, input, "unmark", UnmarkWhich, false)
  }

  /** `handleTodo`: the list either stays as it was or gains one new, unfinished to-do at the
      end, described by the trimmed text after the command. */
  function HandleTodo(tasks: TaskList, input: string): (r: Transition)
    ensures Consistent(tasks, r) && !r.reply.Goodbye?
    ensures r.tasks == tasks || (|r.tasks| == |tasks| + 1 && r.tasks[..|tasks|] == tasks
                                 && r.tasks[|tasks|].Todo? && !r.tasks[|tasks|].isDone
                                 && r.tasks[|tasks|].description != [])
  {
    var description := GetDescription(input, "todo");
    if description == [] then Reject(tasks, TodoEmpty)
    else
      var t := NewTodo(description);
      Commit(tasks + [t], Added(t, |tasks| + 1))
  }

  /** `handleDeadline`: the list stays as it was or gains one unfinished deadline at the end,
      with a non-empty trimmed description and due text. */
  function HandleDeadline(tasks: TaskList, input: string): (r: Transition)
    ensures Consistent(tasks, r) && !r.reply.Goodbye?
    ensures r.tasks == tasks || (|r.tasks| == |tasks| + 1 && r.tasks[..|tasks|] == tasks
                                 && r.tasks[|tasks|].Deadline? && !r.tasks[|tasks|].isDone
                                 && r.tasks[|tasks|].description != [] && r.tasks[|tasks|].dueText != [])
  {
    match ParseDeadline(GetDescription(input, "deadline"))
    case Failure(m) => Reject(tasks, m)
    case Success(args) =>
      var t := NewDeadline(args.description, args.due);
      Commit(tasks + [t], Added(t, |tasks| + 1))
  }

  /** `handleEvent`: the list stays as it was or gains one unfinished event at the end, with a
      non-empty description, start and end. */
  function HandleEvent(tasks: TaskList, input: string): (r: Transition)
    ensures Consistent(tasks, r) && !r.reply.Goodbye?
    ensures r.tasks == tasks || (|r.tasks| == |tasks| + 1 && r.tasks[..|tasks|] == tasks
                                 && r.tasks[|tasks|].Event? && !r.tasks[|tasks|].isDone
                                 && r.tasks[|tasks|].description != []
                                 && r.tasks[|tasks|].startText != [] && r.tasks[|tasks|].endText != [])
  {
    match ParseEvent(GetDescription(input, "event"))
    case Failure(m) => Reject(tasks, m)
    case Success(args) =>
      var t := NewEvent(args.description, args.start, args.end);
      Commit(tasks + [t], Added(t, |tasks| + 1))
  }

  /** `handleDelete`: the list stays as it was or loses exactly one task, the others keeping
      their order. */
  function HandleDelete(tasks: TaskList, input: string): (r: Transition)
    ensures Consistent(tasks, r) && !r.reply.Goodbye?
    ensures r.tasks == tasks || exists i :: 0 <= i < |tasks| && r.tasks == tasks[..i] + tasks[i + 1..]
  {
    match Target(tasks, input, "delete", DeleteWhich)
    case Failure(m) => Reject(tasks, m)
    case Success(i) => Deletion(tasks, i)
  }

  /** Task `i` taken out, the shorter list saved, and the removed task shown with the new
      size. */
  function Deletion(tasks: TaskList, i: int): (r: Transition)
    requires 0 <= i < |tasks|
    ensures Consistent(tasks, r) && r.saved.Some? && r.reply == Removed(tasks[i], |tasks| - 1)
    ensures r.tasks == tasks[..i] + tasks[i + 1..]
  {
    var removal := Remove(tasks, i).value;
    Commit(removal.rest, Removed(removal.removed, |removal.rest|))
  }

  /** `handleClear`: the list is emptied and an empty file is written. */
  function HandleClear(tasks: TaskList): (r: Transition)
    ensures Consistent(tasks, r) && !r.reply.Goodbye?
    ensures r.tasks == [] && r.saved == Some([])
  {
    Commit([], Cleared)
  }

  /** The `if` chain of `run` for one line whose command word is `command`. */
  function Dispatch(tasks: TaskList, input: string, command: string): (r: Transition)
    ensures Consistent(tasks, r)
    ensures r.reply.Goodbye? <==> command == "bye"
  {
    if command == "bye" then Transition(tasks, Goodbye, None)
    else if command == "list" then Transition(tasks, Listing(tasks), None)
    else if command == "mark" then HandleMark(tasks, input)
    else if command == "unmark" then HandleUnmark(tasks, input)
    else if command == "todo" then HandleTodo(tasks, input)
    else if command == "deadline" then HandleDeadline(tasks, input)
    else if command == "event" then HandleEvent(tasks, input)
    else if command == "delete" then HandleDelete(tasks, input)
    else if command == "clear" then HandleClear(tasks)
    else if Trim(input) != [] then Reject(tasks, NotUnderstood(input))
    else Transition(tasks, Silent, None)
  }

  /** One pass of the loop as written: `getCommand` raises on an all-whitespace line, and the
      catch-all handler reports it. */
  function StepAsWritten(tasks: TaskList, input: string, saveError: Option<string>): (r: Transition)
    ensures Consistent(tasks, r)
  {
    match GetCommand(input)
    case Failure(m) => Reject(tasks, Unexpected + m)
    case Success(command) => Settle(Dispatch(tasks, input, command), saveError)
  }

  /** One pass of the loop with the command word taken as the longest whitespace-free prefix,
      so that a blank line reaches the branch that ignores it. A failed save is reported, and
      what the handler changed stays changed. */
  function Step(tasks: TaskList, input: string, saveError: Option<string>): (r: Transition)
    ensures Consistent(tasks, r)
    ensures r.reply.Goodbye? <==> IsLeadingWord(input, "bye")
    ensures saveError.Some? && r.saved.Some? ==> r.reply == Error(SaveFailed + saveError.value)
  {
    Settle(Dispatch(tasks, input, CommandWord(input)), saveError)
  }

  /** Both loops agree on every line except an all-whitespace one, where only the one as
      written reports an error. */
  lemma AsWrittenAgrees(tasks: TaskList, input: string, saveError: Option<string>)
    requires !(|input| > 0 && AllSpace(input))
    ensures StepAsWritten(tasks, input, saveError) == Step(tasks, input, saveError)
  {
    GetCommandCorrected(input);
  }

  lemma SpaceIsBlank(s: string)
    requires AllSpace(s)
    ensures IsBlank(s)
  {
  }

  /** A line without a visible character changes nothing, saves nothing and is not answered. */
  lemma BlankInputIgnored(tasks: TaskList, input: string, saveError: Option<string>)
    requires IsBlank(input)
    ensures Step(tasks, input, saveError) == Transition(tasks, Silent, None)
  {
    var w := CommandWord(input);
    assert IsBlank(w) by {
      assert forall k :: 0 <= k < |w| ==> w[k] == input[k];
    }
    assert w != "bye" && w != "list" && w != "mark" && w != "unmark" && w != "todo" by {
      if w != [] { assert !IsBlank(w[..1]) || w[0] !in "blmut"; }
    }
    assert w != "deadline" && w != "event" && w != "delete" && w != "clear" by {
      if w != [] { assert !IsBlank(w[..1]) || w[0] !in "dec"; }
    }
  }

  /** As written, a non-empty all-whitespace line is answered with the index error that
      `getCommand` raises; the list and the file are untouched. */
  lemma BlankInputAsWritten(tasks: TaskList, input: string, saveError: Option<string>)
    requires |input| > 0 && AllSpace(input)
    ensures StepAsWritten(tasks, input, saveError) == Reject(tasks, Unexpected + IndexZeroMissing)
    ensures Step(tasks, input, saveError) == Transition(tasks, Silent, None)
  {
    SpaceIsBlank(input);
    BlankInputIgnored(tasks, input, saveError);
  }

  /** The command words the loop dispatches on. */
  predicate IsKeyword(w: string) {
    w == "bye" || w == "list" || w == "mark" || w == "unmark" || w == "todo"
    || w == "deadline" || w == "event" || w == "delete" || w == "clear"
  }

  lemma KeywordNoSpace(w: string)
    requires IsKeyword(w)
    ensures |w| > 0 && NoSpace(w)
  {
  }

  /** The command word of `w`, optionally followed by whitespace and anything, is `w`. */
  lemma CommandIs(w: string, sep: string, rest: string)
    requires |w| > 0 && NoSpace(w) && AllSpace(sep) && (|sep| > 0 || rest == [])
    ensures CommandWord(w + sep + rest) == w
  {
    if |sep| > 0 {
      CommandBeforeSpaces(w, sep, rest);
    } else {
      assert w + sep + rest == w;
      CommandAlone(w);
      GetCommandCorrected(w);
    }
  }

  lemma Assoc(a: string, b: string, c: string, d: string)
    ensures a + b + c + d == a + b + (c + d)
  {
  }

  /** Text after the command word that holds a visible character is an argument. */
  lemma ArgumentPresent(w: string, sep: string, x: string, rest: string)
    requires !IsBlank(x)
    ensures GetDescription(w + sep + x + rest, w) != []
  {
    var input := w + sep + x + rest;
    assert input[|w|..] == sep + x + rest;
    BlankConcat(sep, x);
    BlankConcat(sep + x, rest);
  }

  /** A command word, whitespace, a written `int` and then nothing or whitespace: the line has
      an argument, and its task number is that `int`. */
  lemma NumberedLine(w: string, sep: string, n: int, rest: string)
    requires |w| > 0 && NoSpace(w) && |sep| > 0 && AllSpace(sep) && (rest == [] || IsSpace(rest[0]))
    requires IsInt32(n)
    ensures var input := w + sep + IntToString(n) + rest;
      CommandWord(input) == w && GetDescription(input, w) != [] && GetTaskNumber(input) == Success(n)
  {
    var x := IntToString(n);
    IntToken(n, x);
    Assoc(w, sep, x, rest);
    CommandIs(w, sep, x + rest);
    ArgumentPresent(w, sep, x, rest);
    TaskNumberRoundTrip(w, sep, n, rest);
  }

  /** A command word, whitespace, a text without blanks at its ends, and blanks: the argument
      is that text. */
  lemma DescribedLine(w: string, sep: string, d: string, tail: string)
    requires |w| > 0 && NoSpace(w) && |sep| > 0 && AllSpace(sep) && IsTrimmed(d) && IsBlank(tail)
    ensures CommandWord(w + sep + d + tail) == w && GetDescription(w + sep + d + tail, w) == d
  {
    Assoc(w, sep, d, tail);
    CommandIs(w, sep, d + tail);
    SpaceIsBlank(sep);
    DescriptionAfter(w, sep, d, tail);
  }

  /** A command word followed by nothing but whitespace has no argument. */
  lemma BareLine(w: string, sep: string)
    requires |w| > 0 && NoSpace(w) && AllSpace(sep)
    ensures CommandWord(w + sep) == w && GetDescription(w + sep, w) == []
  {
    assert w + sep + [] == w + sep;
    CommandIs(w, sep, []);
    SpaceIsBlank(sep);
    assert (w + sep)[|w|..] == sep;
  }

  /** Such a line is dispatched on `w`. */
  lemma Dispatched(tasks: TaskList, w: string, sep: string, rest: string, saveError: Option<string>)
    requires IsKeyword(w) && AllSpace(sep) && (|sep| > 0 || rest == [])
    ensures Step(tasks, w + sep + rest, saveError) == Settle(Dispatch(tasks, w + sep + rest, w), saveError)
  {
    KeywordNoSpace(w);
    CommandIs(w, sep, rest);
  }

  /** `bye`, alone or followed by anything after whitespace, ends the loop and changes nothing. */
  lemma ByeExits(tasks: TaskList, w: string, sep: string, rest: string, saveError: Option<string>)
    requires w == "bye" && AllSpace(sep) && (|sep| > 0 || rest == [])
    ensures Step(tasks, w + sep + rest, saveError) == Transition(tasks, Goodbye, None)
  {
    Dispatched(tasks, w, sep, rest, saveError);
  }

  /** `list` shows the list as it is and saves nothing. */
  lemma ListShows(tasks: TaskList, w: string, sep: string, rest: string, saveError: Option<string>)
    requires w == "list" && AllSpace(sep) && (|sep| > 0 || rest == [])
    ensures Step(tasks, w + sep + rest, saveError) == Transition(tasks, Listing(tasks), None)
  {
    Dispatched(tasks, w, sep, rest, saveError);
  }

  /** `clear`, with or without anything after it, empties the list and the file. */
  lemma ClearEmpties(tasks: TaskList, w: string, sep: string, rest: string, saveError: Option<string>)
    requires w == "clear" && AllSpace(sep) && (|sep| > 0 || rest == [])
    ensures var r := Step(tasks, w + sep + rest, saveError);
      r.tasks == [] && r.saved == Some([]) && (saveError.None? ==> r.reply == Cleared)
  {
    Dispatched(tasks, w, sep, rest, saveError);
    assert Dispatch(tasks, w + sep + rest, w) == HandleClear(tasks);
  }

  /** A line with a visible character whose command word is not one of the loop's is not
      understood, and nothing changes. */
  lemma OtherNotUnderstood(tasks: TaskList, input: string, saveError: Option<string>)
    requires !IsKeyword(CommandWord(input)) && !IsBlank(input)
    ensures Step(tasks, input, saveError) == Reject(tasks, NotUnderstood(input))
  {
    assert Trim(input) != [];
  }

  /** `find` is not one of the loop's commands: a line starting with it is not understood,
      although the list can search. */
  lemma FindNotUnderstood(tasks: TaskList, w: string, sep: string, rest: string, saveError: Option<string>)
    requires w == "find" && |sep| > 0 && AllSpace(sep)
    ensures Step(tasks, w + sep + rest, saveError) == Reject(tasks, NotUnderstood(w + sep + rest))
  {
    var input := w + sep + rest;
    CommandIs(w, sep, rest);
    assert !IsBlank(input) by { assert input[0] == 'f'; }
    OtherNotUnderstood(tasks, input, saveError);
  }

  /** Each command word reaches its own handler. */
  lemma Handles(tasks: TaskList, input: string, w: string)
    ensures w == "mark" ==> Dispatch(tasks, input, w) == HandleMark(tasks, input)
    ensures w == "unmark" ==> Dispatch(tasks, input, w) == HandleUnmark(tasks, input)
    ensures w == "todo" ==> Dispatch(tasks, input, w) == HandleTodo(tasks, input)
    ensures w == "deadline" ==> Dispatch(tasks, input, w) == HandleDeadline(tasks, input)
    ensures w == "event" ==> Dispatch(tasks, input, w) == HandleEvent(tasks, input)
    ensures w == "delete" ==> Dispatch(tasks, input, w) == HandleDelete(tasks, input)
  {
    CommandWordsDiffer();
  }

  /** Each command word differs from the words tested before it in the chain. */
  lemma CommandWordsDiffer()
    ensures "mark" != "bye" && "mark" != "list"
    ensures "unmark" != "bye" && "unmark" != "list" && "unmark" != "mark"
    ensures "todo" != "bye" && "todo" != "list" && "todo" != "mark" && "todo" != "unmark"
    ensures "deadline" != "bye" && "deadline" != "list" && "deadline" != "mark" && "deadline" != "unmark"
      && "deadline" != "todo"
    ensures "event" != "bye" && "event" != "list" && "event" != "mark" && "event" != "unmark"
      && "event" != "todo" && "event" != "deadline"
    ensures "delete" != "bye" && "delete" != "list" && "delete" != "mark" && "delete" != "unmark"
      && "delete" != "todo" && "delete" != "deadline" && "delete" != "event"
  {
  }

  /** The message `mark`, `unmark` or `delete` gives when the line has no argument. */
  function Missing(w: string): string {
    if w == "mark" then MarkWhich else if w == "unmark" then UnmarkWhich else DeleteWhich
  }

  /** A line that names a task number inside `1..size` targets the position one below it; any
      other number targets none. */
  lemma NumberTarget(tasks: TaskList, input: string, w: string, n: int)
    requires GetDescription(input, w) != [] && GetTaskNumber(input) == Success(n) && |tasks| <= MaxInt
    ensures Target(tasks, input, w, Missing(w))
      == if 1 <= n <= |tasks| then Success(n - 1) else Failure(NoSuchTask)
  {
    TargetOf(tasks, input, w, n, Missing(w));
  }

  lemma NumberInRange(tasks: TaskList, input: string, w: string, n: int)
    requires GetDescription(input, w) != [] && GetTaskNumber(input) == Success(n) && 1 <= n <= |tasks| <= MaxInt
    ensures Target(tasks, input, w, Missing(w)) == Success(n - 1)
  {
    NumberTarget(tasks, input, w, n);
  }

  /** A line whose task number cannot be read is refused with the parser's message. */
  lemma UnreadTarget(tasks: TaskList, input: string, w: string)
    requires GetDescription(input, w) != [] && GetTaskNumber(input).Failure?
    ensures Target(tasks, input, w, Missing(w)) == Failure(GetTaskNumber(input).msg)
  {
  }

  /** `mark`, `unmark` and `delete` refuse a line without a target with the target's message,
      and nothing changes. */
  lemma TargetRefused(tasks: TaskList, input: string, w: string, saveError: Option<string>)
    requires w == "mark" || w == "unmark" || w == "delete"
    requires CommandWord(input) == w && Target(tasks, input, w, Missing(w)).Failure?
    ensures Step(tasks, input, saveError) == Reject(tasks, Target(tasks, input, w, Missing(w)).msg)
  {
    Handles(tasks, input, CommandWord(input));
  }

  /** `r` sets the flag of task `i` to `done` and changes nothing else of it, leaves every
      other task as it was, and saves the result; the reply shows the task unless the save
      failed. */
  predicate StatusSet(tasks: TaskList, i: int, done: bool, saveError: Option<string>, r: Transition) {
    0 <= i < |tasks| && |r.tasks| == |tasks| && r.tasks[i].isDone == done
    && r.tasks[i].(isDone := tasks[i].isDone) == tasks[i]
    && (forall k :: 0 <= k < |tasks| && k != i ==> r.tasks[k] == tasks[k])
    && r.saved == Some(Save(r.tasks))
    && (saveError.None? ==> r.reply == Marked(r.tasks[i], done))
  }

  lemma StatusFacts(tasks: TaskList, i: int, done: bool, saveError: Option<string>, r: Transition)
    requires 0 <= i < |tasks|
    requires r == Settle(StatusChange(tasks, i, done), saveError)
    ensures StatusSet(tasks, i, done, saveError, r)
  {
  }

  /** `mark` and `unmark` on a line that targets task `i`. */
  lemma StatusAt(tasks: TaskList, input: string, w: string, done: bool, saveError: Option<string>, i: int)
    requires (w == "mark" && done) || (w == "unmark" && !done)
    requires CommandWord(input) == w && Target(tasks, input, w, Missing(w)) == Success(i)
    ensures StatusSet(tasks, i, done, saveError, Step(tasks, input, saveError))
  {
    Handles(tasks, input, CommandWord(input));
    assert SetStatus(tasks, input, w, Missing(w), done) == StatusChange(tasks, i, done);
    StatusFacts(tasks, i, done, saveError, Settle(StatusChange(tasks, i, done), saveError));
  }

  /** `mark n` sets the flag of the n-th task and `unmark n` clears it, for every `n` in
      `1..size`. */
  lemma StatusOfOne(tasks: TaskList, input: string, w: string, done: bool, n: int, saveError: Option<string>)
    requires (w == "mark" && done) || (w == "unmark" && !done)
    requires CommandWord(input) == w && GetDescription(input, w) != [] && GetTaskNumber(input) == Success(n)
    requires 1 <= n <= |tasks| <= MaxInt
    ensures StatusSet(tasks, n - 1, done, saveError, Step(tasks, input, saveError))
  {
    NumberInRange(tasks, input, w, n);
    StatusAt(tasks, input, w, done, saveError, n - 1);
  }

  /** Every task number outside `1..size`, the smallest `int` included, is refused by `mark`,
      `unmark` and `delete` with the same message, and nothing changes. */
  lemma NumberOutOfRange(tasks: TaskList, input: string, w: string, n: int, saveError: Option<string>)
    requires w == "mark" || w == "unmark" || w == "delete"
    requires CommandWord(input) == w && GetDescription(input, w) != [] && GetTaskNumber(input) == Success(n)
    requires !(1 <= n <= |tasks|) && |tasks| <= MaxInt
    ensures Step(tasks, input, saveError) == Reject(tasks, NoSuchTask)
  {
    NumberTarget(tasks, input, w, n);
    TargetRefused(tasks, input, w, saveError);
  }

  /** A task number that is missing or not an `int` is refused with the parser's message, and
      nothing changes. */
  lemma NumberRefused(tasks: TaskList, input: string, w: string, saveError: Option<string>)
    requires w == "mark" || w == "unmark" || w == "delete"
    requires CommandWord(input) == w && GetDescription(input, w) != [] && GetTaskNumber(input).Failure?
    ensures Step(tasks, input, saveError) == Reject(tasks, GetTaskNumber(input).msg)
  {
    UnreadTarget(tasks, input, w);
    TargetRefused(tasks, input, w, saveError);
  }

  /** `mark`, `unmark` and `delete` without an argument ask which task is meant. */
  lemma NumberMissing(tasks: TaskList, input: string, w: string, saveError: Option<string>)
    requires w == "mark" || w == "unmark" || w == "delete"
    requires CommandWord(input) == w && GetDescription(input, w) == []
    ensures Step(tasks, input, saveError) == Reject(tasks, Missing(w))
  {
    TargetRefused(tasks, input, w, saveError);
  }

  /** `r` removes task `i` and only it, and saves the result; the reply shows the removed task
      and the new size unless the save failed. */
  predicate TaskRemoved(tasks: TaskList, i: int, saveError: Option<string>, r: Transition) {
    0 <= i < |tasks| && |r.tasks| == |tasks| - 1 && r.tasks[..i] + [tasks[i]] + r.tasks[i..] == tasks
    && r.saved == Some(Save(r.tasks))
    && (saveError.None? ==> r.reply == Removed(tasks[i], |tasks| - 1))
  }

  lemma RemovalFacts(tasks: TaskList, i: int, saveError: Option<string>, r: Transition)
    requires 0 <= i < |tasks|
    requires r == Settle(Deletion(tasks, i), saveError)
    ensures TaskRemoved(tasks, i, saveError, r)
  {
    RemoveThenInsert(tasks, i);
  }

  /** `delete` on a line that targets task `i`. */
  lemma DeleteAt(tasks: TaskList, input: string, saveError: Option<string>, i: int)
    requires CommandWord(input) == "delete" && Target(tasks, input, "delete", Missing("delete")) == Success(i)
    ensures TaskRemoved(tasks, i, saveError, Step(tasks, input, saveError))
  {
    Handles(tasks, input, CommandWord(input));
    assert HandleDelete(tasks, input) == Deletion(tasks, i);
    RemovalFacts(tasks, i, saveError, Settle(Deletion(tasks, i), saveError));
  }

  /** `delete n` removes the n-th task and only it: putting it back where it was restores the
      list. */
  lemma DeleteOne(tasks: TaskList, input: string, n: int, saveError: Option<string>)
    requires CommandWord(input) == "delete" && GetDescription(input, "delete") != []
    requires GetTaskNumber(input) == Success(n) && 1 <= n <= |tasks| <= MaxInt
    ensures TaskRemoved(tasks, n - 1, saveError, Step(tasks, input, saveError))
  {
    NumberInRange(tasks, input, "delete", n);
    DeleteAt(tasks, input, saveError, n - 1);
  }

  /** `r` adds `t` at the end of the list and saves the result; the reply shows the task and
      the new size unless the save failed. */
  predicate Appended(tasks: TaskList, t: Task, saveError: Option<string>, r: Transition) {
    r.tasks == tasks + [t] && r.saved == Some(Save(r.tasks))
    && (saveError.None? ==> r.reply == Added(t, |tasks| + 1))
  }

  lemma AddedFacts(tasks: TaskList, t: Task, saveError: Option<string>, r: Transition)
    requires r == Settle(Commit(tasks + [t], Added(t, |tasks| + 1)), saveError)
    ensures Appended(tasks, t, saveError, r)
  {
  }

  /** `todo` with an argument adds exactly that text as a new, unfinished to-do at the end, and
      saves the longer list. */
  lemma TodoAppends(tasks: TaskList, input: string, saveError: Option<string>)
    requires CommandWord(input) == "todo" && GetDescription(input, "todo") != []
    ensures Appended(tasks, NewTodo(GetDescription(input, "todo")), saveError, Step(tasks, input, saveError))
  {
    var t := NewTodo(GetDescription(input, "todo"));
    Handles(tasks, input, CommandWord(input));
    assert HandleTodo(tasks, input) == Commit(tasks + [t], Added(t, |tasks| + 1));
    AddedFacts(tasks, t, saveError, Settle(Commit(tasks + [t], Added(t, |tasks| + 1)), saveError));
  }

  /** `todo` without an argument is refused and nothing changes. */
  lemma TodoNeedsDescription(tasks: TaskList, input: string, saveError: Option<string>)
    requires CommandWord(input) == "todo" && GetDescription(input, "todo") == []
    ensures Step(tasks, input, saveError) == Reject(tasks, TodoEmpty)
  {
    Handles(tasks, input, CommandWord(input));
  }

  /** `deadline` with an argument the parser reads adds an unfinished deadline with that
      description and due text. */
  lemma DeadlineAppends(tasks: TaskList, input: string, args: DeadlineArgs, saveError: Option<string>)
    requires CommandWord(input) == "deadline" && ParseDeadline(GetDescription(input, "deadline")) == Success(args)
    ensures Appended(tasks, NewDeadline(args.description, args.due), saveError, Step(tasks, input, saveError))
  {
    var t := NewDeadline(args.description, args.due);
    Handles(tasks, input, CommandWord(input));
    assert HandleDeadline(tasks, input) == Commit(tasks + [t], Added(t, |tasks| + 1));
    AddedFacts(tasks, t, saveError, Settle(Commit(tasks + [t], Added(t, |tasks| + 1)), saveError));
  }

  /** `deadline` with an argument the parser refuses is answered with the parser's message,
      and nothing changes. */
  lemma DeadlineRefused(tasks: TaskList, input: string, saveError: Option<string>)
    requires CommandWord(input) == "deadline" && ParseDeadline(GetDescription(input, "deadline")).Failure?
    ensures Step(tasks, input, saveError) == Reject(tasks, ParseDeadline(GetDescription(input, "deadline")).msg)
  {
    Handles(tasks, input, CommandWord(input));
  }

  /** `event` with an argument the parser reads adds an unfinished event with that
      description, start and end. */
  lemma EventAppends(tasks: TaskList, input: string, args: EventArgs, saveError: Option<string>)
    requires CommandWord(input) == "event" && ParseEvent(GetDescription(input, "event")) == Success(args)
    ensures Appended(tasks, NewEvent(args.description, args.start, args.end), saveError, Step(tasks, input, saveError))
  {
    var t := NewEvent(args.description, args.start, args.end);
    Handles(tasks, input, CommandWord(input));
    assert HandleEvent(tasks, input) == Commit(tasks + [t], Added(t, |tasks| + 1));
    AddedFacts(tasks, t, saveError, Settle(Commit(tasks + [t], Added(t, |tasks| + 1)), saveError));
  }

  /** `event` with an argument the parser refuses is answered with the parser's message, and
      nothing changes. */
  lemma EventRefused(tasks: TaskList, input: string, saveError: Option<string>)
    requires CommandWord(input) == "event" && ParseEvent(GetDescription(input, "event")).Failure?
    ensures Step(tasks, input, saveError) == Reject(tasks, ParseEvent(GetDescription(input, "event")).msg)
  {
    Handles(tasks, input, CommandWord(input));
  }

  /** A failed save is reported in place of the handler's reply, but the list in memory keeps
      the change and the same lines were handed to the storage. */
  lemma FailedSaveKeepsChange(tasks: TaskList, input: string, message: string)
    ensures var ok := Step(tasks, input, None); var failed := Step(tasks, input, Some(message));
      failed.tasks == ok.tasks && failed.saved == ok.saved
      && (ok.saved.Some? ==> failed.reply == Error(SaveFailed + message))
      && (ok.saved.None? ==> failed.reply == ok.reply)
  {
  }

  /** When every task of the new list survives the record format, loading the lines handed to
      the storage gives the new list back. */
  lemma SavedListReloads(tasks: TaskList, input: string, saveError: Option<string>)
    requires var r := Step(tasks, input, saveError); forall i :: 0 <= i < |r.tasks| ==> Storable(r.tasks[i])
    ensures var r := Step(tasks, input, saveError); r.saved.Some? ==> Load(r.saved.value) == r.tasks
  {
    LoadSave(Step(tasks, input, saveError).tasks);
  }

  /** The constructor: the list read from the file, or an empty one when reading it throws. */
  function Start(file: Option<seq<string>>): (r: TaskList)
    ensures file.None? ==> r == []
    ensures forall t :: t in r ==> Interpreted(t) && WellFormed(t)
  {
    match file
    case None => []
    case Some(lines) => Load(lines)
  }

  /** A list of storable tasks, saved, comes back unchanged on the next start. */
  lemma RestartRestores(tasks: TaskList)
    requires forall i :: 0 <= i < |tasks| ==> Storable(tasks[i])
    ensures Start(Some(Save(tasks))) == tasks
  {
    LoadSave(tasks);
  }

  /** A session: the list at the end, the replies, and how many lines were read. */
  datatype Session = Session(tasks: TaskList, replies: seq<Reply>, consumed: nat)

  /** The loop of `run` for a given step: one reply per line read, stopping right after the
      first `Goodbye`. */
  function Loop(step: (TaskList, string) -> Transition, tasks: TaskList, inputs: seq<string>): (r: Session)
    ensures r.consumed <= |inputs| && |r.replies| == r.consumed
    ensures forall k :: 0 <= k < r.consumed - 1 ==> !r.replies[k].Goodbye?
    ensures r.consumed == |inputs| || (r.consumed > 0 && r.replies[r.consumed - 1].Goodbye?)
    decreases |inputs|
  {
    if |inputs| == 0 then Session(tasks, [], 0)
    else
      var t := step(tasks, inputs[0]);
      if t.reply.Goodbye? then Session(t.tasks, [Goodbye], 1)
      else
        var rest := Loop(step, t.tasks, inputs[1..]);
        Session(rest.tasks, [t.reply] + rest.replies, rest.consumed + 1)
  }

  /** One pass of the corrected loop, the save succeeding. */
  function StepSaved(tasks: TaskList, input: string): Transition {
    Step(tasks, input, None)
  }

  /** One pass of the loop as written, the save succeeding. */
  function StepSavedAsWritten(tasks: TaskList, input: string): Transition {
    StepAsWritten(tasks, input, None)
  }

  /** `run` over the lines the user types, every save succeeding, with the command word read
      as intended: one reply per line read, and reading stops at the end of the input or right
      after `bye`. */
  function Run(tasks: TaskList, inputs: seq<string>): (r: Session)
    ensures r.consumed <= |inputs| && |r.replies| == r.consumed
    ensures forall k :: 0 <= k < r.consumed - 1 ==> !r.replies[k].Goodbye?
    ensures r.consumed == |inputs| || (r.consumed > 0 && r.replies[r.consumed - 1].Goodbye?)
  {
    Loop(StepSaved, tasks, inputs)
  }

  /** `run` exactly as written, every save succeeding: a line of whitespace only is answered
      with the index error of `getCommand`. */
  function RunAsWritten(tasks: TaskList, inputs: seq<string>): (r: Session)
    ensures r.consumed <= |inputs| && |r.replies| == r.consumed
    ensures forall k :: 0 <= k < r.consumed - 1 ==> !r.replies[k].Goodbye?
    ensures r.consumed == |inputs| || (r.consumed > 0 && r.replies[r.consumed - 1].Goodbye?)
  {
    Loop(StepSavedAsWritten, tasks, inputs)
  }

  /** Loops whose steps agree on every line typed run the same session. */
  lemma {:induction false} LoopsAgree(f: (TaskList, string) -> Transition, g: (TaskList, string) -> Transition,
                                      tasks: TaskList, inputs: seq<string>)
    requires forall ts, i :: 0 <= i < |inputs| ==> f(ts, inputs[i]) == g(ts, inputs[i])
    ensures Loop(f, tasks, inputs) == Loop(g, tasks, inputs)
    decreases |inputs|
  {
    if |inputs| > 0 {
      var t := f(tasks, inputs[0]);
      assert t == g(tasks, inputs[0]);
      if !t.reply.Goodbye? {
        var rest := inputs[1..];
        assert forall ts, i :: 0 <= i < |rest| ==> f(ts, rest[i]) == g(ts, inputs[i + 1]);
        LoopsAgree(f, g, t.tasks, rest);
      }
    }
  }

  /** The session as written and the corrected one are the same unless a line of whitespace
      only is read. */
  lemma RunAgrees(tasks: TaskList, inputs: seq<string>)
    requires forall i :: 0 <= i < |inputs| ==> !(|inputs[i]| > 0 && AllSpace(inputs[i]))
    ensures RunAsWritten(tasks, inputs) == Run(tasks, inputs)
  {
    forall ts, i | 0 <= i < |inputs|
      ensures StepSavedAsWritten(ts, inputs[i]) == StepSaved(ts, inputs[i])
    {
      AsWrittenAgrees(ts, inputs[i], None);
    }
    LoopsAgree(StepSavedAsWritten, StepSaved, tasks, inputs);
  }

  /** A session of one space: the loop as written reports the index error, the corrected one
      stays silent. */
  lemma RunBlankLine(tasks: TaskList)
    ensures RunAsWritten(tasks, [" "]) == Session(tasks, [Error(Unexpected + IndexZeroMissing)], 1)
    ensures Run(tasks, [" "]) == Session(tasks, [Silent], 1)
  {
    var input := " ";
    assert AllSpace(input);
    BlankInputAsWritten(tasks, input, None);
    assert [input][1..] == [];
  }

  /** Nothing typed after the loop has ended is read: more input changes nothing. */
  lemma {:induction false} LoopIgnoresAfterBye(step: (TaskList, string) -> Transition, tasks: TaskList,
                                               inputs: seq<string>, more: seq<string>)
    requires Loop(step, tasks, inputs).consumed > 0
    requires Loop(step, tasks, inputs).replies[Loop(step, tasks, inputs).consumed - 1].Goodbye?
    ensures Loop(step, tasks, inputs + more) == Loop(step, tasks, inputs)
    decreases |inputs|
  {
    var t := step(tasks, inputs[0]);
    assert (inputs + more)[0] == inputs[0];
    if !t.reply.Goodbye? {
      var rest := Loop(step, t.tasks, inputs[1..]);
      assert rest.replies[rest.consumed - 1] == Loop(step, tasks, inputs).replies[Loop(step, tasks, inputs).consumed - 1];
      assert (inputs + more)[1..] == inputs[1..] + more;
      LoopIgnoresAfterBye(step, t.tasks, inputs[1..], more);
    }
  }

  /** A session that reads `bye` stops there, whatever follows. */
  lemma RunStopsAtBye(tasks: TaskList, inputs: seq<string>, more: seq<string>)
    requires Run(tasks, inputs).consumed > 0
    requires Run(tasks, inputs).replies[Run(tasks, inputs).consumed - 1].Goodbye?
    ensures Run(tasks, inputs + more) == Run(tasks, inputs)
  {
    var before := Run(tasks, inputs);
    assert before == Loop(StepSaved, tasks, inputs);
    LoopIgnoresAfterBye(StepSaved, tasks, inputs, more);
    assert Run(tasks, inputs + more) == Loop(StepSaved, tasks, inputs + more);
  }
}

=== FILE: input_validator.dfy ===
/** Reusable input checks. Each either passes or fails with a message built from the caller's
    field name or taken verbatim from the caller; `null` is `None`. */
module InputValidator {
  import opened Wrappers
  import opened JavaText
  import opened Decimal

  const RangePrefix := "Task number doesn't exist. Please provide a number between 1 and "

  function EmptyMessage(fieldName: string): string {
    fieldName + " cannot be empty."
  }

  function NotPositiveMessage(fieldName: string): string {
    fieldName + " must be a positive number."
  }

  function NotNumberMessage(fieldName: string): string {
    fieldName + " must be a valid number."
  }

  /** `requireNonEmpty`: fails exactly when the input is missing or has no visible character. */
  function RequireNonEmpty(input: Option<string>, fieldName: string): (r: Outcome)
    ensures r.Fail? <==> input.None? || IsBlank(input.value)
    ensures r.Fail? ==> r.msg == EmptyMessage(fieldName)
  {
    if input.None? || Trim(input.value) == [] then Fail(EmptyMessage(fieldName)) else Pass
  }

  /** Text around a visible character always passes, whatever surrounds it. */
  lemma NonEmptyAround(a: string, c: char, b: string, fieldName: string)
    requires !IsTrimmable(c)
    ensures RequireNonEmpty(Some(a + [c] + b), fieldName) == Pass
  {
    assert (a + [c] + b)[|a|] == c;
  }

  /** `requireDelimiter`: fails exactly when the delimiter does not occur, with the caller's
      message unchanged. */
  function RequireDelimiter(input: string, delimiter: string, errorMessage: string): (r: Outcome)
    ensures r.Fail? <==> !Contains(input, delimiter)
    ensures r.Fail? ==> r.msg == errorMessage
  {
    if !Contains(input, delimiter) then Fail(errorMessage) else Pass
  }

  /** Text that has the delimiter spliced in passes; the empty delimiter is in every text. */
  lemma DelimiterSpliced(a: string, d: string, b: string, errorMessage: string)
    ensures RequireDelimiter(a + d + b, d, errorMessage) == Pass
    ensures RequireDelimiter(a, [], errorMessage) == Pass
  {
    var s := a + d + b;
    assert s[|a|..|a| + |d|] == d;
    assert OccursAt(s, d, |a|);
    assert OccursAt(a, [], 0);
  }

  /** `requireValidTaskIndex`: passes exactly for `0 <= taskNum < maxIndex`, and otherwise names
      the range `1..maxIndex`. */
  function RequireValidTaskIndex(taskNum: int, maxIndex: int): (r: Outcome)
    requires IsInt32(taskNum) && IsInt32(maxIndex)
    ensures r.Pass? <==> 0 <= taskNum < maxIndex
    ensures r.Fail? ==> RangePrefix <= r.msg
  {
    if taskNum < 0 || taskNum >= maxIndex then Fail(RangePrefix + IntToString(maxIndex) + ".")
    else Pass
  }

  /** The failure message ends with the upper bound, written so that `parseInt` reads it back. */
  lemma RangeMessageNamesBound(taskNum: int, maxIndex: int)
    requires IsInt32(taskNum) && IsInt32(maxIndex)
    requires RequireValidTaskIndex(taskNum, maxIndex).Fail?
    ensures var m := RequireValidTaskIndex(taskNum, maxIndex).msg;
      |m| > |RangePrefix| + 1 && m[|m| - 1] == '.'
      && ParseInt(m[|RangePrefix|..|m| - 1]) == Some(maxIndex)
  {
    var m := RequireValidTaskIndex(taskNum, maxIndex).msg;
    assert m[|RangePrefix|..|m| - 1] == IntToString(maxIndex);
    ParseIntToString(maxIndex);
  }

  /** `requirePositiveInteger`: the trimmed text read as an `int`, which must be positive; a
      text that is not an `int` and a number that is not positive fail differently. */
  function RequirePositiveInteger(numberString: string, fieldName: string): (r: Result<int>)
    ensures r.Success? ==> r.value > 0 && ParseInt(Trim(numberString)) == Some(r.value)
    ensures r.Failure? ==> (r.msg == NotPositiveMessage(fieldName) || r.msg == NotNumberMessage(fieldName))
    ensures r.Failure? ==> (r.msg == NotNumberMessage(fieldName) <==> ParseInt(Trim(numberString)).None?)
  {
    match ParseInt(Trim(numberString))
    case None => Failure(NotNumberMessage(fieldName))
    case Some(number) =>
      if number <= 0 then Failure(NotPositiveMessage(fieldName)) else Success(number)
  }

  /** Every `int` written out, with blanks around it, is accepted when positive and reported as
      not positive otherwise. */
  lemma PositiveOfText(a: string, n: int, b: string, fieldName: string)
    requires IsInt32(n) && IsBlank(a) && IsBlank(b)
    ensures RequirePositiveInteger(a + IntToString(n) + b, fieldName)
      == if n > 0 then Success(n) else Failure(NotPositiveMessage(fieldName))
  {
    var x := IntToString(n);
    IntToStringChars(n);
    assert IsTrimmed(x);
    TrimFramed(a, x, b);
    ParseIntToString(n);
  }

  /** A word is not a number: `abc` is reported as invalid, not as non-positive. */
  lemma NotANumberExample(s: string, fieldName: string)
    requires s == "abc"
    ensures RequirePositiveInteger(s, fieldName) == Failure(NotNumberMessage(fieldName))
  {
    TrimOfTrimmed(s);
    ParseIntRejectsNonDigit(s, 0);
  }

  /** `requireMinParts`: at least `expectedMinParts` parts, the first `expectedMinParts` of them
      non-blank; later parts are not looked at. */
  method RequireMinParts(parts: seq<string>, expectedMinParts: int, errorMessage: string) returns (r: Outcome)
    ensures r.Pass? <==> (|parts| >= expectedMinParts
                          && forall i :: 0 <= i < expectedMinParts ==> !IsBlank(parts[i]))
    ensures r.Fail? ==> r.msg == errorMessage
  {
    if |parts| < expectedMinParts {
      return Fail(errorMessage);
    }
    var i := 0;
    while i < expectedMinParts
      invariant 0 <= i <= |parts|
      invariant i <= expectedMinParts || expectedMinParts < 0
      invariant forall k :: 0 <= k < i ==> !IsBlank(parts[k])
    {
      if Trim(parts[i]) == [] {
        return Fail(errorMessage);
      }
      i := i + 1;
    }
    return Pass;
  }
}

=== FILE: java_text.dfy ===
/** The pieces of `java.lang.String` the tracker relies on: `trim`, `contains`, and `split`
    with a regular expression that is either an alternation of literal strings
    (`" \\| "`, `" /by "`, `" /from | /to "`) or the whitespace run `\\s+`. */
module JavaText {
  import opened Wrappers

  /** A character `String.trim` removes from either end: anything at or below U+0020. */
  predicate IsTrimmable(c: char) {
    c <= ' '
  }

  /** A character of the regex class `\s`: space, tab, newline, vertical tab, form feed, carriage return. */
  predicate IsSpace(c: char) {
    c == ' ' || c == '\t' || c == '\n' || c == '\U{000B}' || c == '\U{000C}' || c == '\r'
  }

  /** `s.trim().isEmpty()`: no character of `s` is visible. */
  predicate IsBlank(s: string) {
    forall i :: 0 <= i < |s| ==> IsTrimmable(s[i])
  }

  predicate NoSpace(s: string) {
    forall i :: 0 <= i < |s| ==> !IsSpace(s[i])
  }

  predicate AllSpace(s: string) {
    forall i :: 0 <= i < |s| ==> IsSpace(s[i])
  }

  /** `s` with its leading trimmable characters removed. */
  function TrimLeft(s: string): (r: string)
    ensures |r| <= |s| && r == s[|s| - |r|..]
    ensures IsBlank(s[..|s| - |r|])
    ensures r == [] || !IsTrimmable(r[0])
  {
    if |s| > 0 && IsTrimmable(s[0]) then
      var r := TrimLeft(s[1..]);
      LeadStep(s, r);
      r
    else
      s
  }

  /** `s` with its trailing trimmable characters removed. */
  function TrimRight(s: string): (r: string)
    ensures |r| <= |s| && r == s[..|r|]
    ensures IsBlank(s[|r|..])
    ensures r == [] || !IsTrimmable(r[|r| - 1])
  {
    if |s| > 0 && IsTrimmable(s[|s| - 1]) then
      var r := TrimRight(s[..|s| - 1]);
      TailStep(s, r);
      r
    else
      s
  }

  /** `r` is the infix of `s` at `i` that `trim` keeps: it begins and ends with a visible
      character, and everything before and after it is trimmable. */
  predicate TrimmedAt(s: string, i: int, r: string) {
    0 <= i && i + |r| <= |s| && r == s[i..i + |r|] && IsBlank(s[..i]) && IsBlank(s[i + |r|..])
    && IsTrimmed(r) && (r == [] <==> IsBlank(s))
  }

  /** One more trimmable character in front of what `TrimLeft` strips from the rest. */
  lemma LeadStep(s: string, r: string)
    requires |s| > 0 && IsTrimmable(s[0])
    requires |r| <= |s| - 1 && r == s[1..][|s| - 1 - |r|..] && IsBlank(s[1..][..|s| - 1 - |r|])
    ensures r == s[|s| - |r|..] && IsBlank(s[..|s| - |r|])
  {
    assert s[1..][|s| - 1 - |r|..] == s[|s| - |r|..];
    assert s[1..][..|s| - 1 - |r|] == s[1..|s| - |r|];
    assert s[..|s| - |r|] == [s[0]] + s[1..|s| - |r|];
    BlankConcat([s[0]], s[1..|s| - |r|]);
  }

  /** One more trimmable character behind what `TrimRight` strips from the rest. */
  lemma TailStep(s: string, r: string)
    requires |s| > 0 && IsTrimmable(s[|s| - 1])
    requires |r| <= |s| - 1 && r == s[..|s| - 1][..|r|] && IsBlank(s[..|s| - 1][|r|..])
    ensures r == s[..|r|] && IsBlank(s[|r|..])
  {
    assert s[..|s| - 1][|r|..] == s[|r|..|s| - 1];
    assert s[|r|..] == s[|r|..|s| - 1] + [s[|s| - 1]];
    BlankConcat(s[|r|..|s| - 1], [s[|s| - 1]]);
  }

  /** `String.trim`: the longest infix of `s` that begins and ends with a visible character,
      everything around it being trimmable. */
  function Trim(s: string): (r: string)
    ensures TrimmedAt(s, |s| - |TrimLeft(s)|, r)
  {
    TrimSlices(s, TrimLeft(s), TrimRight(TrimLeft(s)), |s| - |TrimLeft(s)|);
    TrimRight(TrimLeft(s))
  }

  /** The facts behind `Trim`'s contract: trimming both ends leaves an infix framed by blanks. */
  lemma TrimSlices(s: string, left: string, r: string, i: int)
    requires left == TrimLeft(s) && r == TrimRight(left) && i == |s| - |left|
    ensures TrimmedAt(s, i, r)
  {
    SuffixFrame(s, i, left, r);
    if IsBlank(s) {
      BlankTrimLeft(s);
    }
  }

  lemma BlankTrimLeft(s: string)
    requires IsBlank(s)
    ensures TrimLeft(s) == []
  {
  }

  /** Cutting a blank tail off the suffix `s[i..]` of `s` leaves an infix of `s`. */
  lemma SuffixFrame(s: string, i: nat, left: string, r: string)
    requires i <= |s| && left == s[i..] && IsBlank(s[..i])
    requires |r| <= |left| && r == left[..|r|] && IsBlank(left[|r|..])
    ensures i + |r| <= |s| && r == s[i..i + |r|] && IsBlank(s[i + |r|..])
    ensures r == [] ==> IsBlank(s)
  {
    assert s[i + |r|..] == left[|r|..];
    if r == [] {
      assert s == s[..i] + left;
      BlankConcat(s[..i], left);
    }
  }

  lemma BlankConcat(a: string, b: string)
    ensures IsBlank(a + b) <==> IsBlank(a) && IsBlank(b)
  {
    assert forall k :: 0 <= k < |a| ==> (a + b)[k] == a[k];
    assert forall k :: 0 <= k < |b| ==> (a + b)[|a| + k] == b[k];
  }

  lemma {:induction false} TrimIdempotent(s: string)
    ensures Trim(Trim(s)) == Trim(s)
  {
    TrimOfTrimmed(Trim(s));
  }

  /** Nothing at either end that `trim` would strip. */
  predicate IsTrimmed(s: string) {
    s == [] || (!IsTrimmable(s[0]) && !IsTrimmable(s[|s| - 1]))
  }

  /** A string that already begins and ends with visible characters is its own trim. */
  lemma TrimOfTrimmed(s: string)
    requires IsTrimmed(s)
    ensures Trim(s) == s
  {
  }

  /** Trimming text framed by blanks gives back the visible text inside. */
  lemma TrimFramed(a: string, x: string, b: string)
    requires IsBlank(a) && IsBlank(b) && IsTrimmed(x)
    ensures Trim(a + x + b) == x
  {
    assert a + x + b == a + (x + b);
    if x == [] {
      BlankConcat(a, b);
      BlankTrimLeft(a + b);
    } else {
      TrimLeftOfFramed(a, x + b);
      TrimRightOfFramed(x, b);
    }
  }

  lemma {:induction false} TrimLeftOfFramed(a: string, y: string)
    requires IsBlank(a) && (y == [] || !IsTrimmable(y[0]))
    ensures TrimLeft(a + y) == y
  {
    if a != [] {
      assert (a + y)[1..] == a[1..] + y;
      TrimLeftOfFramed(a[1..], y);
    }
  }

  lemma {:induction false} TrimRightOfFramed(y: string, b: string)
    requires IsBlank(b) && (y == [] || !IsTrimmable(y[|y| - 1]))
    ensures TrimRight(y + b) == y
  {
    if b != [] {
      assert (y + b)[..|y + b| - 1] == y + b[..|b| - 1];
      TrimRightOfFramed(y, b[..|b| - 1]);
    } else {
      assert y + b == y;
    }
  }

  /** `s.substring(i, i + |d|).equals(d)`. */
  predicate OccursAt(s: string, d: string, i: nat) {
    i + |d| <= |s| && s[i..i + |d|] == d
  }

  /** `s.contains(d)`. */
  predicate Contains(s: string, d: string) {
    exists i :: 0 <= i <= |s| - |d| && OccursAt(s, d, i)
  }

  /** `d` occurs at `i` and nowhere before it. */
  predicate FirstOccurrence(s: string, d: string, i: nat) {
    OccursAt(s, d, i) && forall j :: 0 <= j < i ==> !OccursAt(s, d, j)
  }

  /** A regular expression as the tracker uses them. */
  datatype Pattern =
    | Literals(alternatives: seq<string>)  // literal strings separated by `|`, tried in order
    | SpaceRun                             // `\s+`, matched greedily

  /** A match of a pattern: where it starts and how many characters it covers. */
  datatype Match = Match(start: nat, len: nat)

  /** The length of the first alternative that occurs at position `i` (the empty
      alternative never occurs in the source, so it is not tried). */
  function AltLength(s: string, alts: seq<string>, i: nat): (r: Option<nat>)
    ensures r.Some? ==> 0 < r.value && i + r.value <= |s|
    ensures r.Some? ==> exists a :: a in alts && |a| == r.value && OccursAt(s, a, i)
  {
    if |alts| == 0 then None
    else if |alts[0]| > 0 && OccursAt(s, alts[0], i) then Some(|alts[0]|)
    else
      var r := AltLength(s, alts[1..], i);
      assert forall a :: a in alts[1..] ==> a in alts;
      r
  }

  /** The number of consecutive `\s` characters starting at position `i`. */
  function RunLength(s: string, i: nat): (n: nat)
    requires i <= |s|
    ensures i + n <= |s|
    ensures forall k :: i <= k < i + n ==> IsSpace(s[k])
    ensures i + n == |s| || !IsSpace(s[i + n])
    decreases |s| - i
  {
    if i < |s| && IsSpace(s[i]) then 1 + RunLength(s, i + 1) else 0
  }

  /** The length of the match of `pat` that starts exactly at position `i`, if there is one. */
  function MatchLength(s: string, pat: Pattern, i: nat): (r: Option<nat>)
    requires i <= |s|
    ensures r.Some? ==> 0 < r.value && i + r.value <= |s|
  {
    match pat
    case Literals(alts) => AltLength(s, alts, i)
    case SpaceRun => if i < |s| && IsSpace(s[i]) then Some(RunLength(s, i)) else None
  }

  /** `Matcher.find` from position `i`: the leftmost match at or after `i`. */
  function FirstMatchFrom(s: string, pat: Pattern, i: nat): (r: Option<Match>)
    requires i <= |s|
    ensures r.Some? ==> i <= r.value.start < |s| && MatchLength(s, pat, r.value.start) == Some(r.value.len)
    ensures r.Some? ==> forall k :: i <= k < r.value.start ==> MatchLength(s, pat, k).None?
    ensures r.None? ==> forall k :: i <= k <= |s| ==> MatchLength(s, pat, k).None?
    decreases |s| - i
  {
    if i == |s| then None
    else
      match MatchLength(s, pat, i)
      case Some(n) => Some(Match(i, n))
      case None => FirstMatchFrom(s, pat, i + 1)
  }

  function FirstMatch(s: string, pat: Pattern): (r: Option<Match>)
    ensures r.Some? ==> r.value.start < |s| && MatchLength(s, pat, r.value.start) == Some(r.value.len)
    ensures r.Some? ==> forall k :: 0 <= k < r.value.start ==> MatchLength(s, pat, k).None?
    ensures r.None? ==> forall k :: 0 <= k <= |s| ==> MatchLength(s, pat, k).None?
  {
    FirstMatchFrom(s, pat, 0)
  }

  /** A match at `p`, with none before it, is the first match. */
  lemma FirstMatchIs(s: string, pat: Pattern, p: nat, n: nat)
    requires p <= |s| && MatchLength(s, pat, p) == Some(n)
    requires forall k :: 0 <= k < p ==> MatchLength(s, pat, k).None?
    ensures FirstMatch(s, pat) == Some(Match(p, n))
  {
  }

  /** The text between successive leftmost matches, trailing empty pieces included. */
  function Pieces(s: string, pat: Pattern): (r: seq<string>)
    ensures |r| >= 1
    decreases |s|
  {
    match FirstMatch(s, pat)
    case None => [s]
    case Some(m) => [s[..m.start]] + Pieces(s[m.start + m.len..], pat)
  }

  /** The longest prefix of `ps` that does not end with an empty string. */
  function DropTrailingEmpty(ps: seq<string>): (r: seq<string>)
    ensures |r| <= |ps| && r == ps[..|r|]
    ensures forall k :: |r| <= k < |ps| ==> ps[k] == []
    ensures |r| == 0 || r[|r| - 1] != []
  {
    if |ps| == 0 || ps[|ps| - 1] != [] then ps
    else DropTrailingEmpty(ps[..|ps| - 1])
  }

  /** `s.split(regex)`: the whole string when nothing matches, otherwise the pieces
      without their trailing empty ones. */
  function Split(s: string, pat: Pattern): (r: seq<string>)
    ensures FirstMatch(s, pat).None? ==> r == [s]
  {
    if FirstMatch(s, pat).None? then [s] else DropTrailingEmpty(Pieces(s, pat))
  }

  /** When the pattern matches, the pieces between matches are the split followed by empty
      pieces only, and the split does not end with an empty piece. */
  lemma SplitPieces(s: string, pat: Pattern)
    ensures FirstMatch(s, pat).Some? ==> var ps, r := Pieces(s, pat), Split(s, pat);
      ps == r + ps[|r|..] && (forall k :: |r| <= k < |ps| ==> ps[k] == []) && (|r| == 0 || r[|r| - 1] != [])
  {
    if FirstMatch(s, pat).Some? {
      var ps, r := Pieces(s, pat), Split(s, pat);
      assert ps == ps[..|r|] + ps[|r|..];
    }
  }

  /** `s.split(regex, 2)`: cut at the first match only, keeping an empty last piece. */
  function SplitOnce(s: string, pat: Pattern): (r: seq<string>)
    ensures 1 <= |r| <= 2
    ensures FirstMatch(s, pat).None? ==> r == [s]
    ensures FirstMatch(s, pat).Some? ==> var m := FirstMatch(s, pat).value;
      |r| == 2 && |r[0]| == m.start && r[0] + s[m.start..m.start + m.len] + r[1] == s
  {
    match FirstMatch(s, pat)
    case None => [s]
    case Some(m) => [s[..m.start], s[m.start + m.len..]]
  }

  /** `String.join(d, ps)`. */
  function Join(ps: seq<string>, d: string): string {
    if |ps| == 0 then ""
    else if |ps| == 1 then ps[0]
    else ps[0] + d + Join(ps[1..], d)
  }

  /** Splitting on a single literal loses nothing: joining the pieces restores the text. */
  lemma {:induction false} JoinPieces(s: string, d: string)
    requires |d| > 0
    ensures Join(Pieces(s, Literals([d])), d) == s
    decreases |s|
  {
    var pat := Literals([d]);
    match FirstMatch(s, pat)
    case None =>
    case Some(m) =>
      var rest := s[m.start + m.len..];
      assert AltLength(s, [d], m.start) == Some(m.len);
      assert m.len == |d| && OccursAt(s, d, m.start);
      JoinPieces(rest, d);
      JoinCons(s[..m.start], Pieces(rest, pat), d);
      assert s == s[..m.start] + d + rest;
  }

  lemma JoinCons(a: string, ps: seq<string>, d: string)
    requires |ps| >= 1
    ensures Join([a] + ps, d) == a + d + Join(ps, d)
  {
    assert ([a] + ps)[1..] == ps;
  }

  /** No piece of a literal split contains the delimiter. */
  lemma {:induction false} PiecesAvoidDelimiter(s: string, d: string)
    requires |d| > 0
    ensures forall k :: 0 <= k < |Pieces(s, Literals([d]))| ==> !Contains(Pieces(s, Literals([d]))[k], d)
    decreases |s|
  {
    var pat := Literals([d]);
    var ps := Pieces(s, pat);
    match FirstMatch(s, pat)
    case None =>
      UnmatchedPrefix(s, d, |s|);
      assert s[..|s|] == s;
    case Some(m) =>
      var rest := s[m.start + m.len..];
      assert ps == [s[..m.start]] + Pieces(rest, pat);
      UnmatchedPrefix(s, d, m.start);
      PiecesAvoidDelimiter(rest, d);
      forall k | 0 <= k < |ps|
        ensures !Contains(ps[k], d)
      {
        if k > 0 {
          assert ps[k] == Pieces(rest, pat)[k - 1];
        }
      }
  }

  /** A prefix of `s` in which the delimiter is never matched does not contain it. */
  lemma UnmatchedPrefix(s: string, d: string, p: nat)
    requires |d| > 0 && p <= |s|
    requires forall k :: 0 <= k < p ==> MatchLength(s, Literals([d]), k).None?
    ensures !Contains(s[..p], d)
  {
    var head := s[..p];
    forall q | 0 <= q <= |head| - |d|
      ensures !OccursAt(head, d, q)
    {
      assert s[q..q + |d|] == head[q..q + |d|];
      assert MatchLength(s, Literals([d]), q).None?;
    }
  }

  /** Searching for a single literal finds its first occurrence, or reports that it does not
      occur at all. */
  lemma FirstMatchOfLiteral(s: string, d: string)
    requires |d| > 0
    ensures FirstMatch(s, Literals([d])).Some? ==>
      var m := FirstMatch(s, Literals([d])).value; m.len == |d| && FirstOccurrence(s, d, m.start)
    ensures FirstMatch(s, Literals([d])).None? ==> !Contains(s, d)
  {
    match FirstMatch(s, Literals([d]))
    case Some(m) =>
      LiteralMatchLength(s, d, m.start);
      forall j | 0 <= j < m.start
        ensures !OccursAt(s, d, j)
      {
        LiteralMatchLength(s, d, j);
      }
    case None =>
      forall j | 0 <= j <= |s| - |d|
        ensures !OccursAt(s, d, j)
      {
        LiteralMatchLength(s, d, j);
      }
  }

  lemma LiteralMatchLength(s: string, d: string, j: nat)
    requires |d| > 0 && j <= |s|
    ensures MatchLength(s, Literals([d]), j) == if OccursAt(s, d, j) then Some(|d|) else None
  {
    assert [d][1..] == [];
  }

  /** The character `c` sits at offset `k` of every alternative and nowhere before it. */
  predicate KeyedAt(alts: seq<string>, c: char, k: nat) {
    forall a :: a in alts ==> k < |a| && a[k] == c && c !in a[..k]
  }

  /** No alternative is a prefix of another, so at most one of them occurs at any position. */
  predicate PrefixFree(alts: seq<string>) {
    forall a, b :: a in alts && b in alts && a != b ==> !(a <= b)
  }

  /** Where exactly one alternative occurs, alternation picks it. */
  lemma {:induction false} AltLengthOf(s: string, alts: seq<string>, i: nat, d: string)
    requires PrefixFree(alts) && d in alts && |d| > 0 && OccursAt(s, d, i)
    ensures AltLength(s, alts, i) == Some(|d|)
  {
    if alts[0] == d {
    } else if |alts[0]| > 0 && OccursAt(s, alts[0], i) {
      var a := alts[0];
      if |a| <= |d| {
        assert a == s[i..i + |a|] == d[..|a|];
        assert a <= d;
      } else {
        assert d == s[i..i + |d|] == a[..|d|];
        assert d <= a;
      }
    } else {
      assert d in alts[1..];
      assert forall a :: a in alts[1..] ==> a in alts;
      AltLengthOf(s, alts[1..], i, d);
    }
  }

  /** Text free of the key character holds no match of a keyed alternation. */
  lemma NoKeyNoMatch(s: string, alts: seq<string>, c: char, k: nat)
    requires KeyedAt(alts, c, k) && c !in s
    ensures FirstMatch(s, Literals(alts)) == None
  {
    NoKeyBeyond(s, alts, c, k);
  }

  /** The key character sits at offset `k` of every match, so text that has it only before
      position `k` holds no match either. */
  lemma NoKeyBeyond(s: string, alts: seq<string>, c: char, k: nat)
    requires KeyedAt(alts, c, k)
    requires forall j :: k <= j < |s| ==> s[j] != c
    ensures FirstMatch(s, Literals(alts)) == None
  {
  }

  /** In `f + d + rest`, where `f` lacks the key character, the first match is the joint `d`. */
  /** Cutting once at the first keyed delimiter gives back the text on either side of it. */
  lemma SplitOnceAtJoint(f: string, d: string, rest: string, alts: seq<string>, c: char, k: nat)
    requires KeyedAt(alts, c, k) && PrefixFree(alts) && d in alts && c !in f
    ensures SplitOnce(f + d + rest, Literals(alts)) == [f, rest]
  {
    FirstMatchAtJoint(f, d, rest, alts, c, k);
    var s := f + d + rest;
    assert s[..|f|] == f && s[|f| + |d|..] == rest;
  }

  lemma FirstMatchAtJoint(f: string, d: string, rest: string, alts: seq<string>, c: char, k: nat)
    requires KeyedAt(alts, c, k) && PrefixFree(alts) && d in alts && c !in f
    ensures FirstMatch(f + d + rest, Literals(alts)) == Some(Match(|f|, |d|))
  {
    var s := f + d + rest;
    var pat := Literals(alts);
    assert s[|f|..|f| + |d|] == d;
    AltLengthOf(s, alts, |f|, d);
    forall q | 0 <= q < |f|
      ensures MatchLength(s, pat, q).None?
    {
      if q + k < |f| {
        assert s[q + k] == f[q + k];
      } else if q + k < |f| + |d| {
        var j := q + k - |f|;
        assert s[q + k] == d[j];
        assert j < k ==> d[..k][j] == d[j];
      }
    }
    FirstMatchIs(s, pat, |f|, |d|);
  }

  /** Splitting `f + d + rest`, where `f` lacks the key character, yields `f` and then the
      pieces of `rest`. */
  lemma PiecesAtJoint(f: string, d: string, rest: string, alts: seq<string>, c: char, k: nat)
    requires KeyedAt(alts, c, k) && PrefixFree(alts) && d in alts && c !in f
    ensures Pieces(f + d + rest, Literals(alts)) == [f] + Pieces(rest, Literals(alts))
  {
    FirstMatchAtJoint(f, d, rest, alts, c, k);
    var s := f + d + rest;
    assert s[|f| + |d|..] == rest;
    assert s[..|f|] == f;
  }

  /** Every alternative begins with `lead`, a pair of different characters. */
  predicate LedBy(alts: seq<string>, lead: string) {
    |lead| == 2 && lead[0] != lead[1] && forall a :: a in alts ==> lead <= a
  }

  /** A match of a led alternation begins with its lead. */
  lemma MatchShowsLead(s: string, alts: seq<string>, lead: string, q: nat)
    requires LedBy(alts, lead) && q <= |s| && AltLength(s, alts, q).Some?
    ensures q + 2 <= |s| && s[q] == lead[0] && s[q + 1] == lead[1]
  {
    var a :| a in alts && |a| == AltLength(s, alts, q).value && OccursAt(s, a, q);
    assert lead <= a;
    assert s[q..q + |a|][0] == a[0] && s[q..q + |a|][1] == a[1];
  }

  /** Text that does not contain the lead holds no match of a led alternation. */
  lemma NoLeadNoMatch(s: string, alts: seq<string>, lead: string)
    requires LedBy(alts, lead) && !Contains(s, lead)
    ensures FirstMatch(s, Literals(alts)) == None
  {
    if FirstMatch(s, Literals(alts)).Some? {
      var q := FirstMatch(s, Literals(alts)).value.start;
      MatchShowsLead(s, alts, lead, q);
      assert s[q..q + 2] == lead;
      assert OccursAt(s, lead, q);
    }
  }

  /** In `f + d + rest`, where `f` does not contain the lead of a led alternation, the first
      match is the joint `d`: a match starting inside `f` would need the lead inside `f`, or a
      lead that straddles the joint, which `d`'s own lead rules out. */
  lemma FirstMatchAfterLead(f: string, d: string, rest: string, alts: seq<string>, lead: string)
    requires LedBy(alts, lead) && PrefixFree(alts) && d in alts && !Contains(f, lead)
    ensures FirstMatch(f + d + rest, Literals(alts)) == Some(Match(|f|, |d|))
  {
    var s := f + d + rest;
    var pat := Literals(alts);
    assert lead <= d;
    assert s[|f|..|f| + |d|] == d;
    AltLengthOf(s, alts, |f|, d);
    forall q | 0 <= q < |f|
      ensures MatchLength(s, pat, q).None?
    {
      if AltLength(s, alts, q).Some? {
        MatchShowsLead(s, alts, lead, q);
        if q + 1 < |f| {
          assert f[q..q + 2] == s[q..q + 2] == lead;
          assert OccursAt(f, lead, q);
        }
      }
    }
    FirstMatchIs(s, pat, |f|, |d|);
  }

  /** Splitting `f + d + rest`, where `f` does not contain the lead, yields `f` and then the
      pieces of `rest`. */
  lemma PiecesAfterLead(f: string, d: string, rest: string, alts: seq<string>, lead: string)
    requires LedBy(alts, lead) && PrefixFree(alts) && d in alts && !Contains(f, lead)
    ensures Pieces(f + d + rest, Literals(alts)) == [f] + Pieces(rest, Literals(alts))
  {
    FirstMatchAfterLead(f, d, rest, alts, lead);
    var s := f + d + rest;
    assert s[|f| + |d|..] == rest;
    assert s[..|f|] == f;
  }

  /** Trailing empty pieces are dropped only after the last non-empty one. */
  lemma {:induction false} DropTrailingKeeps(ps: seq<string>, qs: seq<string>)
    requires |ps| > 0 && ps[|ps| - 1] != []
    ensures |DropTrailingEmpty(ps + qs)| >= |ps| && DropTrailingEmpty(ps + qs)[..|ps|] == ps
  {
    if |qs| > 0 && qs[|qs| - 1] == [] {
      assert (ps + qs)[..|ps + qs| - 1] == ps + qs[..|qs| - 1];
      DropTrailingKeeps(ps, qs[..|qs| - 1]);
    } else {
      assert (ps + qs)[..|ps|] == ps;
    }
  }

  /** Splitting the join of fields gives the fields back when every field but the last is free
      of the key character and the last holds no match. */
  lemma {:induction false} PiecesOfJoin(fields: seq<string>, d: string, alts: seq<string>, c: char, k: nat)
    requires |fields| >= 1 && KeyedAt(alts, c, k) && PrefixFree(alts) && d in alts
    requires forall i :: 0 <= i < |fields| - 1 ==> c !in fields[i]
    requires FirstMatch(fields[|fields| - 1], Literals(alts)) == None
    ensures Pieces(Join(fields, d), Literals(alts)) == fields
  {
    if |fields| > 1 {
      var tail := fields[1..];
      assert Join(fields, d) == fields[0] + d + Join(tail, d);
      PiecesAtJoint(fields[0], d, Join(tail, d), alts, c, k);
      PiecesOfJoin(tail, d, alts, c, k);
      assert fields == [fields[0]] + tail;
    }
  }

  /** When something matches and the last piece is not empty, `split` returns the pieces. */
  lemma SplitKeepsPieces(s: string, pat: Pattern, ps: seq<string>)
    requires FirstMatch(s, pat).Some? && Pieces(s, pat) == ps && ps[|ps| - 1] != []
    ensures Split(s, pat) == ps
  {
  }

  /** `split` undoes `join` under the same conditions, when the last field is not empty. */
  lemma SplitOfJoin(fields: seq<string>, d: string, alts: seq<string>, c: char, k: nat)
    requires |fields| >= 1 && KeyedAt(alts, c, k) && PrefixFree(alts) && d in alts
    requires forall i :: 0 <= i < |fields| - 1 ==> c !in fields[i]
    requires FirstMatch(fields[|fields| - 1], Literals(alts)) == None
    requires |fields| == 1 || fields[|fields| - 1] != []
    ensures Split(Join(fields, d), Literals(alts)) == fields
  {
    PiecesOfJoin(fields, d, alts, c, k);
  }

  /** In `w + sep + rest`, with `w` free of `\s`, `sep` a run of it and `rest` not starting
      with it, the first `\s+` match is exactly `sep`. */
  lemma FirstSpaceRun(w: string, sep: string, rest: string)
    requires NoSpace(w) && |sep| > 0 && AllSpace(sep)
    requires rest == [] || !IsSpace(rest[0])
    ensures FirstMatch(w + sep + rest, SpaceRun) == Some(Match(|w|, |sep|))
  {
    var s := w + sep + rest;
    assert forall k :: |w| <= k < |w| + |sep| ==> s[k] == sep[k - |w|];
    assert |w| + |sep| < |s| ==> s[|w| + |sep|] == rest[0];
    forall q | 0 <= q < |w|
      ensures MatchLength(s, SpaceRun, q).None?
    {
      assert s[q] == w[q];
    }
    FirstMatchIs(s, SpaceRun, |w|, |sep|);
  }

  /** Splitting `w + sep + rest` on `\s+` yields `w`, then the pieces of `rest`. */
  lemma PiecesOfSpaced(w: string, sep: string, rest: string)
    requires NoSpace(w) && |sep| > 0 && AllSpace(sep)
    requires rest == [] || !IsSpace(rest[0])
    ensures Pieces(w + sep + rest, SpaceRun) == [w] + Pieces(rest, SpaceRun)
  {
    FirstSpaceRun(w, sep, rest);
    var s := w + sep + rest;
    assert s[..|w|] == w;
    assert s[|w| + |sep|..] == rest;
  }

  /** Text without `\s` is a single piece. */
  lemma PiecesOfWord(w: string)
    requires NoSpace(w)
    ensures FirstMatch(w, SpaceRun) == None
    ensures Pieces(w, SpaceRun) == [w]
  {
  }

  /** The first piece of a `\\s+` split is the longest prefix free of `\\s`. */
  lemma FirstPiece(s: string)
    ensures var p := Pieces(s, SpaceRun)[0];
      p <= s && NoSpace(p) && (|p| == |s| || IsSpace(s[|p|]))
  {
    match FirstMatch(s, SpaceRun)
    case None =>
      forall i | 0 <= i < |s|
        ensures !IsSpace(s[i])
      {
        assert MatchLength(s, SpaceRun, i).None?;
      }
    case Some(m) =>
      forall i | 0 <= i < m.start
        ensures !IsSpace(s[..m.start][i])
      {
        assert MatchLength(s, SpaceRun, i).None?;
      }
  }

  predicate AllEmpty(ps: seq<string>) {
    forall k :: 0 <= k < |ps| ==> ps[k] == []
  }

  lemma AllEmptyCons(p: string, ps: seq<string>)
    ensures AllEmpty([p] + ps) <==> p == [] && AllEmpty(ps)
  {
    assert ([p] + ps)[0] == p;
    assert forall k :: 0 <= k < |ps| ==> ([p] + ps)[k + 1] == ps[k];
  }

  /** Pieces of a `\\s+` split are all empty exactly when the text is all `\\s`. */
  lemma {:induction false} PiecesAllEmpty(s: string)
    ensures AllEmpty(Pieces(s, SpaceRun)) <==> AllSpace(s)
    decreases |s|
  {
    match FirstMatch(s, SpaceRun)
    case None =>
      assert Pieces(s, SpaceRun) == [s];
      if s != [] {
        assert MatchLength(s, SpaceRun, 0).None?;
        assert !AllEmpty([s]) by {
          assert [s][0] != [];
        }
      }
    case Some(m) =>
      var rest := s[m.start + m.len..];
      PiecesAllEmpty(rest);
      AllEmptyCons(s[..m.start], Pieces(rest, SpaceRun));
      if m.start == 0 {
        LeadingRun(s, m.len);
      } else {
        assert MatchLength(s, SpaceRun, 0).None?;
      }
  }

  /** Text that opens with a run of `\\s` is all `\\s` exactly when the rest is. */
  lemma LeadingRun(s: string, n: nat)
    requires MatchLength(s, SpaceRun, 0) == Some(n)
    ensures AllSpace(s) <==> AllSpace(s[n..])
  {
    assert s == s[..n] + s[n..];
    assert AllSpace(s[..n]);
    AllSpaceConcat(s[..n], s[n..]);
  }

  lemma AllSpaceConcat(a: string, b: string)
    ensures AllSpace(a + b) <==> AllSpace(a) && AllSpace(b)
  {
    assert forall k :: 0 <= k < |a| ==> (a + b)[k] == a[k];
    assert forall k :: 0 <= k < |b| ==> (a + b)[|a| + k] == b[k];
  }

  /** A `\\s+` split comes out empty exactly when the text is non-empty and all `\\s`. */
  lemma SplitEmpty(s: string)
    ensures Split(s, SpaceRun) == [] <==> |s| > 0 && AllSpace(s)
  {
    PiecesAllEmpty(s);
    var ps := Pieces(s, SpaceRun);
    if |s| > 0 && AllSpace(s) {
      assert MatchLength(s, SpaceRun, 0).Some?;
      DropAllEmpty(ps);
    }
  }

  lemma {:induction false} DropAllEmpty(ps: seq<string>)
    requires AllEmpty(ps)
    ensures DropTrailingEmpty(ps) == []
  {
    if |ps| > 0 {
      DropAllEmpty(ps[..|ps| - 1]);
    }
  }

  /** When the split is not empty its first element is the first piece. */
  lemma SplitHead(s: string)
    requires Split(s, SpaceRun) != []
    ensures Split(s, SpaceRun)[0] == Pieces(s, SpaceRun)[0]
  {
  }

  /** A word followed by the end of the text or by `\\s` is the first piece. */
  lemma PiecesHead(x: string, rest: string)
    requires NoSpace(x) && (rest == [] || IsSpace(rest[0]))
    ensures Pieces(x + rest, SpaceRun)[0] == x
  {
    FirstPiece(x + rest);
    var p := Pieces(x + rest, SpaceRun)[0];
    var s := x + rest;
    assert s[..|x|] == x;
  }

  /** In `w + sep + x + rest` the second token of a `\\s+` split is `x`. */
  lemma SecondToken(w: string, sep: string, x: string, rest: string)
    requires NoSpace(w) && |sep| > 0 && AllSpace(sep)
    requires |x| > 0 && NoSpace(x) && (rest == [] || IsSpace(rest[0]))
    ensures var parts := Split(w + sep + x + rest, SpaceRun); |parts| >= 2 && parts[0] == w && parts[1] == x
  {
    assert w + sep + x + rest == w + sep + (x + rest);
    PiecesOfSpaced(w, sep, x + rest);
    PiecesHead(x, rest);
    FirstSpaceRun(w, sep, x + rest);
    var ps := Pieces(w + sep + x + rest, SpaceRun);
    assert ps[1] == x;

  }
}

=== FILE: parser.dfy ===
/** The command parser: the command word, the argument text after it, the task number of
    `mark`/`unmark`/`delete`, and the pieces of `deadline` and `event` arguments. Every
    failure is reported by its own message. */
module Parser {
  import opened Wrappers
  import opened JavaText
  import opened Decimal

  const By: string := " /by "
  const From: string := " /from "
  const To: string := " /to "
  /** The alternation ` /from | /to `, tried in that order. */
  const EventDelimiters: seq<string> := [From, To]
  /** What every delimiter of `parseDeadline` and `parseEvent` begins with. */
  const Lead: string := " /"

  /** What indexing the empty array that `split` returns for all-whitespace input raises. */
  const IndexZeroMissing := "Index 0 out of bounds for length 0"
  const MissingNumber := "Please provide a task number."
  const InvalidNumber := "Please provide a valid task number."
  const DeadlineNeedsBy := "Deadlines need a date! Use: deadline <task> /by <date>"
  const DeadlineNeedsBoth := "Please provide both description and deadline date."
  const EventNeedsFromTo := "Events need start and end times! Use: event <task> /from <time> /to <time>"
  const EventNeedsAll := "Please provide event description, start time, and end time."

  /** The arguments of `deadline`: the task's description and its due text. */
  datatype DeadlineArgs = DeadlineArgs(description: string, due: string)

  /** The arguments of `event`: the task's description, its start and its end. */
  datatype EventArgs = EventArgs(description: string, start: string, end: string)

  /** `w` is the longest prefix of `s` without whitespace: it runs to the end of `s` or up to
      a whitespace character. */
  predicate IsLeadingWord(s: string, w: string) {
    w <= s && NoSpace(w) && (|w| == |s| || IsSpace(s[|w|]))
  }

  /** There is only one longest whitespace-free prefix. */
  lemma LeadingWordUnique(s: string, v: string, w: string)
    requires IsLeadingWord(s, v) && IsLeadingWord(s, w)
    ensures v == w
  {
  }

  /** `getCommand` as written: element 0 of `input.split("\\s+")`. The split of non-empty,
      all-whitespace input is empty, and indexing it raises. */
  function GetCommand(input: string): (r: Result<string>)
    ensures r.Failure? <==> |input| > 0 && AllSpace(input)
    ensures r.Failure? ==> r.msg == IndexZeroMissing
    ensures r.Success? ==> IsLeadingWord(input, r.value)
  {
    var parts := Split(input, SpaceRun);
    SplitEmpty(input);
    if |parts| == 0 then Failure(IndexZeroMissing)
    else
      SplitHead(input);
      FirstPiece(input);
      Success(parts[0])
  }

  /** The command word as intended: the longest whitespace-free prefix, which is empty when the
      input is empty or starts with whitespace. */
  function CommandWord(input: string): (r: string)
    ensures IsLeadingWord(input, r)
  {
    var parts := Split(input, SpaceRun);
    if |parts| == 0 then
      SplitEmpty(input);
      []
    else
      SplitHead(input);
      FirstPiece(input);
      parts[0]
  }

  /** The two agree wherever `getCommand` does not raise; where it raises the intended word is
      empty. */
  lemma GetCommandCorrected(input: string)
    ensures GetCommand(input).Success? ==> GetCommand(input).value == CommandWord(input)
    ensures GetCommand(input).Failure? ==> CommandWord(input) == []
  {
    if GetCommand(input).Success? {
      LeadingWordUnique(input, GetCommand(input).value, CommandWord(input));
    }
  }

  /** A single space is enough to make `getCommand` raise. */
  lemma BlankCommandRaises(input: string)
    requires input == " "
    ensures GetCommand(input) == Failure(IndexZeroMissing)
    ensures CommandWord(input) == []
  {
    assert IsSpace(input[0]);
  }

  /** The command word is the text before the first whitespace run, however long that run. */
  lemma CommandBeforeSpaces(w: string, sep: string, rest: string)
    requires |w| > 0 && NoSpace(w) && |sep| > 0 && AllSpace(sep)
    ensures GetCommand(w + sep + rest) == Success(w)
    ensures CommandWord(w + sep + rest) == w
  {
    var s := w + sep + rest;
    assert s[|w|] == sep[0];
    assert s[..|w|] == w;
    assert !IsSpace(s[0]) by {
      assert s[0] == w[0];
    }
    LeadingWordUnique(s, w, CommandWord(s));
    GetCommandCorrected(s);
  }

  /** Input without whitespace is its own command word. */
  lemma CommandAlone(w: string)
    requires NoSpace(w)
    ensures GetCommand(w) == Success(w)
  {
    if |w| > 0 {
      assert !IsSpace(w[0]);
    }
    LeadingWordUnique(w, w, GetCommand(w).value);
  }

  /** `getDescription`: empty when the input is no longer than the command word, otherwise the
      trimmed text after the first `|command|` characters (the prefix itself is not checked). */
  function GetDescription(input: string, command: string): (r: string)
    ensures r == [] <==> |input| <= |command| || IsBlank(input[|command|..])
    ensures IsTrimmed(r)
  {
    if |input| <= |command| then "" else Trim(input[|command|..])
  }

  /** The command, blanks, the argument text and blanks again: the argument text comes back. */
  lemma DescriptionAfter(command: string, gap: string, d: string, tail: string)
    requires IsBlank(gap) && IsBlank(tail) && IsTrimmed(d)
    ensures GetDescription(command + gap + d + tail, command) == d
  {
    var input := command + gap + d + tail;
    if |input| > |command| {
      assert input[|command|..] == gap + d + tail;
      TrimFramed(gap, d, tail);
    }
  }

  /** Only the length of the command word matters, not its text. */
  lemma DescriptionIgnoresCommandText(input: string, c: string, c': string)
    requires |c| == |c'|
    ensures GetDescription(input, c) == GetDescription(input, c')
  {
  }

  /** `getTaskNumber`: the second whitespace-separated token, trimmed, read as an `int`; no
      range check. */
  function GetTaskNumber(input: string): (r: Result<int>)
    ensures r.Success? ==> IsInt32(r.value)
    ensures r.Failure? ==> r.msg == MissingNumber || r.msg == InvalidNumber
    ensures r.Success? || r.msg == InvalidNumber ==> |Split(input, SpaceRun)| >= 2
  {
    var parts := Split(input, SpaceRun);
    if |parts| < 2 || Trim(parts[1]) == [] then Failure(MissingNumber)
    else
      match ParseInt(Trim(parts[1]))
      case None => Failure(InvalidNumber)
      case Some(n) => Success(n)
  }

  /** The second token decides: blank is a missing number, text that `parseInt` rejects an
      invalid one, and anything else is read as it stands. */
  lemma TaskNumberOf(w: string, sep: string, x: string, rest: string)
    requires NoSpace(w) && |sep| > 0 && AllSpace(sep)
    requires |x| > 0 && NoSpace(x) && (rest == [] || IsSpace(rest[0]))
    ensures GetTaskNumber(w + sep + x + rest) ==
      if IsBlank(x) then Failure(MissingNumber)
      else if ParseInt(Trim(x)).None? then Failure(InvalidNumber)
      else Success(ParseInt(Trim(x)).value)
  {
    SecondToken(w, sep, x, rest);
  }

  /** Every `int`, zero and negatives included, reads back from its own text. */
  lemma TaskNumberRoundTrip(w: string, sep: string, n: int, rest: string)
    requires IsInt32(n) && NoSpace(w) && |sep| > 0 && AllSpace(sep)
    requires rest == [] || IsSpace(rest[0])
    ensures GetTaskNumber(w + sep + IntToString(n) + rest) == Success(n)
  {
    IntToken(n, IntToString(n));
    TaskNumberOf(w, sep, IntToString(n), rest);
  }

  /** The text of an `int` is a single visible token that reads back to the number. */
  lemma IntToken(n: int, x: string)
    requires IsInt32(n) && x == IntToString(n)
    ensures |x| > 0 && NoSpace(x) && !IsBlank(x) && Trim(x) == x && ParseInt(x) == Some(n)
  {
    IntToStringChars(n);
    assert IsTrimmed(x);
    TrimOfTrimmed(x);
    assert !IsTrimmable(x[0]);
    ParseIntToString(n);
  }

  /** A command word followed by nothing but whitespace has no task number. */
  lemma TaskNumberMissing(w: string, sep: string)
    requires NoSpace(w) && AllSpace(sep)
    ensures GetTaskNumber(w + sep) == Failure(MissingNumber)
  {
    if sep == [] {
      assert w + sep == w;
      PiecesOfWord(w);
    } else {
      assert w + sep + [] == w + sep;
      PiecesOfSpaced(w, sep, []);
      PiecesOfWord([]);
      FirstSpaceRun(w, sep, []);
      assert Pieces(w + sep, SpaceRun) == [w, []];
    }
  }

  /** `parseDeadline`: without `/by` anywhere the first message; otherwise the text is cut at
      the first ` /by `, and both sides must be non-blank. */
  function ParseDeadline(description: string): (r: Result<DeadlineArgs>)
    ensures r.Failure? ==> r.msg == DeadlineNeedsBy || r.msg == DeadlineNeedsBoth
    ensures (r.Failure? && r.msg == DeadlineNeedsBy) <==> !Contains(description, "/by")
    ensures r.Success? ==> (r.value.description != [] && r.value.due != []
      && IsTrimmed(r.value.description) && IsTrimmed(r.value.due))
    ensures r.Success? ==> exists i: nat :: (FirstOccurrence(description, By, i)
      && r.value == DeadlineArgs(Trim(description[..i]), Trim(description[i + |By|..])))
    ensures (exists i: nat :: (FirstOccurrence(description, By, i)
      && !IsBlank(description[..i]) && !IsBlank(description[i + |By|..]))) ==> r.Success?
  {
    if !Contains(description, "/by") then
      assert forall i: nat :: FirstOccurrence(description, By, i) ==> Contains(description, "/by") by {
        forall i: nat
          ensures FirstOccurrence(description, By, i) ==> Contains(description, "/by")
        {
          ByKeyword(description, i);
        }
      }
      Failure(DeadlineNeedsBy)
    else
      var parts := SplitOnce(description, Literals([By]));
      assert forall i: nat :: FirstOccurrence(description, By, i) ==>
        parts == [description[..i], description[i + |By|..]] by {
        forall i: nat | FirstOccurrence(description, By, i)
          ensures parts == [description[..i], description[i + |By|..]]
        {
          FirstByCut(description, i);
        }
      }
      if |parts| < 2 || Trim(parts[0]) == [] || Trim(parts[1]) == [] then Failure(DeadlineNeedsBoth)
      else
        FirstMatchOfLiteral(description, By);
        Success(DeadlineArgs(Trim(parts[0]), Trim(parts[1])))
  }

  /** `split(" /by ", 2)` cuts at the first ` /by `. */
  lemma FirstByCut(s: string, i: nat)
    requires FirstOccurrence(s, By, i)
    ensures SplitOnce(s, Literals([By])) == [s[..i], s[i + |By|..]]
  {
    FirstMatchOfLiteral(s, By);
  }

  /** Wherever ` /by ` occurs, so does the keyword. */
  lemma ByKeyword(s: string, i: nat)
    ensures OccursAt(s, By, i) ==> Contains(s, "/by")
  {
    if OccursAt(s, By, i) {
      assert s[i + 1..i + 4] == s[i..i + |By|][1..4];
      assert OccursAt(s, "/by", i + 1);
    }
  }

  lemma ByLed()
    ensures LedBy([By], Lead) && PrefixFree([By])
  {
  }

  lemma LeadHasSlash(s: string, i: nat)
    ensures OccursAt(s, Lead, i) ==> '/' in s
  {
    if OccursAt(s, Lead, i) {
      assert s[i + 1] == s[i..i + 2][1];
    }
  }

  /** Text without a slash does not contain the lead of the delimiters. */
  lemma SlashFree(s: string)
    requires '/' !in s
    ensures !Contains(s, Lead)
  {
    forall i | 0 <= i <= |s| - |Lead|
      ensures !OccursAt(s, Lead, i)
    {
      LeadHasSlash(s, i);
    }
  }

  /** Text without ` /`, then ` /by `, then anything: the cut is at that first ` /by `, so any
      later `/by` stays in the due text. */
  lemma DeadlineOfParts(d: string, x: string)
    requires !Contains(d, Lead) && !IsBlank(d) && !IsBlank(x)
    ensures ParseDeadline(d + By + x) == Success(DeadlineArgs(Trim(d), Trim(x)))
  {
    KeywordAt(d, By, x, 1, "/by");
    CutAtFirstBy(d, x);
  }

  lemma CutAtFirstBy(d: string, x: string)
    requires !Contains(d, Lead)
    ensures SplitOnce(d + By + x, Literals([By])) == [d, x]
  {
    var s := d + By + x;
    ByLed();
    FirstMatchAfterLead(d, By, x, [By], Lead);
    assert s[..|d|] == d;
    assert s[|d| + |By|..] == x;
  }

  /** A keyword inside a delimiter occurs in any text the delimiter is part of. */
  lemma KeywordAt(a: string, d: string, b: string, j: nat, w: string)
    requires j + |w| <= |d| && d[j..j + |w|] == w
    ensures OccursAt(a + d + b, w, |a| + j) && Contains(a + d + b, w)
  {
    var s := a + d + b;
    assert s[|a| + j..|a| + j + |w|] == d[j..j + |w|];
    assert OccursAt(s, w, |a| + j);
    assert |a| + j <= |s| - |w|;
  }

  /** `parseEvent`: without both `/from` and `/to` the first message; otherwise the first
      three pieces of the split on ` /from ` or ` /to `, each of which must be non-blank. */
  function ParseEvent(description: string): (r: Result<EventArgs>)
    ensures r.Failure? ==> r.msg == EventNeedsFromTo || r.msg == EventNeedsAll
    ensures (r.Failure? && r.msg == EventNeedsFromTo)
      <==> (!Contains(description, "/from") || !Contains(description, "/to"))
    ensures r.Success? ==> (r.value.description != [] && r.value.start != [] && r.value.end != []
      && IsTrimmed(r.value.description) && IsTrimmed(r.value.start) && IsTrimmed(r.value.end))
    ensures r.Success? ==> var p := Split(description, Literals(EventDelimiters));
      |p| >= 3 && r.value == EventArgs(Trim(p[0]), Trim(p[1]), Trim(p[2]))
    ensures (Contains(description, "/from") && Contains(description, "/to")
      && var p := Split(description, Literals(EventDelimiters));
      |p| >= 3 && !IsBlank(p[0]) && !IsBlank(p[1]) && !IsBlank(p[2])) ==> r.Success?
  {
    if !Contains(description, "/from") || !Contains(description, "/to") then Failure(EventNeedsFromTo)
    else
      var parts := Split(description, Literals(EventDelimiters));
      if |parts| < 3 || Trim(parts[0]) == [] || Trim(parts[1]) == [] || Trim(parts[2]) == [] then
        Failure(EventNeedsAll)
      else
        Success(EventArgs(Trim(parts[0]), Trim(parts[1]), Trim(parts[2])))
  }

  lemma EventDelimitersLed()
    ensures LedBy(EventDelimiters, Lead) && PrefixFree(EventDelimiters)
  {
    assert From[2] != To[2];
  }

  /** Description, start and end without ` /` in them, joined by the two delimiters in EITHER
      order: the pieces come back in text order, so the order of `/from` and `/to` is not
      checked. */
  lemma EventOfParts(d: string, d1: string, s: string, d2: string, e: string)
    requires d1 in EventDelimiters && d2 in EventDelimiters && d1 != d2
    requires !Contains(d, Lead) && !Contains(s, Lead) && !Contains(e, Lead)
    requires !IsBlank(d) && !IsBlank(s) && !IsBlank(e)
    ensures ParseEvent(d + d1 + (s + d2 + e)) == Success(EventArgs(Trim(d), Trim(s), Trim(e)))
  {
    EventHasBoth(d, d1, s, d2, e);
    EventPieces(d, d1, s, d2, e);
  }

  lemma EventPieces(d: string, d1: string, s: string, d2: string, e: string)
    requires d1 in EventDelimiters && d2 in EventDelimiters
    requires !Contains(d, Lead) && !Contains(s, Lead) && !Contains(e, Lead) && e != []
    ensures Split(d + d1 + (s + d2 + e), Literals(EventDelimiters)) == [d, s, e]
  {
    var pat := Literals(EventDelimiters);
    EventPiecesLast(e);
    EventPiecesJoined(s, d2, e);
    EventPiecesJoined(d, d1, s + d2 + e);
    assert [d] + ([s] + [e]) == [d, s, e];
    SplitKeepsPieces(d + d1 + (s + d2 + e), pat, [d, s, e]);
  }

  /** Text without ` /` is a single piece. */
  lemma EventPiecesLast(e: string)
    requires !Contains(e, Lead)
    ensures Pieces(e, Literals(EventDelimiters)) == [e]
  {
    EventDelimitersLed();
    NoLeadNoMatch(e, EventDelimiters, Lead);
  }

  /** One delimiter after text without ` /`: the first match is there. */
  lemma EventPiecesJoined(f: string, d: string, rest: string)
    requires d in EventDelimiters && !Contains(f, Lead)
    ensures FirstMatch(f + d + rest, Literals(EventDelimiters)).Some?
    ensures Pieces(f + d + rest, Literals(EventDelimiters)) == [f] + Pieces(rest, Literals(EventDelimiters))
  {
    EventDelimitersLed();
    PiecesAfterLead(f, d, rest, EventDelimiters, Lead);
    FirstMatchAfterLead(f, d, rest, EventDelimiters, Lead);
  }

  /** A further delimiter after the end text starts pieces that are ignored: only the first
      three pieces count, as in `a /from b /to c /to d`. */
  lemma EventExtraPieces(d: string, d1: string, s: string, d2: string, e: string, d3: string, rest: string)
    requires d1 in EventDelimiters && d2 in EventDelimiters && d3 in EventDelimiters && d1 != d2
    requires !Contains(d, Lead) && !Contains(s, Lead) && !Contains(e, Lead)
    requires !IsBlank(d) && !IsBlank(s) && !IsBlank(e)
    ensures ParseEvent(d + d1 + (s + d2 + (e + d3 + rest))) == Success(EventArgs(Trim(d), Trim(s), Trim(e)))
  {
    EventHasBoth(d, d1, s, d2, e + d3 + rest);
    EventExtraSplit(d, d1, s, d2, e, d3, rest);
  }

  lemma EventExtraSplit(d: string, d1: string, s: string, d2: string, e: string, d3: string, rest: string)
    requires d1 in EventDelimiters && d2 in EventDelimiters && d3 in EventDelimiters
    requires !Contains(d, Lead) && !Contains(s, Lead) && !Contains(e, Lead) && e != []
    ensures var p := Split(d + d1 + (s + d2 + (e + d3 + rest)), Literals(EventDelimiters));
      |p| >= 3 && p[0] == d && p[1] == s && p[2] == e
  {
    var ps := Pieces(rest, Literals(EventDelimiters));
    EventTailPieces(s, d2, e, d3, rest);
    JoinedThree(d, d1, s + d2 + (e + d3 + rest), s, e, ps);
    DropTrailingKeeps([d, s, e], ps);
  }

  /** One more delimiter in front of two known pieces. */
  lemma JoinedThree(d: string, d1: string, r1: string, s: string, e: string, ps: seq<string>)
    requires d1 in EventDelimiters && !Contains(d, Lead)
    requires Pieces(r1, Literals(EventDelimiters)) == [s, e] + ps
    ensures FirstMatch(d + d1 + r1, Literals(EventDelimiters)).Some?
    ensures Pieces(d + d1 + r1, Literals(EventDelimiters)) == [d, s, e] + ps
  {
    EventPiecesJoined(d, d1, r1);
    ConsThree(d, s, e, ps);
  }

  lemma ConsThree(d: string, s: string, e: string, ps: seq<string>)
    ensures [d] + ([s, e] + ps) == [d, s, e] + ps
  {
  }

  lemma EventTailPieces(s: string, d2: string, e: string, d3: string, rest: string)
    requires d2 in EventDelimiters && d3 in EventDelimiters
    requires !Contains(s, Lead) && !Contains(e, Lead)
    ensures Pieces(s + d2 + (e + d3 + rest), Literals(EventDelimiters))
      == [s, e] + Pieces(rest, Literals(EventDelimiters))
  {
    var pat := Literals(EventDelimiters);
    EventPiecesJoined(e, d3, rest);
    EventPiecesJoined(s, d2, e + d3 + rest);
    assert [s] + ([e] + Pieces(rest, pat)) == [s, e] + Pieces(rest, pat);
  }

  /** Both keywords occur in text joined by the two delimiters. */
  lemma EventHasBoth(d: string, d1: string, s: string, d2: string, e: string)
    requires d1 in EventDelimiters && d2 in EventDelimiters && d1 != d2
    ensures Contains(d + d1 + (s + d2 + e), "/from") && Contains(d + d1 + (s + d2 + e), "/to")
  {
    assert d + d1 + (s + d2 + e) == (d + d1 + s) + d2 + e;
    if d1 == From {
      KeywordAt(d, d1, s + d2 + e, 1, "/from");
      KeywordAt(d + d1 + s, d2, e, 1, "/to");
    } else {
      KeywordAt(d, d1, s + d2 + e, 1, "/to");
      KeywordAt(d + d1 + s, d2, e, 1, "/from");
    }
  }

  /** A second `/by` stays in the due text: `task /by Sunday /by Monday`. */
  lemma MultipleByExample(d: string, x: string)
    requires d == "task" && x == "Sunday /by Monday"
    ensures Contains(x, By)
    ensures ParseDeadline(d + By + x) == Success(DeadlineArgs(d, x))
  {
    assert OccursAt(x, By, 6) by {
      assert x[6..11] == By;
    }
    Visible(d);
    Visible(x);
    SlashFree(d);
    DeadlineOfParts(d, x);
  }

  /** `/to` before `/from` still parses (`meeting /to 4pm /from Mon 2pm`): the start is
      whatever follows the first delimiter. */
  lemma WrongOrderExample(d: string, s: string, e: string)
    requires d == "meeting" && s == "4pm" && e == "Mon 2pm"
    ensures ParseEvent(d + To + (s + From + e)) == Success(EventArgs(d, s, e))
  {
    Visible(d);
    Visible(s);
    Visible(e);
    SlashFree(d);
    SlashFree(s);
    SlashFree(e);
    EventOfParts(d, To, s, From, e);
  }

  /** A slash inside a piece is no delimiter: `meeting /from 12/15 2pm /to 4pm` has the start
      `12/15 2pm`. */
  lemma SlashInStartExample(d: string, s: string, e: string)
    requires d == "meeting" && s == "12/15 2pm" && e == "4pm"
    ensures ParseEvent(d + From + (s + To + e)) == Success(EventArgs(d, s, e))
  {
    Visible(d);
    Visible(s);
    Visible(e);
    SlashFree(d);
    SlashFree(e);
    NoLeadIn(s, 2);
    EventOfParts(d, From, s, To, e);
  }

  /** Pieces after the third are dropped: `a /from b /to c /to d` is the event `a` from `b`
      to `c`. */
  lemma ExtraPieceExample(d: string, s: string, e: string, rest: string)
    requires d == "a" && s == "b" && e == "c" && rest == "d"
    ensures ParseEvent(d + From + (s + To + (e + To + rest))) == Success(EventArgs(d, s, e))
  {
    Visible(d);
    Visible(s);
    Visible(e);
    SlashFree(d);
    SlashFree(s);
    SlashFree(e);
    EventExtraPieces(d, From, s, To, e, To, rest);
  }

  /** A slash in the description is no delimiter: `read 1/2 of book /by Sunday`. */
  lemma SlashInDescriptionExample(d: string, x: string)
    requires d == "read 1/2 of book" && x == "Sunday"
    ensures ParseDeadline(d + By + x) == Success(DeadlineArgs(d, x))
  {
    Visible(d);
    Visible(x);
    NoLeadIn(d, 6);
    DeadlineOfParts(d, x);
  }

  /** Text whose only slash, at `k`, follows a character other than a space holds no ` /`. */
  lemma NoLeadIn(s: string, k: nat)
    requires 0 < k < |s| && s[k] == '/' && s[k - 1] != ' '
    requires forall j :: 0 <= j < |s| && j != k ==> s[j] != '/'
    ensures !Contains(s, Lead)
  {
    forall i | 0 <= i <= |s| - |Lead|
      ensures !OccursAt(s, Lead, i)
    {
      LeadAt(s, i);
    }
  }

  lemma LeadAt(s: string, i: nat)
    ensures OccursAt(s, Lead, i) ==> s[i] == ' ' && s[i + 1] == '/'
  {
    if OccursAt(s, Lead, i) {
      assert s[i..i + 2][0] == s[i] && s[i..i + 2][1] == s[i + 1];
    }
  }

  /** Text that starts and ends with a visible character is non-blank and its own trim. */
  lemma Visible(s: string)
    requires |s| > 0 && !IsTrimmable(s[0]) && !IsTrimmable(s[|s| - 1])
    ensures !IsBlank(s) && Trim(s) == s
  {
    TrimOfTrimmed(s);
  }

  /** Extra spaces after the command word are ignored by both the command and the argument. */
  lemma ExtraSpacesExample(input: string)
    requires input == "todo    buy milk"
    ensures GetCommand(input) == Success("todo")
    ensures GetDescription(input, "todo") == "buy milk"
  {
    var w, sep, d := "todo", "    ", "buy milk";
    assert input == w + sep + d;
    assert input == w + sep + d + [];
    assert NoSpace(w) && AllSpace(sep);
    CommandBeforeSpaces(w, sep, d);
    assert IsTrimmed(d);
    DescriptionAfter(w, sep, d, []);
  }
}

=== FILE: storage.dfy ===
/** The storage record codec: one line per task, fields separated by ` | `. Reading a line
    (`parseTask`) either yields a task or nothing; loading keeps the tasks of the lines that
    read and skips the rest; saving writes every task's record in list order. The file itself
    is its sequence of lines. */
module Storage {
  import opened Wrappers
  import opened JavaText
  import opened Tasks

  /** The separator regular expression ` \| `: one literal alternative. */
  const Separator: string := " | "
  const Delimiter: Pattern := Literals([Separator])

  const MinParts := 3
  const DeadlineParts := 4
  const EventParts := 5
  const EventPartsWithRecurrence := 6

  function TrimAll(parts: seq<string>): (r: seq<string>)
    ensures |r| == |parts|
    ensures forall i :: 0 <= i < |parts| ==> r[i] == Trim(parts[i])
  {
    seq(|parts|, i requires 0 <= i < |parts| => Trim(parts[i]))
  }

  /** The `switch` on the type field: a task built from trimmed fields, before the status is
      applied, or nothing when the type is unknown or the fields are too few for it. A sixth
      event field other than `none` is kept as the event's recurrence tag. */
  function Build(parts: seq<string>): (r: Option<Task>)
    requires |parts| >= MinParts
    ensures r.Some? ==> Kind(r.value) == parts[0] && r.value.description == parts[2] && !r.value.isDone
    ensures r.Some? ==> Interpreted(r.value)
    ensures r.Some? <==> (parts[0] == "T" || (parts[0] == "D" && |parts| >= DeadlineParts)
      || (parts[0] == "E" && |parts| >= EventParts))
  {
    if parts[0] == "T" then Some(NewTodo(parts[2]))
    else if parts[0] == "D" then
      if |parts| >= DeadlineParts then Some(NewDeadline(parts[2], parts[3])) else None
    else if parts[0] == "E" then
      if |parts| >= EventPartsWithRecurrence then
        var recurrence := parts[5];
        if recurrence == "none" then Some(NewEvent(parts[2], parts[3], parts[4]))
        else Some(NewEvent(parts[2], parts[3], parts[4]).(recurrence := Some(recurrence)))
      else if |parts| >= EventParts then Some(NewEvent(parts[2], parts[3], parts[4]))
      else None
    else None
  }

  /** `parseTask` after the split: fewer than three fields, an unknown type or too few fields
      for the type yield nothing; otherwise the task, done exactly when the trimmed status field
      is `1`. */
  function ParseFields(raw: seq<string>): (r: Option<Task>)
    ensures r.Some? ==> Interpreted(r.value) && WellFormed(r.value)
    ensures r.Some? ==> var parts := TrimAll(raw);
      |parts| >= MinParts && Kind(r.value) == parts[0] && r.value.description == parts[2]
      && (r.value.isDone <==> parts[1] == "1")
    ensures |raw| < MinParts ==> r.None?
  {
    if |raw| < MinParts then None
    else
      var parts := TrimAll(raw);
      match Build(parts)
      case None => None
      case Some(t) => Some(if parts[1] == "1" then MarkDone(t) else t)
  }

  /** `parseTask`: split on the separator, then read the fields. A line without the separator
      reads as nothing; a line that reads gives an interpreted, well-formed task. */
  function ParseTask(line: string): (r: Option<Task>)
    ensures !Contains(line, Separator) ==> r.None?
    ensures r.Some? ==> Interpreted(r.value) && WellFormed(r.value)
  {
    FirstMatchOfLiteral(line, Separator);
    ParseFields(Split(line, Delimiter))
  }

  /** A line that reads gives the task whose type letter, status and description are the
      first three trimmed fields of the line. */
  lemma ParseTaskFields(line: string)
    ensures ParseTask(line).Some? ==> var t := ParseTask(line).value;
      var parts := TrimAll(Split(line, Delimiter));
      |parts| >= MinParts && Kind(t) == parts[0] && t.description == parts[2]
      && (t.isDone <==> parts[1] == "1")
  {
  }

  /** The loop of `load` for a given line reader: every line that reads contributes its task,
      in file order, and every other line is skipped. */
  function LoadWith(read: string -> Option<Task>, lines: seq<string>): (r: seq<Task>)
    ensures |r| <= |lines|
    ensures forall t :: t in r ==> exists line :: line in lines && read(line) == Some(t)
  {
    if |lines| == 0 then []
    else
      var last := lines[|lines| - 1];
      var init := lines[..|lines| - 1];
      var r := LoadWith(read, init) + (match read(last) case Some(t) => [t] case None => []);
      assert forall line :: line in init ==> line in lines;
      r
  }

  /** `load`: the loop with `parseTask` as the reader. */
  function Load(lines: seq<string>): (r: seq<Task>)
    ensures forall t :: t in r ==> Interpreted(t) && WellFormed(t)
  {
    LoadWith(ParseTask, lines)
  }

  /** Loading two pieces of a file separately gives the same tasks as loading the whole. */
  lemma {:induction false} LoadAppend(read: string -> Option<Task>, a: seq<string>, b: seq<string>)
    ensures LoadWith(read, a + b) == LoadWith(read, a) + LoadWith(read, b)
  {
    if |b| > 0 {
      var init := b[..|b| - 1];
      assert (a + b)[..|a + b| - 1] == a + init;
      LoadAppend(read, a, init);
    } else {
      assert a + b == a;
    }
  }

  /** A line that does not read is skipped and loading carries on past it. */
  lemma SkipsCorruptLine(read: string -> Option<Task>, a: seq<string>, line: string, b: seq<string>)
    requires read(line).None?
    ensures LoadWith(read, a + [line] + b) == LoadWith(read, a + b)
  {
    LoadAppend(read, a + [line], b);
    LoadAppend(read, a, [line]);
    LoadAppend(read, a, b);
    assert LoadWith(read, [line]) == [];
  }

  /** A line that reads contributes its task at its place in the file. */
  lemma KeepsGoodLine(read: string -> Option<Task>, a: seq<string>, line: string, b: seq<string>, t: Task)
    requires read(line) == Some(t)
    ensures LoadWith(read, a + [line] + b) == LoadWith(read, a) + [t] + LoadWith(read, b)
  {
    LoadAppend(read, a + [line], b);
    LoadAppend(read, a, [line]);
    assert LoadWith(read, [line]) == [t];
  }

  /** The scanner loop of `load`, one line at a time. */
  method LoadLines(read: string -> Option<Task>, lines: seq<string>) returns (tasks: seq<Task>)
    ensures tasks == LoadWith(read, lines)
  {
    tasks := [];
    var i := 0;
    while i < |lines|
      invariant 0 <= i <= |lines|
      invariant tasks == LoadWith(read, lines[..i])
    {
      assert lines[..i + 1][..i] == lines[..i];
      var task := read(lines[i]);
      if task.Some? {
        tasks := tasks + [task.value];
      }
      i := i + 1;
    }
    assert lines[..i] == lines;
  }

  /** The loop of `save`: one record per task, in list order. */
  function Save(tasks: seq<Task>): (lines: seq<string>)
    ensures |lines| == |tasks|
    ensures forall i :: 0 <= i < |tasks| ==> lines[i] == Record(tasks[i])
  {
    if |tasks| == 0 then [] else Save(tasks[..|tasks| - 1]) + [Record(tasks[|tasks| - 1])]
  }

  /** A character at which `Scanner.nextLine` ends a line. */
  predicate IsLineBreak(c: char) {
    c == '\n' || c == '\r' || c == '\U{0085}' || c == '\U{2028}' || c == '\U{2029}'
  }

  /** Text that `Scanner.nextLine` reads as (part of) a single line. */
  predicate Unbroken(s: string) {
    forall i :: 0 <= i < |s| ==> !IsLineBreak(s[i])
  }

  /** A text that survives the record format: no `|` and no line break in it, and nothing at
      either end that `trim` would strip. */
  predicate StorableText(s: string) {
    '|' !in s && Unbroken(s) && (s == [] || (!IsTrimmable(s[0]) && !IsTrimmable(s[|s| - 1])))
  }

  /** The texts of a task's record survive the format, and its last field is not empty. */
  predicate StorableFields(t: Task) {
    (forall i :: 2 <= i < |Fields(t)| ==> StorableText(Fields(t)[i]))
    && Fields(t)[|Fields(t)| - 1] != []
  }

  /** A task whose record reads back to itself: its record's fields are storable, it carries
      no recurrence tag (records never write one), and its date fields are what the cascade
      makes of its texts. */
  predicate Storable(t: Task) {
    Interpreted(t) && StorableFields(t) && (t.Event? ==> t.recurrence.None?)
  }

  lemma SeparatorKeyed()
    ensures KeyedAt([Separator], '|', 1) && PrefixFree([Separator]) && Separator in [Separator]
  {
  }

  /** A storable task's record splits into its fields. */
  lemma RecordSplits(t: Task)
    requires StorableFields(t)
    ensures Split(Record(t), Delimiter) == Fields(t)
  {
    var fields := Fields(t);
    SeparatorKeyed();
    NoKeyNoMatch(fields[|fields| - 1], [Separator], '|', 1);
    SplitOfJoin(fields, Separator, [Separator], '|', 1);
  }

  /** A storable task's record holds no line break, so the file keeps it on one line and
      `nextLine` reads it back whole. */
  lemma RecordUnbroken(t: Task)
    requires Storable(t)
    ensures Unbroken(Record(t))
  {
    var fields := Fields(t);
    forall i | 0 <= i < |fields|
      ensures Unbroken(fields[i])
    {
      if i >= 2 {
        assert StorableText(fields[i]);
      }
    }
    JoinUnbroken(fields, Separator);
  }

  lemma UnbrokenConcat(a: string, b: string)
    requires Unbroken(a) && Unbroken(b)
    ensures Unbroken(a + b)
  {
    assert forall k :: |a| <= k < |a + b| ==> (a + b)[k] == b[k - |a|];
  }

  lemma {:induction false} JoinUnbroken(ps: seq<string>, d: string)
    requires Unbroken(d) && forall i :: 0 <= i < |ps| ==> Unbroken(ps[i])
    ensures Unbroken(Join(ps, d))
  {
    if |ps| > 1 {
      JoinUnbroken(ps[1..], d);
      UnbrokenConcat(ps[0], d);
      UnbrokenConcat(ps[0] + d, Join(ps[1..], d));
    }
  }

  /** The fields of a storable task are already trimmed. */
  lemma FieldsTrimmed(t: Task)
    requires StorableFields(t)
    ensures TrimAll(Fields(t)) == Fields(t)
  {
    var fields := Fields(t);
    forall i | 0 <= i < |fields|
      ensures Trim(fields[i]) == fields[i]
    {
      assert fields[i] == [] || (!IsTrimmable(fields[i][0]) && !IsTrimmable(fields[i][|fields[i]| - 1])) by {
        if i >= 2 {
          assert StorableText(fields[i]);
        }
      }
      TrimOfTrimmed(fields[i]);
    }
    TrimAllTrimmed(fields);
  }

  lemma TrimAllTrimmed(parts: seq<string>)
    requires forall i :: 0 <= i < |parts| ==> Trim(parts[i]) == parts[i]
    ensures TrimAll(parts) == parts
  {
  }

  /** The type switch rebuilds a storable task, not yet marked. */
  lemma BuildFields(t: Task)
    requires Storable(t)
    ensures Build(Fields(t)) == Some(t.(isDone := false))
  {
    var fields := Fields(t);
    match t
    case Todo(_, _) =>
      assert fields[0] == "T";
    case Deadline(_, _, _, _) =>
      assert fields[0] == "D" && |fields| == 4;
    case Event(_, _, _, _, _, _, _) =>
      assert fields[0] == "E" && |fields| == 5;
  }

  lemma ParseTrimmed(raw: seq<string>, t: Task)
    requires |raw| >= MinParts && TrimAll(raw) == raw && Build(raw) == Some(t)
    ensures ParseFields(raw) == Some(if raw[1] == "1" then MarkDone(t) else t)
  {
  }

  /** Fields that are already trimmed, build `t` before its status is applied, and carry `1`
      as the status exactly when `t` is done, read to `t`. */
  lemma ReadsBack(raw: seq<string>, t: Task)
    requires |raw| >= MinParts && TrimAll(raw) == raw && Build(raw) == Some(t.(isDone := false))
    requires raw[1] == "1" <==> t.isDone
    ensures ParseFields(raw) == Some(t)
  {
    ParseTrimmed(raw, t.(isDone := false));
    if t.isDone {
      assert MarkDone(t.(isDone := false)) == t;
    } else {
      assert t.(isDone := false) == t;
    }
  }

  /** A storable task's fields read back to the task. */
  lemma FieldsRead(t: Task)
    requires Storable(t)
    ensures ParseFields(Fields(t)) == Some(t)
  {
    FieldsTrimmed(t);
    BuildFields(t);
    ReadsBack(Fields(t), t);
  }

  /** Reading a storable task's record gives the task back. */
  lemma ParseRecord(t: Task)
    requires Storable(t)
    ensures ParseTask(Record(t)) == Some(t)
  {
    RecordSplits(t);
    FieldsRead(t);
  }

  /** Loading lines that each read to a task gives those tasks, in order. */
  lemma {:induction false} LoadAllGood(read: string -> Option<Task>, lines: seq<string>, tasks: seq<Task>)
    requires |lines| == |tasks|
    requires forall i :: 0 <= i < |lines| ==> read(lines[i]) == Some(tasks[i])
    ensures LoadWith(read, lines) == tasks
  {
    if |lines| > 0 {
      var n := |lines| - 1;
      LoadAllGood(read, lines[..n], tasks[..n]);
      assert tasks == tasks[..n] + [tasks[n]];
    }
  }

  /** Saving storable tasks and loading the file gives the same tasks, in the same order. */
  lemma LoadSave(tasks: seq<Task>)
    requires forall i :: 0 <= i < |tasks| ==> Storable(tasks[i])
    ensures Load(Save(tasks)) == tasks
  {
    SavedLinesRead(tasks);
    LoadReads(Save(tasks), tasks);
  }

  /** Each line reads back as the task at the same position. */
  predicate ReadsAs(lines: seq<string>, tasks: seq<Task>) {
    |lines| == |tasks| && forall i :: 0 <= i < |lines| ==> ParseTask(lines[i]) == Some(tasks[i])
  }

  /** Every line of a save of storable tasks reads back as its task. */
  lemma SavedLinesRead(tasks: seq<Task>)
    requires forall i :: 0 <= i < |tasks| ==> Storable(tasks[i])
    ensures ReadsAs(Save(tasks), tasks)
  {
    forall i | 0 <= i < |tasks|
      ensures ParseTask(Save(tasks)[i]) == Some(tasks[i])
    {
      SavedLineReads(tasks, i);
    }
  }

  /** Lines that each parse to a task load to those tasks, in order. */
  lemma LoadReads(lines: seq<string>, tasks: seq<Task>)
    requires ReadsAs(lines, tasks)
    ensures Load(lines) == tasks
  {
    LoadAllGood(ParseTask, lines, tasks);
  }

  /** Line `i` of a save reads back to task `i` when that task is storable. */
  lemma SavedLineReads(tasks: seq<Task>, i: int)
    requires 0 <= i < |tasks| && Storable(tasks[i])
    ensures ParseTask(Save(tasks)[i]) == Some(tasks[i])
  {
    ParseRecord(tasks[i]);
  }

  /** A sixth field `none` reads exactly like a five-field event. */
  lemma NoneRecurrence(parts: seq<string>)
    requires |parts| == EventParts && parts[0] == "E"
    ensures Build(parts + ["none"]) == Build(parts)
  {
  }

  /** Any other sixth field is kept as the event's recurrence tag, and nothing else changes. */
  lemma OtherRecurrence(parts: seq<string>, tag: string)
    requires |parts| == EventParts && parts[0] == "E" && tag != "none"
    ensures var e := NewEvent(parts[2], parts[3], parts[4]);
      Build(parts) == Some(e) && Build(parts + [tag]) == Some(e.(recurrence := Some(tag)))
  {
  }

  /** The looser condition — texts trimmed and free of the separator ` | ` — does not make a
      record read back: a description ending in ` |` merges with the separator after it, so
      the record `D | 0 | a | | b` reads as a deadline `a` due `| b`. */
  lemma LooseRoundTripFails(t: Task)
    requires t == NewDeadline("a |", "b")
    ensures Trim(t.description) == t.description && !Contains(t.description, Separator)
    ensures ParseTask(Record(t)) == Some(NewDeadline("a", "| b"))
    ensures ParseTask(Record(t)) != Some(t)
  {
    LooseText(t.description);
    var fields := ["D", "0", "a", "| b"];
    LooseRecord(t, fields);
    LooseSplit(fields);
    LooseFields(fields);
  }

  lemma LooseText(s: string)
    requires s == "a |"
    ensures Trim(s) == s && !Contains(s, Separator)
  {
    TrimOfTrimmed(s);
    LooseNoSeparator(s);
  }

  lemma LooseNoSeparator(s: string)
    requires s == "a |"
    ensures !Contains(s, Separator)
  {
    assert s[0] != Separator[0];
    assert !OccursAt(s, Separator, 0);
  }

  lemma LooseRecord(t: Task, fields: seq<string>)
    requires t == NewDeadline("a |", "b") && fields == ["D", "0", "a", "| b"]
    ensures Record(t) == Join(fields, Separator)
  {
    var f := Fields(t);
    assert f == ["D", "0", "a |", "b"];
    assert Join(f[2..], Separator) == "a |" + Separator + "b";
    assert Join(fields[2..], Separator) == "a" + Separator + "| b";
    assert f[1..][1..] == f[2..] && fields[1..][1..] == fields[2..];
  }

  lemma LooseSplit(fields: seq<string>)
    requires fields == ["D", "0", "a", "| b"]
    ensures Split(Join(fields, Separator), Delimiter) == fields
  {
    SeparatorKeyed();
    NoKeyBeyond(fields[3], [Separator], '|', 1);
    SplitOfJoin(fields, Separator, [Separator], '|', 1);
  }

  lemma LooseFields(fields: seq<string>)
    requires fields == ["D", "0", "a", "| b"]
    ensures ParseFields(fields) == Some(NewDeadline("a", "| b"))
  {
    LooseTrimmed(fields);
    assert Build(fields) == Some(NewDeadline(fields[2], fields[3]));
  }

  lemma LooseTrimmed(fields: seq<string>)
    requires fields == ["D", "0", "a", "| b"]
    ensures TrimAll(fields) == fields
  {
    forall i | 0 <= i < |fields|
      ensures Trim(fields[i]) == fields[i]
    {
      TrimOfTrimmed(fields[i]);
    }
    TrimAllTrimmed(fields);
  }
}

=== FILE: string_formatter.dfy ===
/** The tracker's reply texts: a count of tasks with its noun in the right number, a numbered
    list line, and the three-line confirmations of an addition and a removal. */
module StringFormatter {
  import opened Wrappers
  import opened JavaText
  import opened Decimal

  const Singular := "task"
  const Plural := "tasks"

  /** `formatTaskCount`: the count, a space, and the noun, singular only for exactly one. */
  function FormatTaskCount(count: int): (r: string)
    requires IsInt32(count)
    ensures |r| > 5 && (r[|r| - 5..] == " task" || r[|r| - 6..] == " tasks")
    ensures (r[|r| - 1] == 's') <==> count != 1
  {
    IntToString(count) + " " + (if count == 1 then Singular else Plural)
  }

  /** Reads a count back from `<number> task` or `<number> tasks`, insisting that the noun
      agrees with the number. */
  function ReadTaskCount(s: string): Option<int> {
    var words := Split(s, SpaceRun);
    if |words| != 2 then None
    else match ParseInt(words[0])
      case None => None
      case Some(n) =>
        if words[1] == (if n == 1 then Singular else Plural) then Some(n) else None
  }

  /** A text without `\s` followed by one space and another such text splits into the two. */
  lemma TwoWords(w: string, x: string)
    requires NoSpace(w) && |x| > 0 && NoSpace(x)
    ensures Split(w + " " + x, SpaceRun) == [w, x]
  {
    PiecesOfSpaced(w, " ", x);
    PiecesOfWord(x);
    FirstSpaceRun(w, " ", x);
    SplitKeepsPieces(w + " " + x, SpaceRun, [w, x]);
  }

  lemma IntTextHasNoSpace(n: int)
    ensures NoSpace(IntToString(n)) && '.' !in IntToString(n) && '\n' !in IntToString(n)
  {
    IntToStringChars(n);
  }

  /** Every count is read back from its formatted text. */
  lemma TaskCountReadsBack(count: int)
    requires IsInt32(count)
    ensures ReadTaskCount(FormatTaskCount(count)) == Some(count)
  {
    var noun := if count == 1 then Singular else Plural;
    IntTextHasNoSpace(count);
    assert NoSpace(noun);
    TwoWords(IntToString(count), noun);
    ParseIntToString(count);
  }

  /** `formatListItem`: the one-based position (computed in `int` arithmetic), a full stop, a
      space, and the item's text. */
  function FormatListItem(index: int, item: string): (r: string)
    requires IsInt32(index)
    ensures |r| > |item| + 2 && r[|r| - |item|..] == item
  {
    IntToString(Wrap32(index + 1)) + ". " + item
  }

  lemma ListSeparatorKeyed()
    ensures KeyedAt([". "], '.', 0) && PrefixFree([". "])
  {
  }

  /** Cutting a list line at its first `. ` gives back the position and the item; the position
      is one more than the index for every index a list can have. */
  lemma ListItemReadsBack(index: int, item: string)
    requires IsInt32(index)
    ensures var parts := SplitOnce(FormatListItem(index, item), Literals([". "]));
      |parts| == 2 && ParseInt(parts[0]) == Some(Wrap32(index + 1)) && parts[1] == item
    ensures 0 <= index < MaxInt ==> Wrap32(index + 1) == index + 1
  {
    var n := Wrap32(index + 1);
    IntTextHasNoSpace(n);
    ListSeparatorKeyed();
    SplitOnceAtJoint(IntToString(n), ". ", item, [". "], '.', 0);
    ParseIntToString(n);
    if 0 <= index < MaxInt {
      Wrap32OfInt32(index + 1);
    }
  }

  const AddedHeader := "Got it. I've added this task:"
  const RemovedHeader := "Noted. I've removed this task:"
  const Indent := "  "

  /** The last line of both confirmations. */
  function CountLine(totalTasks: int): string
    requires IsInt32(totalTasks)
  {
    "Now you have " + FormatTaskCount(totalTasks) + " in the list."
  }

  /** A header, the task's text indented on a line of its own, and the new count. */
  function Report(header: string, taskString: string, totalTasks: int): string
    requires IsInt32(totalTasks)
  {
    header + "\n" + (Indent + taskString + "\n" + CountLine(totalTasks))
  }

  /** `formatTaskAdded`. */
  function FormatTaskAdded(taskString: string, totalTasks: int): (r: string)
    requires IsInt32(totalTasks)
    ensures AddedHeader + "\n" <= r
  {
    Report(AddedHeader, taskString, totalTasks)
  }

  /** `formatTaskRemoved`. */
  function FormatTaskRemoved(taskString: string, totalTasks: int): (r: string)
    requires IsInt32(totalTasks)
    ensures RemovedHeader + "\n" <= r
  {
    Report(RemovedHeader, taskString, totalTasks)
  }

  lemma NoNewlineConcat(a: string, b: string)
    requires '\n' !in a && '\n' !in b
    ensures '\n' !in a + b
  {
  }

  lemma CountLineHasNoNewline(totalTasks: int)
    requires IsInt32(totalTasks)
    ensures '\n' !in CountLine(totalTasks) && CountLine(totalTasks) != []
  {
    IntTextHasNoSpace(totalTasks);
    var noun := if totalTasks == 1 then Singular else Plural;
    var lead := "Now you have ";
    var tail := " in the list.";
    assert '\n' !in noun && '\n' !in lead && '\n' !in tail && '\n' !in " ";
    NoNewlineConcat(IntToString(totalTasks), " ");
    NoNewlineConcat(IntToString(totalTasks) + " ", noun);
    NoNewlineConcat(lead, FormatTaskCount(totalTasks));
    NoNewlineConcat(lead + FormatTaskCount(totalTasks), tail);
  }

  lemma JoinThree(a: string, b: string, c: string, d: string)
    ensures Join([a, b, c], d) == a + d + (b + d + c)
  {
    assert [a, b, c][1..] == [b, c];
    assert [b, c][1..] == [c];
    assert Join([c], d) == c;
    assert Join([b, c], d) == b + d + c;
  }

  /** Three single lines joined by newlines split back into the three. */
  lemma ThreeLines(a: string, b: string, c: string)
    requires '\n' !in a && '\n' !in b && '\n' !in c && c != []
    ensures Split(a + "\n" + (b + "\n" + c), Literals(["\n"])) == [a, b, c]
  {
    assert KeyedAt(["\n"], '\n', 0);
    NoKeyNoMatch(c, ["\n"], '\n', 0);
    JoinThree(a, b, c, "\n");
    var lines := [a, b, c];
    assert forall i :: 0 <= i < |lines| - 1 ==> '\n' !in lines[i] by {
      assert lines[0] == a && lines[1] == b;
    }
    SplitOfJoin(lines, "\n", ["\n"], '\n', 0);
  }

  /** A confirmation whose header and task text are single lines has exactly three lines: the
      header, the indented task, and the count. */
  lemma ReportLines(header: string, taskString: string, totalTasks: int)
    requires IsInt32(totalTasks)
    requires '\n' !in header && '\n' !in taskString
    ensures Split(Report(header, taskString, totalTasks), Literals(["\n"]))
      == [header, Indent + taskString, CountLine(totalTasks)]
  {
    CountLineHasNoNewline(totalTasks);
    NoNewlineConcat(Indent, taskString);
    ThreeLines(header, Indent + taskString, CountLine(totalTasks));
  }

  /** Both confirmations are three lines, and their second and third lines agree: only the
      header tells an addition from a removal. */
  lemma ConfirmationLines(taskString: string, totalTasks: int)
    requires IsInt32(totalTasks) && '\n' !in taskString
    ensures Split(FormatTaskAdded(taskString, totalTasks), Literals(["\n"]))
      == [AddedHeader, Indent + taskString, CountLine(totalTasks)]
    ensures Split(FormatTaskRemoved(taskString, totalTasks), Literals(["\n"]))
      == [RemovedHeader, Indent + taskString, CountLine(totalTasks)]
  {
    assert '\n' !in AddedHeader;
    assert '\n' !in RemovedHeader;
    ReportLines(AddedHeader, taskString, totalTasks);
    ReportLines(RemovedHeader, taskString, totalTasks);
  }
}

=== FILE: task.dfy ===
/** The task entities: a tagged union of to-dos, deadlines and events, each with a done flag,
    a display line and a storage record. The date fields of deadlines and events are read once,
    when the task is built, by the date-time, else date, else raw-text cascade. */
module Tasks {
  import opened Wrappers
  import opened DateTimeParser
  import JavaText

  /** What a date field turned out to be: a date-time, a date, or text that neither pattern
      accepts. One value of this type is "at most one of a date-time and a date". */
  datatype Moment = At(dateTime: DateTime) | On(date: Date) | Unparsed

  predicate ValidMoment(m: Moment) {
    match m
    case At(t) => ValidDateTime(t)
    case On(d) => ValidDate(d)
    case Unparsed => true
  }

  /** The cascade of the `Deadline` and `Event` constructors: the date pattern is only tried
      when the date-time pattern has failed. */
  function Interpret(raw: string): (m: Moment)
    ensures ValidMoment(m)
    ensures m.At? <==> ParseDateTime(raw).Some?
    ensures m.On? <==> ParseDateTime(raw).None? && ParseDate(raw).Some?
    ensures m.At? ==> Some(m.dateTime) == ParseDateTime(raw)
    ensures m.On? ==> Some(m.date) == ParseDate(raw)
  {
    match ParseDateTime(raw)
    case Some(t) => At(t)
    case None =>
      match ParseDate(raw)
      case Some(d) => On(d)
      case None => Unparsed
  }

  /** Text written in the input pattern is read as the date-time it spells. */
  lemma InterpretInputText(t: DateTime)
    requires ValidDateTime(t) && 1 <= t.date.year <= 9999
    ensures Interpret(InputText(t)) == At(t)
  {
    ParseInputText(t);
  }

  /** An ISO date is read as a date, because the date-time pattern never accepts it. */
  lemma InterpretIsoText(d: Date)
    requires ValidDate(d) && 0 <= d.year <= 9999
    ensures Interpret(IsoText(d)) == On(d)
  {
    ParseIsoText(d);
    PatternsExclusive(IsoText(d));
  }

  /** How a date field is displayed: the formatted date-time, else the formatted date, else
      the raw text as the user wrote it. A shown date loses nothing for four-digit years. */
  function Show(m: Moment, raw: string): (r: string)
    requires ValidMoment(m)
    ensures m.Unparsed? ==> r == raw
    ensures m.At? && 1 <= m.dateTime.date.year <= 9999 ==> ReadDateTime(r) == Some(m.dateTime)
    ensures m.On? && 1 <= m.date.year <= 9999 ==> ReadDate(r) == Some(m.date)
  {
    match m
    case At(t) => FormatDateTime(t)
    case On(d) => FormatDate(d)
    case Unparsed => raw
  }

  /** `Task` and its three subclasses. The raw date text is kept next to what it was read as;
      `recurrence` is the optional sixth field of a stored event, carried but never shown. */
  datatype Task =
    | Todo(description: string, isDone: bool)
    | Deadline(description: string, isDone: bool, dueText: string, due: Moment)
    | Event(description: string, isDone: bool, startText: string, endText: string,
            start: Moment, end: Moment, recurrence: Option<string>)

  /** The parsed date fields are what the cascade makes of the raw text. */
  predicate Interpreted(t: Task) {
    match t
    case Todo(_, _) => true
    case Deadline(_, _, dueText, due) => due == Interpret(dueText)
    case Event(_, _, startText, endText, start, end, _) => start == Interpret(startText) && end == Interpret(endText)
  }

  /** The parsed date fields are real calendar values. */
  predicate WellFormed(t: Task) {
    match t
    case Todo(_, _) => true
    case Deadline(_, _, _, due) => ValidMoment(due)
    case Event(_, _, _, _, start, end, _) => ValidMoment(start) && ValidMoment(end)
  }

  lemma InterpretedIsWellFormed(t: Task)
    requires Interpreted(t)
    ensures WellFormed(t)
  {
  }

  /** `new Todo(description)`: not done, description kept verbatim. */
  function NewTodo(description: string): (r: Task)
    ensures r.Todo? && !r.isDone && r.description == description
    ensures Interpreted(r)
  {
    Todo(description, false)
  }

  /** `new Deadline(description, dueText)`. */
  function NewDeadline(description: string, dueText: string): (r: Task)
    ensures r.Deadline? && !r.isDone && r.description == description && r.dueText == dueText
    ensures Interpreted(r) && WellFormed(r)
  {
    Deadline(description, false, dueText, Interpret(dueText))
  }

  /** `new Event(description, startText, endText)`: the two ends are read independently. */
  function NewEvent(description: string, startText: string, endText: string): (r: Task)
    ensures r.Event? && !r.isDone && r.description == description && r.startText == startText && r.endText == endText
    ensures r.recurrence.None?
    ensures Interpreted(r) && WellFormed(r)
  {
    Event(description, false, startText, endText, Interpret(startText), Interpret(endText), None)
  }

  /** `getStatusIcon`. */
  function StatusIcon(t: Task): (r: string)
    ensures |r| == 1
    ensures r == "X" <==> t.isDone
    ensures r == " " <==> !t.isDone
  {
    if t.isDone then "X" else " "
  }

  /** `markDone`: the flag is set and nothing else changes. */
  function MarkDone(t: Task): (r: Task)
    ensures r.isDone
    ensures r.(isDone := t.isDone) == t
  {
    t.(isDone := true)
  }

  /** `markNotDone`: the flag is cleared and nothing else changes. */
  function MarkNotDone(t: Task): (r: Task)
    ensures !r.isDone
    ensures r.(isDone := t.isDone) == t
  {
    t.(isDone := false)
  }

  lemma MarkIdempotent(t: Task)
    ensures MarkDone(MarkDone(t)) == MarkDone(t)
    ensures MarkNotDone(MarkNotDone(t)) == MarkNotDone(t)
  {
  }

  /** Marking a fresh task done and then not done gives the fresh task back. */
  lemma MarkThenUnmark(t: Task)
    requires !t.isDone
    ensures MarkNotDone(MarkDone(t)) == t
    ensures StatusIcon(MarkNotDone(MarkDone(t))) == " "
  {
  }

  lemma MarkKeepsInterpretation(t: Task)
    requires Interpreted(t)
    ensures Interpreted(MarkDone(t)) && Interpreted(MarkNotDone(t))
  {
  }

  /** The type letter at the head of a record (`T`, `D`, `E`). */
  function Kind(t: Task): (r: string)
    ensures |r| == 1
  {
    match t
    case Todo(_, _) => "T"
    case Deadline(_, _, _, _) => "D"
    case Event(_, _, _, _, _, _, _) => "E"
  }

  function StatusDigit(t: Task): (r: string)
    ensures |r| == 1
    ensures r == "1" <==> t.isDone
  {
    if t.isDone then "1" else "0"
  }

  /** `Task.toFileFormat`. */
  function BaseRecord(t: Task): string {
    "| " + StatusDigit(t) + " | " + t.description
  }

  /** What a subclass's `toFileFormat` appends to the base record: the raw date text, never
      the parsed value. */
  function RecordTail(t: Task): string {
    match t
    case Todo(_, _) => ""
    case Deadline(_, _, dueText, _) => " | " + dueText
    case Event(_, _, startText, endText, _, _, _) => " | " + startText + " | " + endText
  }

  /** `toFileFormat`: the type letter, the base record, the date fields; that is, the fields
      joined by ` | `. */
  function Record(t: Task): (r: string)
    ensures r == JavaText.Join(Fields(t), " | ")
  {
    DatesJoin(t);
    JoinHead(Kind(t), StatusDigit(t), [t.description] + DateTexts(t));
    RecordShape(Kind(t), StatusDigit(t), t.description, RecordTail(t));
    Kind(t) + " " + BaseRecord(t) + RecordTail(t)
  }

  /** The raw date texts a record ends with. */
  function DateTexts(t: Task): (r: seq<string>)
    ensures |r| == (match t case Todo(_, _) => 0 case Deadline(_, _, _, _) => 1 case Event(_, _, _, _, _, _, _) => 2)
  {
    match t
    case Todo(_, _) => []
    case Deadline(_, _, dueText, _) => [dueText]
    case Event(_, _, startText, endText, _, _, _) => [startText, endText]
  }

  /** The fields of a record, in order: type letter, status digit, description, dates. */
  function Fields(t: Task): (r: seq<string>)
    ensures |r| >= 3 && r[0] == Kind(t) && r[1] == StatusDigit(t) && r[2] == t.description
    ensures r[3..] == DateTexts(t)
  {
    [Kind(t)] + ([StatusDigit(t)] + ([t.description] + DateTexts(t)))
  }

  /** The description and the dates, joined, are the description followed by the record tail. */
  lemma DatesJoin(t: Task)
    ensures JavaText.Join([t.description] + DateTexts(t), " | ") == t.description + RecordTail(t)
  {
    match t
    case Todo(_, _) =>
      assert [t.description] + DateTexts(t) == [t.description];
    case Deadline(_, _, dueText, _) =>
      JavaText.JoinCons(t.description, [dueText], " | ");
    case Event(_, _, startText, endText, _, _, _) =>
      JavaText.JoinCons(startText, [endText], " | ");
      JavaText.JoinCons(t.description, [startText, endText], " | ");
  }

  lemma JoinHead(k: string, st: string, fields: seq<string>)
    requires |fields| >= 1
    ensures JavaText.Join([k] + ([st] + fields), " | ") == k + " | " + (st + " | " + JavaText.Join(fields, " | "))
  {
    JavaText.JoinCons(st, fields, " | ");
    JavaText.JoinCons(k, [st] + fields, " | ");
  }

  lemma RecordShape(k: string, st: string, desc: string, tail: string)
    ensures k + " " + ("| " + st + " | " + desc) + tail == k + " | " + (st + " | " + (desc + tail))
  {
    assert " " + "| " == " | ";
  }

  /** `Task.toString`. */
  function BaseDisplay(t: Task): string {
    "[" + StatusIcon(t) + "] " + t.description
  }

  /** What a subclass's `toString` appends: each date shown formatted, or as raw text. */
  function DisplayTail(t: Task): string
    requires WellFormed(t)
  {
    match t
    case Todo(_, _) => ""
    case Deadline(_, _, dueText, due) => " (by: " + Show(due, dueText) + ")"
    case Event(_, _, startText, endText, start, end, _) =>
      " (from: " + Show(start, startText) + " to: " + Show(end, endText) + ")"
  }

  /** `toString`: the bracketed type letter, the base display, the dates. The line starts with
      the type letter and the status icon, then the description. A to-do ends there; a deadline
      adds its due date and an event its two ends, each shown as `Show` gives it. */
  function Display(t: Task): (r: string)
    requires WellFormed(t)
    ensures var n := |t.description|;
      7 + n <= |r| && r[..3] == "[" + Kind(t) + "]" && r[3..7] == "[" + StatusIcon(t) + "] "
      && r[7..7 + n] == t.description
    ensures t.Todo? ==> |r| == 7 + |t.description|
    ensures t.Deadline? ==> r[7 + |t.description|..] == " (by: " + Show(t.due, t.dueText) + ")"
    ensures t.Event? ==>
      r[7 + |t.description|..] == " (from: " + Show(t.start, t.startText) + " to: " + Show(t.end, t.endText) + ")"
  {
    DisplayLayout(Kind(t), StatusIcon(t), t.description, DisplayTail(t));
    "[" + Kind(t) + "]" + BaseDisplay(t) + DisplayTail(t)
  }

  /** Where the parts of a display line sit. */
  lemma DisplayLayout(k: string, icon: string, desc: string, tail: string)
    requires |k| == 1 && |icon| == 1
    ensures var r := "[" + k + "]" + ("[" + icon + "] " + desc) + tail; var n := |desc|;
      7 + n <= |r| && r[..3] == "[" + k + "]" && r[3..7] == "[" + icon + "] " && r[7..7 + n] == desc
      && r[7 + n..] == tail
  {
    var r := "[" + k + "]" + ("[" + icon + "] " + desc) + tail;
    var head := "[" + k + "][" + icon + "] ";
    assert r == head + desc + tail;
  }

  /** A record starts with the type letter and the status digit, then the description. */
  lemma RecordHead(t: Task)
    ensures var r := Record(t); var n := |t.description|;
      8 + n <= |r| && r[..4] == Kind(t) + " | " && r[4..5] == StatusDigit(t) && r[5..8] == " | "
      && r[8..8 + n] == t.description
  {
    RecordLayout(Kind(t), StatusDigit(t), t.description, RecordTail(t));
  }

  /** Where the parts of a record sit. */
  lemma RecordLayout(k: string, st: string, desc: string, tail: string)
    requires |k| == 1 && |st| == 1
    ensures var r := k + " " + ("| " + st + " | " + desc) + tail; var n := |desc|;
      8 + n <= |r| && r[..4] == k + " | " && r[4..5] == st && r[5..8] == " | " && r[8..8 + n] == desc
  {
    var r := k + " " + ("| " + st + " | " + desc) + tail;
    var head := k + " | " + st + " | ";
    assert r == head + desc + tail;
  }

  /** The status flag does not reach the date fields. */
  lemma TailsIgnoreStatus(t: Task, done: bool)
    requires WellFormed(t)
    ensures WellFormed(t.(isDone := done))
    ensures DisplayTail(t.(isDone := done)) == DisplayTail(t)
    ensures RecordTail(t.(isDone := done)) == RecordTail(t)
  {
  }

  /** Replacing one character of a text changes nothing around it. */
  lemma ReplaceOne(p: string, a: string, b: string, q: string)
    requires |a| == 1 && |b| == 1
    ensures |p + b + q| == |p + a + q| && (p + b + q)[|p|] == b[0]
    ensures forall i :: 0 <= i < |p + a + q| && i != |p| ==> (p + b + q)[i] == (p + a + q)[i]
  {
  }

  /** Changing the status changes one character of the display line (the icon at position 4),
      and nothing else. */
  lemma StatusChangesDisplayIcon(t: Task, done: bool)
    requires WellFormed(t)
    ensures WellFormed(t.(isDone := done))
    ensures var u := t.(isDone := done);
      |Display(u)| == |Display(t)| && Display(u)[4] == (if done then 'X' else ' ')
      && forall i :: 0 <= i < |Display(t)| && i != 4 ==> Display(u)[i] == Display(t)[i]
  {
    var u := t.(isDone := done);
    TailsIgnoreStatus(t, done);
    var shown := "] " + t.description + DisplayTail(t);
    DisplayShape(Kind(t), StatusIcon(t), t.description, DisplayTail(t));
    DisplayShape(Kind(t), StatusIcon(u), t.description, DisplayTail(t));
    ReplaceOne("[" + Kind(t) + "][", StatusIcon(t), StatusIcon(u), shown);
  }

  lemma DisplayShape(k: string, icon: string, desc: string, tail: string)
    requires |k| == 1
    ensures |"[" + k + "]["| == 4
    ensures "[" + k + "]" + ("[" + icon + "] " + desc) + tail == "[" + k + "][" + icon + ("] " + desc + tail)
  {
    assert "]" + "[" == "][";
  }

  /** Changing the status changes one character of the record (the digit at position 4), and
      nothing else. */
  lemma StatusChangesRecordDigit(t: Task, done: bool)
    ensures var u := t.(isDone := done);
      |Record(u)| == |Record(t)| && Record(u)[4] == (if done then '1' else '0')
      && forall i :: 0 <= i < |Record(t)| && i != 4 ==> Record(u)[i] == Record(t)[i]
  {
    var u := t.(isDone := done);
    assert RecordTail(u) == RecordTail(t);
    var stored := " | " + t.description + RecordTail(t);
    RecordDigitShape(Kind(t), StatusDigit(t), t.description, RecordTail(t));
    RecordDigitShape(Kind(t), StatusDigit(u), t.description, RecordTail(t));
    ReplaceOne(Kind(t) + " | ", StatusDigit(t), StatusDigit(u), stored);
  }

  lemma RecordDigitShape(k: string, digit: string, desc: string, tail: string)
    requires |k| == 1
    ensures |k + " | "| == 4
    ensures k + " " + ("| " + digit + " | " + desc) + tail == k + " | " + digit + (" | " + desc + tail)
  {
    assert " " + "| " == " | ";
  }
}

=== FILE: task_examples.dfy ===
/** The display lines of the tracker's own unit tests for `Todo`, `Deadline` and `Event`. Each
    date text is first read with the date examples, then the line is assembled from the parts.
    Each expected line is written split where its parts meet; the pieces join to the line itself. */
module TaskExamples {
  import opened Wrappers
  import opened DateTimeParser
  import opened Tasks
  import DateExamples

  /** How the cascade reads a text, given what the two patterns make of it. */
  lemma ReadsAsDateTime(s: string, t: DateTime)
    requires ParseDateTime(s) == Some(t)
    ensures Interpret(s) == At(t)
  {
  }

  lemma ReadsAsDate(s: string, d: Date)
    requires ParseDateTime(s) == None && ParseDate(s) == Some(d)
    ensures Interpret(s) == On(d)
  {
  }

  lemma ReadsAsText(s: string)
    requires ParseDateTime(s) == None && ParseDate(s) == None
    ensures Interpret(s) == Unparsed
  {
  }

  /** A display line is its head, the description and the tail. */
  lemma DisplayParts(t: Task)
    requires WellFormed(t)
    ensures Display(t) == ("[" + Kind(t) + "][" + StatusIcon(t) + "] ") + t.description + DisplayTail(t)
  {
    var k, icon, tail := Kind(t), StatusIcon(t), DisplayTail(t);
    assert Display(t) == "[" + k + "]" + ("[" + icon + "] " + t.description) + tail;
    Assemble(k, icon, t.description, tail);
  }

  lemma Assemble(k: string, icon: string, desc: string, tail: string)
    ensures "[" + k + "]" + ("[" + icon + "] " + desc) + tail == ("[" + k + "][" + icon + "] ") + desc + tail
  {
  }

  /** The six heads a display line can start with. */
  lemma Heads()
    ensures "[" + "T" + "][" + " " + "] " == "[T][ ] " && "[" + "T" + "][" + "X" + "] " == "[T][X] "
    ensures "[" + "D" + "][" + " " + "] " == "[D][ ] " && "[" + "D" + "][" + "X" + "] " == "[D][X] "
    ensures "[" + "E" + "][" + " " + "] " == "[E][ ] " && "[" + "E" + "][" + "X" + "] " == "[E][X] "
  {
  }

  /** A to-do's line, before and after marking. */
  lemma TodoLine(desc: string)
    ensures Display(NewTodo(desc)) == "[T][ ] " + desc + ""
    ensures Display(MarkDone(NewTodo(desc))) == "[T][X] " + desc + ""
  {
    Heads();
    DisplayParts(NewTodo(desc));
    DisplayParts(MarkDone(NewTodo(desc)));
  }

  /** A deadline's line, given how its due text is shown. */
  lemma DeadlineLine(desc: string, dueText: string, shown: string)
    requires Show(Interpret(dueText), dueText) == shown
    ensures Display(NewDeadline(desc, dueText)) == "[D][ ] " + desc + (" (by: " + shown + ")")
    ensures Display(MarkDone(NewDeadline(desc, dueText))) == "[D][X] " + desc + (" (by: " + shown + ")")
  {
    Heads();
    var t := NewDeadline(desc, dueText);
    assert DisplayTail(t) == " (by: " + shown + ")" == DisplayTail(MarkDone(t));
    DisplayParts(t);
    DisplayParts(MarkDone(t));
  }

  /** An event's line, given how its two ends are shown. */
  lemma EventLine(desc: string, startText: string, endText: string, from: string, to: string)
    requires Show(Interpret(startText), startText) == from && Show(Interpret(endText), endText) == to
    ensures Display(NewEvent(desc, startText, endText))
      == "[E][ ] " + desc + (" (from: " + from + " to: " + to + ")")
    ensures Display(MarkDone(NewEvent(desc, startText, endText)))
      == "[E][X] " + desc + (" (from: " + from + " to: " + to + ")")
  {
    Heads();
    var t := NewEvent(desc, startText, endText);
    assert DisplayTail(t) == " (from: " + from + " to: " + to + ")" == DisplayTail(MarkDone(t));
    DisplayParts(t);
    DisplayParts(MarkDone(t));
  }

  /** `new Todo("buy milk")` shows as `[T][ ] buy milk`, and as `[T][X] buy milk` once marked. */
  lemma TodoDisplayExample(desc: string)
    requires desc == "buy milk"
    ensures Display(NewTodo(desc)) == "[T][ ] " + "buy milk" + ""
    ensures Display(MarkDone(NewTodo(desc))) == "[T][X] " + "buy milk" + ""
  {
    TodoLine(desc);
  }

  /** A due text that is no date is shown as written: `[D][ ] homework (by: Sunday)`, and
      `[D][X] return book (by: Sunday)` once marked. */
  lemma DeadlineRawExample(desc: string, done: string, due: string)
    requires desc == "homework" && done == "return book" && due == "Sunday"
    ensures Display(NewDeadline(desc, due)) == "[D][ ] " + "homework" + (" (by: " + "Sunday" + ")")
    ensures Display(MarkDone(NewDeadline(done, due))) == "[D][X] " + "return book" + (" (by: " + "Sunday" + ")")
  {
    DateExamples.FreeTextExample(due);
    ReadsAsText(due);
    DeadlineLine(desc, due, due);
    DeadlineLine(done, due, due);
  }

  /** An ISO due date is shown as `MMM d yyyy`: `[D][ ] homework (by: Dec 15 2019)`. */
  lemma DeadlineDateExample(desc: string, due: string)
    requires desc == "homework" && due == "2019-12-15"
    ensures Display(NewDeadline(desc, due)) == "[D][ ] " + "homework" + (" (by: " + "Dec 15 2019" + ")")
  {
    DateExamples.DateExample(due);
    ReadsAsDate(due, Date(2019, 12, 15));
    DeadlineLine(desc, due, "Dec 15 2019");
  }

  /** A due date-time is shown as `MMM d yyyy, h:mma`: `[D][ ] submit report (by: Dec 15 2019, 6:00PM)`. */
  lemma DeadlineDateTimeExample(desc: string, due: string)
    requires desc == "submit report" && due == "2019-12-15 1800"
    ensures Display(NewDeadline(desc, due)) == "[D][ ] " + "submit report" + (" (by: " + "Dec 15 2019, 6:00PM" + ")")
  {
    var at := DateTime(Date(2019, 12, 15), 18, 0);
    DateExamples.DateTimeExample(due);
    DateExamples.DateTimeDisplayExample(at);
    ReadsAsDateTime(due, at);
    DeadlineLine(desc, due, "Dec 15 2019, 6:00PM");
  }

  /** Two ends that are no dates are shown as written: `[E][ ] meeting (from: Mon 2pm to: 4pm)`,
      and `[E][X] …` once marked. */
  lemma EventRawExample(desc: string, start: string, end: string)
    requires desc == "meeting" && start == "Mon 2pm" && end == "4pm"
    ensures Display(NewEvent(desc, start, end)) == "[E][ ] " + "meeting" + (" (from: " + "Mon 2pm" + " to: " + "4pm" + ")")
    ensures Display(MarkDone(NewEvent(desc, start, end)))
      == "[E][X] " + "meeting" + (" (from: " + "Mon 2pm" + " to: " + "4pm" + ")")
  {
    ReadsAsText(start);
    ReadsAsText(end);
    EventLine(desc, start, end, start, end);
  }

  /** Two ISO dates are each shown as `MMM d yyyy`: `[E][ ] conference (from: Dec 10 2019 to: Dec 12 2019)`. */
  lemma EventDateExample(desc: string, start: string, end: string)
    requires desc == "conference" && start == "2019-12-10" && end == "2019-12-12"
    ensures Display(NewEvent(desc, start, end))
      == "[E][ ] " + "conference" + (" (from: " + "Dec 10 2019" + " to: " + "Dec 12 2019" + ")")
  {
    DateExamples.Dec10Example(start);
    DateExamples.Dec12Example(end);
    ReadsAsDate(start, Date(2019, 12, 10));
    ReadsAsDate(end, Date(2019, 12, 12));
    EventLine(desc, start, end, "Dec 10 2019", "Dec 12 2019");
  }

  /** Two date-times are each shown as `MMM d yyyy, h:mma`:
      `[E][ ] workshop (from: Dec 5 2019, 2:00PM to: Dec 5 2019, 4:00PM)`. */
  lemma EventDateTimeExample(desc: string, start: string, end: string)
    requires desc == "workshop" && start == "2019-12-05 1400" && end == "2019-12-05 1600"
    ensures Display(NewEvent(desc, start, end))
      == "[E][ ] " + "workshop" + (" (from: " + "Dec 5 2019, 2:00PM" + " to: " + "Dec 5 2019, 4:00PM" + ")")
  {
    var from, to := DateTime(Date(2019, 12, 5), 14, 0), DateTime(Date(2019, 12, 5), 16, 0);
    DateExamples.Dec5At1400Example(start);
    DateExamples.Dec5At1600Example(end);
    DateExamples.AfternoonDisplayExample(from);
    DateExamples.Dec5At4PmDisplay(to);
    ReadsAsDateTime(start, from);
    ReadsAsDateTime(end, to);
    EventLine(desc, start, end, "Dec 5 2019, 2:00PM", "Dec 5 2019, 4:00PM");
  }
}

=== FILE: task_list.dfy ===
/** The ordered list of tasks. Both constructors of the list class adopt a sequence as it is
    (the empty one, or the one given), so the list is the sequence itself; `size` is its
    length and `getTasks` the sequence. */
module TaskLists {
  import opened Wrappers
  import opened Tasks
  import JavaText

  type TaskList = seq<Task>

  /** `add`: appends at the end; every existing position keeps its task. */
  function Add(ts: TaskList, t: Task): (r: TaskList)
    ensures |r| == |ts| + 1 && r[|ts|] == t
    ensures forall i :: 0 <= i < |ts| ==> r[i] == ts[i]
  {
    ts + [t]
  }

  /** `get`: the task at a position, or `None` where the list would throw. */
  function Get(ts: TaskList, i: int): (r: Option<Task>)
    ensures r.Some? <==> 0 <= i < |ts|
    ensures r.Some? ==> r.value == ts[i]
  {
    if 0 <= i < |ts| then Some(ts[i]) else None
  }

  /** What `remove` returns and what it leaves behind. */
  datatype Removal = Removal(removed: Task, rest: TaskList)

  /** `remove`: takes out the task at `i` and shifts the later ones down by one; `None` where
      the list would throw. */
  function Remove(ts: TaskList, i: int): (r: Option<Removal>)
    ensures r.Some? <==> 0 <= i < |ts|
    ensures r.Some? ==> r.value.removed == ts[i] && |r.value.rest| == |ts| - 1
    ensures r.Some? ==> forall k :: 0 <= k < i ==> r.value.rest[k] == ts[k]
    ensures r.Some? ==> forall k :: i <= k < |r.value.rest| ==> r.value.rest[k] == ts[k + 1]
  {
    if 0 <= i < |ts| then Some(Removal(ts[i], ts[..i] + ts[i + 1..])) else None
  }

  /** Putting the removed task back where it was restores the list. */
  lemma RemoveThenInsert(ts: TaskList, i: int)
    requires 0 <= i < |ts|
    ensures var r := Remove(ts, i).value; r.rest[..i] + [r.removed] + r.rest[i..] == ts
  {
    var r := Remove(ts, i).value;
    assert r.rest[..i] == ts[..i];
    assert r.rest[i..] == ts[i + 1..];
    assert ts == ts[..i] + [ts[i]] + ts[i + 1..];
  }

  /** Removing the task just added gives the old list back. */
  lemma RemoveAdded(ts: TaskList, t: Task)
    ensures Remove(Add(ts, t), |ts|) == Some(Removal(t, ts))
  {
    var u := Add(ts, t);
    assert u[..|ts|] + u[|ts| + 1..] == ts;
  }

  /** `findTasks`: the tasks whose description contains the keyword (case-sensitively), in
      list order. */
  function Find(ts: TaskList, keyword: string): (r: TaskList)
    ensures |r| <= |ts|
    ensures forall t :: t in r ==> t in ts && JavaText.Contains(t.description, keyword)
  {
    if |ts| == 0 then []
    else
      var last := ts[|ts| - 1];
      var init := ts[..|ts| - 1];
      assert forall t :: t in init ==> t in ts;
      Find(init, keyword) + (if JavaText.Contains(last.description, keyword) then [last] else [])
  }

  /** A task is found exactly when it is in the list and its description holds the keyword. */
  lemma {:induction false} FindMembers(ts: TaskList, keyword: string, t: Task)
    ensures t in Find(ts, keyword) <==> t in ts && JavaText.Contains(t.description, keyword)
  {
    if |ts| > 0 {
      var init := ts[..|ts| - 1];
      FindMembers(init, keyword, t);
      assert ts == init + [ts[|ts| - 1]];
    }
  }

  /** Filtering commutes with concatenation: the matches keep their relative order. */
  lemma {:induction false} FindAppend(a: TaskList, b: TaskList, keyword: string)
    ensures Find(a + b, keyword) == Find(a, keyword) + Find(b, keyword)
  {
    if |b| > 0 {
      var init := b[..|b| - 1];
      assert (a + b)[..|a + b| - 1] == a + init;
      FindAppend(a, init, keyword);
    } else {
      assert a + b == a;
    }
  }

  /** The list being searched is returned unchanged when every description matches, and
      nothing is returned when none does. */
  lemma FindAllOrNothing(ts: TaskList, keyword: string)
    ensures (forall t :: t in ts ==> JavaText.Contains(t.description, keyword)) ==> Find(ts, keyword) == ts
    ensures (forall t :: t in ts ==> !JavaText.Contains(t.description, keyword)) ==> Find(ts, keyword) == []
  {
    if forall t :: t in ts ==> JavaText.Contains(t.description, keyword) {
      assert forall i :: 0 <= i < |ts| ==> ts[i] in ts;
      FindAll(ts, keyword);
    }
    if forall t :: t in ts ==> !JavaText.Contains(t.description, keyword) {
      FindNothing(ts, keyword);
    }
  }

  lemma {:induction false} FindAll(ts: TaskList, keyword: string)
    requires forall i :: 0 <= i < |ts| ==> JavaText.Contains(ts[i].description, keyword)
    ensures Find(ts, keyword) == ts
  {
    if |ts| > 0 {
      var init, last := ts[..|ts| - 1], ts[|ts| - 1];
      assert forall i :: 0 <= i < |init| ==> init[i] == ts[i];
      FindAll(init, keyword);
      assert Find(ts, keyword) == Find(init, keyword) + [last];
      assert ts == init + [last];
    }
  }

  lemma {:induction false} FindNothing(ts: TaskList, keyword: string)
    requires forall t :: t in ts ==> !JavaText.Contains(t.description, keyword)
    ensures Find(ts, keyword) == []
  {
    if |ts| > 0 {
      var init := ts[..|ts| - 1];
      assert ts[|ts| - 1] in ts;
      assert forall t :: t in init ==> t in ts;
      FindNothing(init, keyword);
    }
  }

  /** The loop of `findTasks`: one pass over the list, keeping the matches. */
  method FindTasks(ts: TaskList, keyword: string) returns (matching: TaskList)
    ensures matching == Find(ts, keyword)
    ensures forall t :: t in matching <==> t in ts && JavaText.Contains(t.description, keyword)
  {
    matching := [];
    var i := 0;
    while i < |ts|
      invariant 0 <= i <= |ts|
      invariant matching == Find(ts[..i], keyword)
    {
      assert ts[..i + 1][..i] == ts[..i];
      if JavaText.Contains(ts[i].description, keyword) {
        matching := matching + [ts[i]];
      }
      i := i + 1;
    }
    assert ts[..i] == ts;
    forall t
      ensures t in matching <==> t in ts && JavaText.Contains(t.description, keyword)
    {
      FindMembers(ts, keyword, t);
    }
  }
}

=== FILE: wrappers.dfy ===
/** Failure-compatible result types shared by every module of the task tracker.
    A Java method that returns `null` on failure becomes an `Option`; one that throws an
    exception carrying a message becomes a `Result` (or an `Outcome` when it returns nothing). */
module Wrappers {

  /** `None` stands for Java's `null`. */
  datatype Option<+T> = None | Some(value: T) {

    predicate IsFailure() {
      None?
    }

    function PropagateFailure<U>(): Option<U>
      requires None?
    {
      None
    }

    function Extract(): T
      requires Some?
    {
      value
    }
  }

  /** A value, or the message of the exception the source would throw. */
  datatype Result<+T> = Success(value: T) | Failure(msg: string) {

    predicate IsFailure() {
      Failure?
    }

    function PropagateFailure<U>(): Result<U>
      requires Failure?
    {
      Failure(msg)
    }

    function Extract(): T
      requires Success?
    {
      value
    }
  }

  /** The result of a `void` check that either returns or throws with a message. */
  datatype Outcome = Pass | Fail(msg: string)
}
